=== FILE: README.md ===
# Dead code elimination on SIL, modelled in Dafny

This project models the SIL dead-code-elimination pass of the Swift
compiler (`lib/SIL/Passes/DeadCodeElimination.cpp`). For every function of
a SIL module the pass does two things:

- It walks the basic blocks in order. In each block it either folds a
  conditional branch whose condition is an integer literal into an
  unconditional branch, or it cuts the block short after the first call to
  a function that does not return, closing the block with `unreachable`.
- It then removes every block not reachable from the entry block.

Deleting an instruction can leave its operands without users. Two helpers
clean those up: a worklist deleter for trivially dead instructions, and a
batch deleter for a set of instructions.

The modules follow the source's structure:

- `IR` is the data model.
  - A function is an arena of instruction slots, where `None` means erased, plus a list of labelled blocks.
  - Each block holds instruction ids.
  - An instruction has an opcode, operands and a side-effect flag.
  - The terminators are `br`, `cond_br`, a multi-way `Switch` with a list of successors, `return` and `unreachable`.
  - Use counts are derived from the arena, so there is no separate use-list to keep consistent.
  - `WellFormed` collects the invariants of a SIL function that the pass relies on: one terminator, last in each block; distinct labels; branch targets present; no instruction placed twice.
- `Cascade`: `isInstructionTriviallyDead` and `recursivelyDeleteTriviallyDeadInstructions`.
- `Batch`: both `eraseAndCleanup` overloads, as written and as intended.
- `Preserve`: the shared shape of the two block rewrites, and the proof that it keeps a function well formed.
- `ConstantFold`: `constantFoldTerminator`.
- `NoReturn`: `simplifyBlocksWithCallsToNoReturn`.
- `Reachability`: the worklist search of `removeUnreachableBlocks`.
- `Sweep`: the rest of `removeUnreachableBlocks`.
- `Driver`: `performSILDeadCodeElimination`, with its two statistics returned as a `Stats` value.

Deletion is modelled as erasure for cause. An instruction outside the set a
caller asked to delete is erased only when it is disposable and an erased
instruction read it, and it is left with no users (`Cascade.ErasedForCause`).
The cascading deleter, both batch deleters, the fold, the cut and the sweep
all promise this. When the def-use graph is acyclic, as SSA makes it in SIL,
this cause is well founded (`Cascade.ForCauseFounded`). A set of
instructions that holds no seed and is read only by its own members, such as
a dead cycle, is then never erased (`Cascade.ClosedSetSpared`). Erasing
keeps an acyclic graph acyclic (`Cascade.RankKept`).

Three points where the code does something other than its comments and names
suggest. The model follows the code in each:

- The doc comment of the set form of `eraseAndCleanup` (lines 74-77) says
  it returns true when more instructions were deleted. Its body (lines
  79-110) starts `AdditionalChanged` at false and combines results with
  `&=`, so it always returns false (see Findings). The single-instruction
  overload (lines 113-119) forwards to the set form, so it returns false
  as well. Every caller uses the as-written form, and none reads the result
  (lines 149, 204, 245, 255). The corrected form deletes exactly the same
  instructions (`Batch.SameDeletion`), so the fix changes only the flag.
- The counter `NumInstructionsRemoved` (line 20) is named for the
  unreachable instructions removed. It is incremented only at line 188,
  once per instruction after a no-return call. It does not count the
  operands the cleanup removes, the folded conditional branch, or the
  instructions of unreachable blocks.
- The pass is not idempotent. On a block it closed after a side-effecting
  no-return call, a second run cuts again: it deletes the `unreachable` it
  added, counts one instruction and appends a fresh `unreachable`
  (`NoReturn.TruncationRefires`). The fold and the sweep are each
  idempotent (`ConstantFold.FoldIdempotent`, `Sweep.SweepIdempotent`); the
  cut after a no-return call is not.

## Model

| member | source | states |
|---|---|---|
| IR.UseCountZeroIff | lib/SIL/Passes/DeadCodeElimination.cpp:26 | an instruction has no uses exactly when no live instruction names it among its operands |
| Cascade.IsInstructionTriviallyDead | lib/SIL/Passes/DeadCodeElimination.cpp:25-33 | true exactly for a live instruction with no users that is neither a terminator nor side-effecting |
| Cascade.Retire | lib/SIL/Passes/DeadCodeElimination.cpp:48-68 | retiring one worklist entry erases exactly that slot and drops it from its block; it only appends to the worklist, and only ids that were its operands |
| Cascade.RetireCollects | lib/SIL/Passes/DeadCodeElimination.cpp:60-64 | every operand left trivially dead by dropping the references is pushed on the worklist |
| Cascade.RetireCounts | lib/SIL/Passes/DeadCodeElimination.cpp:51-58 | dropping the operands lowers each use count by exactly the number of references the retired instruction held |
| Cascade.Drain | lib/SIL/Passes/DeadCodeElimination.cpp:47-69 | the loop erases every worklist entry, changes no other slot except to erase it, and keeps every block equal to its surviving instructions |
| Cascade.DrainCounts | lib/SIL/Passes/DeadCodeElimination.cpp:47-69 | use counts only fall, and every erased instruction had no uses |
| Cascade.DrainNoNewDead | lib/SIL/Passes/DeadCodeElimination.cpp:47-69 | after the loop, whatever is trivially dead was already so before and was not on the worklist |
| Cascade.DrainSpread | lib/SIL/Passes/DeadCodeElimination.cpp:47-69 | besides the worklist entries, the loop erases only instructions that an instruction it erased read |
| Cascade.RecursivelyDelete | lib/SIL/Passes/DeadCodeElimination.cpp:39-72 | a non-dead instruction leaves the function unchanged and returns false; a dead one is erased and removed from every block and true is returned; anything else erased was read by an erased instruction and has no users left; nothing is left newly dead |
| Cascade.ForCauseFounded | lib/SIL/Passes/DeadCodeElimination.cpp:47-69 | on an acyclic def-use graph, every nonempty set of instructions erased besides the seeds has a member read by an erased instruction outside the set |
| Cascade.ClosedSetSpared | lib/SIL/Passes/DeadCodeElimination.cpp:47-69 | on an acyclic def-use graph, a deletion for cause erases nothing from a set that holds no seed and is read only by its own members |
| Cascade.RecursivelyDeleteSpares | lib/SIL/Passes/DeadCodeElimination.cpp:39-72 | on an acyclic def-use graph, the cascade erases nothing from a set that does not hold the starting instruction and is read only by its own members |
| Cascade.CascadeReach | lib/SIL/Passes/DeadCodeElimination.cpp:60-64 | no operand of an erased instruction is left trivially dead |
| Batch.Collect | lib/SIL/Passes/DeadCodeElimination.cpp:88-93 | the candidates are exactly the earlier ones plus the operand definitions not themselves doomed, without duplicates |
| Batch.DropReferences | lib/SIL/Passes/DeadCodeElimination.cpp:83-97 | every doomed instruction loses its operands and nothing else changes; the candidates are exactly the operand definitions of doomed instructions that are not themselves doomed |
| Batch.DropReferencesCounts | lib/SIL/Passes/DeadCodeElimination.cpp:83-97 | use counts only fall, and only for doomed instructions or candidates |
| Batch.CleanUp | lib/SIL/Passes/DeadCodeElimination.cpp:100-102 | the candidate loop only erases, and returns one result per candidate; a candidate an earlier cascade already erased is skipped, where the source reuses it (see Findings) |
| Batch.CandidateErasedEarly | lib/SIL/Passes/DeadCodeElimination.cpp:83-102 | as written: deleting `%2` of `[%0 = plain; %1 = plain %0; %2 = plain %1, %0; unreachable]` collects the candidates `%1` then `%0`, and the cascade from `%1` erases `%0` before the loop reaches it |
| Batch.ErasedCandidateSkipped | lib/SIL/Passes/DeadCodeElimination.cpp:100-102 | corrected: a candidate no longer live at its turn changes nothing and reports false, and the loop goes on with the rest |
| Batch.CleanUpCounts | lib/SIL/Passes/DeadCodeElimination.cpp:100-102 | the candidate loop lowers use counts, erases only unused instructions and leaves no candidate trivially dead |
| Batch.CleanUpForCause | lib/SIL/Passes/DeadCodeElimination.cpp:100-102 | the candidate loop erases a non-candidate only when an instruction it erased read it, and leaves it without users |
| Batch.EraseAll | lib/SIL/Passes/DeadCodeElimination.cpp:105-108 | exactly the doomed slots are emptied and blocks keep their surviving instructions |
| Batch.Phases | lib/SIL/Passes/DeadCodeElimination.cpp:78-108 | the doomed instructions are gone; anything else erased was disposable; nothing is newly dead; use counts only fall |
| Batch.PhasesReach | lib/SIL/Passes/DeadCodeElimination.cpp:85-102 | no operand of a doomed instruction is left trivially dead |
| Batch.PhasesForCause | lib/SIL/Passes/DeadCodeElimination.cpp:78-108 | besides the doomed set, the three phases erase only instructions read by an erased instruction and left without users |
| Batch.SoleUserErased | lib/SIL/Passes/DeadCodeElimination.cpp:85-102 | a disposable instruction whose every user is doomed is erased along with them |
| Batch.AndAssignNeverTrue | lib/SIL/Passes/DeadCodeElimination.cpp:79-102 | and-assigning onto `false` stays false whatever the results are |
| Batch.OrAssignAny | lib/SIL/Passes/DeadCodeElimination.cpp:79-102 | or-assigning results is true exactly when the start value or some result is true |
| Batch.EraseAndCleanup | lib/SIL/Passes/DeadCodeElimination.cpp:78-111 | as written: the doomed instructions are gone; anything else erased was disposable, read by an erased instruction and left without users; no operand of a doomed instruction is left dead; the result is always false |
| Batch.CleanUpTrueErased | lib/SIL/Passes/DeadCodeElimination.cpp:100-102 | each candidate whose call reported true was live before the loop and is erased after it |
| Batch.CleanUpErasedReported | lib/SIL/Passes/DeadCodeElimination.cpp:100-102 | if the candidate loop erased anything, some candidate reported true |
| Batch.PhasesReport | lib/SIL/Passes/DeadCodeElimination.cpp:74-111 | or-combining the cleanup results is true exactly when an instruction outside the doomed set was erased |
| Batch.EraseAndCleanupReporting | lib/SIL/Passes/DeadCodeElimination.cpp:74-111 | corrected: the same deletions, each erasure beyond the doomed set for cause, and the result is true exactly when some instruction beyond the doomed set was deleted |
| Batch.SameDeletion | lib/SIL/Passes/DeadCodeElimination.cpp:78-111 | the as-written and the corrected deleter leave the same function; only the flag differs |
| Batch.AndAssignMissesCleanup | lib/SIL/Passes/DeadCodeElimination.cpp:79-102 | for a literal used only by a deleted instruction, the literal is erased, yet the as-written result is false while the corrected one is true |
| Batch.EraseAndCleanupOne | lib/SIL/Passes/DeadCodeElimination.cpp:113-119 | the instruction is erased and removed from its block; anything else erased was read by an erased instruction and left without users; none of its operands is left dead; as written, the result is always false |
| ConstantFold.FoldedBranch | lib/SIL/Passes/DeadCodeElimination.cpp:135-144 | for every condition value, the new branch transfers control, with arguments, exactly where the conditional branch does for the literal: 0 to the false successor with the false arguments, 1 to the true successor with the true arguments; it targets only the old branch's successors |
| ConstantFold.ConstantFoldTerminator | lib/SIL/Passes/DeadCodeElimination.cpp:121-155 | anything but a conditional branch on a live integer literal is left unchanged with false; otherwise returns true with the branch replaced at the block's end and the old branch erased; every value the new branch passes on stays live; the literal is erased only if every instruction that read it was erased too; the function stays well formed |
| ConstantFold.FoldIdempotent | lib/SIL/Passes/DeadCodeElimination.cpp:121-155 | folding a block a second time leaves the function unchanged and returns false, since the folded block ends in an unconditional branch |
| ConstantFold.FoldKeepsArgs | lib/SIL/Passes/DeadCodeElimination.cpp:135-149 | every live value the new branch passes on survives the cleanup of the old branch |
| ConstantFold.FoldDropsLiteral | lib/SIL/Passes/DeadCodeElimination.cpp:129-149 | if the literal is erased, every instruction that read it was erased too |
| NoReturn.FirstNoReturnCall | lib/SIL/Passes/DeadCodeElimination.cpp:176-199 | none exactly when the block has no no-return call; otherwise the position of the first one |
| NoReturn.Truncate | lib/SIL/Passes/DeadCodeElimination.cpp:201-210 | the tail after the call is erased; the prefix survives in order, less what the cleanup removed, and each such removal was read by an erased instruction and left without users; one `unreachable` closes the block; nothing is newly dead; the function stays well formed |
| NoReturn.SimplifyBlocksWithCallsToNoReturn | lib/SIL/Passes/DeadCodeElimination.cpp:168-213 | with no no-return call: unchanged, false, count 0; otherwise true, the block is cut after the first call, and the count is the number of instructions that followed it, at least one |
| NoReturn.TailFollowsCall | lib/SIL/Passes/DeadCodeElimination.cpp:183-189 | a no-return call is never the block's last instruction, so the tail to delete is non-empty |
| NoReturn.CallSurvivesCut | lib/SIL/Passes/DeadCodeElimination.cpp:176-199 | after a cut that keeps a side-effecting call, that call is the block's first no-return call and exactly one instruction, the new `unreachable`, follows it |
| NoReturn.TruncationRefires | lib/SIL/Passes/DeadCodeElimination.cpp:168-213 | cutting a block already cut after a side-effecting no-return call fires again and counts exactly one instruction |
| Preserve.RewriteKeepsWellFormed | lib/SIL/Passes/DeadCodeElimination.cpp:121-213 | erasing a block's tail and appending one terminator keeps a function well formed, provided the new terminator is well shaped and targets blocks of the function |
| Preserve.AppendThenErase | lib/SIL/Passes/DeadCodeElimination.cpp:131-149 | emitting the new branch and then deleting the old one gives the block rewrite shape |
| Preserve.EraseThenAppend | lib/SIL/Passes/DeadCodeElimination.cpp:204-210 | deleting the tail and then emitting `unreachable` gives the same block rewrite shape |
| Reachability.Visit | lib/SIL/Passes/DeadCodeElimination.cpp:227-230 | every successor ends up visited; exactly the newly visited ones are pushed on the worklist |
| Reachability.Explore | lib/SIL/Passes/DeadCodeElimination.cpp:225-231 | the walk keeps every label already visited and adds only labels of the function |
| Reachability.ExploreCloses | lib/SIL/Passes/DeadCodeElimination.cpp:225-231 | if every visited label off the worklist has its successors visited, the walk ends with a set closed under successors |
| Reachability.ExploreLeast | lib/SIL/Passes/DeadCodeElimination.cpp:225-231 | a successor-closed set holding the visited labels holds everything the walk visits |
| Reachability.Reachable | lib/SIL/Passes/DeadCodeElimination.cpp:219-231 | the entry block is reached, and only labels of the function are |
| Reachability.ReachableClosed | lib/SIL/Passes/DeadCodeElimination.cpp:219-231 | every successor of a reached block is reached |
| Reachability.ReachableLeast | lib/SIL/Passes/DeadCodeElimination.cpp:219-231 | any successor-closed set holding the entry contains every reached block |
| Sweep.AllReachableIff | lib/SIL/Passes/DeadCodeElimination.cpp:232-236 | the reached set has as many labels as the function has blocks exactly when every block is reached |
| Sweep.DeadTerminators | lib/SIL/Passes/DeadCodeElimination.cpp:239-246 | exactly the terminators of the unreachable blocks |
| Sweep.DeadInsts | lib/SIL/Passes/DeadCodeElimination.cpp:250-254 | exactly the instructions of the unreachable blocks |
| Sweep.EraseEach | lib/SIL/Passes/DeadCodeElimination.cpp:239-246 | every listed terminator is erased; anything else erased was disposable, read by an erased instruction and left without users |
| Sweep.DeleteUnreachable | lib/SIL/Passes/DeadCodeElimination.cpp:238-255 | every instruction of an unreachable block is erased; anything else erased was disposable, read by an erased instruction and left without users |
| Sweep.RemoveBlocks | lib/SIL/Passes/DeadCodeElimination.cpp:257-263 | a block survives exactly when its label is reached |
| Sweep.RemoveUnreachableBlocks | lib/SIL/Passes/DeadCodeElimination.cpp:215-266 | an empty function, or one whose blocks are all reached, is unchanged with false; otherwise returns true; the reached blocks remain in order; the unreachable blocks' instructions are erased, and anything else only for cause; the count is the number of blocks removed; the function stays well formed |
| Sweep.SweepKeepsReached | lib/SIL/Passes/DeadCodeElimination.cpp:215-266 | after the sweep the entry stays first, the labels left are exactly the reached ones, and every remaining block is reachable in the result |
| Sweep.SweptSuccessorsSame | lib/SIL/Passes/DeadCodeElimination.cpp:238-263 | a reached block keeps the same successors after the sweep |
| Sweep.SweepIdempotent | lib/SIL/Passes/DeadCodeElimination.cpp:215-266 | sweeping a swept function changes nothing and removes no block |
| Driver.TruncateStep | lib/SIL/Passes/DeadCodeElimination.cpp:183-189 | the instructions counted after a no-return call are matched by as many live instructions gone, less the one new `unreachable` |
| Driver.SimplifyBlock | lib/SIL/Passes/DeadCodeElimination.cpp:274-283 | a foldable block is folded with nothing counted; otherwise a block with a no-return call is cut with its tail counted; otherwise nothing changes; successors never widen |
| Driver.SimplifyBlocks | lib/SIL/Passes/DeadCodeElimination.cpp:273-284 | after the block loop the function is well formed, no block has gained a successor, and the count is bounded by the live instructions removed plus one per block |
| Driver.NarrowerReach | lib/SIL/Passes/DeadCodeElimination.cpp:274-286 | if no block gained a successor, no block became reachable that was not reachable before |
| Driver.OptimizeFunction | lib/SIL/Passes/DeadCodeElimination.cpp:273-286 | the block loop and then the sweep: the function stays well formed; no block unreachable before the pass survives; every survivor is reachable; the entry stays first; the block counter is exact; the instruction counter is bounded |
| Driver.PerformDeadCodeElimination | lib/SIL/Passes/DeadCodeElimination.cpp:272-288 | each result function is `OptimizeFunction` of the input function at the same position; the counters are the sum of the per-function counters; each result is well formed and cleaned |

## Left out

- `SILBuilder` and source locations: a new instruction goes at the end of the arena and is appended to its block. Debug locations carry no meaning for the pass.
- `isCallToNoReturn` (lines 157-166): the callee's function type is an `Apply(noReturn)` flag on the call. Its `assert(false)` path covers a callee without a function type, which the flag cannot express.
- `APInt`: an integer literal carries a one-bit `Bit`, so the assertion at line 140 holds by typing.
- The `STATISTIC` globals (lines 19-20) are returned as a `Stats` value, not kept as process-wide counters.
- `DenseSet` and `SmallPtrSet` iteration order: the sets are sequences in program order, and the batch deleter's candidates come in first-seen order. The contracts of `Batch.CleanUp` hold for every candidate sequence, and those of the batch deleters for every order of the doomed sequence. That every order yields the same function is not proved.
- Multi-way terminators (`switch_value`, `switch_enum`, `checked_cast_br` and the like) are one `Switch` opcode with a successor list. Which successor they take is not modelled, because the pass reads only their successors and folds only `cond_br`.
- SSA dominance, value types and block-argument types are not modelled. Well-formedness covers only what the pass relies on.
- Reads of erased values: a use by an erased instruction is not counted, which matches `dropAllReferences`.
- The unreachable blocks' terminators (lines 239-246) are listed from the function before the first deletion loop. This gives the same list as looking them up during the loop, because terminators are never disposable and so no cleanup erases one early.
- The TODO and FIXME diagnostics (lines 146-147, 195-196) produce no code and are not modelled.
- Driver.OptimizeFunction: the instruction counter is bounded by the live instructions removed, not stated exactly, because the source's count covers only the tails after no-return calls.
- Batch.EraseAndCleanup: callers are not required to ensure that no instruction outside the doomed set reads a doomed one. Such a reader stays live and reads an erased slot, because SSA dominance, which rules this out in SIL, is not modelled. The same holds for `Batch.EraseAndCleanupReporting` and `Batch.EraseAndCleanupOne`.
- Cascade.RecursivelyDelete: like `Batch.EraseAndCleanup`, `Batch.EraseAndCleanupReporting` and `Batch.EraseAndCleanupOne`, its contract rules out erasing a dead cycle that the seeds do not reach only for an acyclic def-use graph (`IR.RankedBy`). `WellFormed` does not require acyclicity, because SSA dominance is not modelled.
- Driver.PerformDeadCodeElimination: the pass as a whole is not shown idempotent, because the code is not (`NoReturn.TruncationRefires`).

## Findings

| source | as written | input that shows it | evidently intended | confidence | as-written member | corrected member |
|---|---|---|---|---|---|---|
| lib/SIL/Passes/DeadCodeElimination.cpp:79-110 | `AdditionalChanged` starts `false` and is combined with `&=`, so the set form of `eraseAndCleanup` returns `false` even when the cleanup deletes instructions | block `[%0 = integer_literal 0; %1 = plain %0; unreachable]`, deleting `%1`: the cleanup erases `%0`, yet the result is `false` | combine with `\|=`, returning true exactly when an instruction beyond the given set was deleted, as its doc comment says | not executed | Batch.AndAssignMissesCleanup | Batch.EraseAndCleanupReporting |
| lib/SIL/Passes/DeadCodeElimination.cpp:100-102 | the loop walks the raw pointers collected in `PossiblyDead` and passes each to `recursivelyDeleteTriviallyDeadInstructions`, even one that an earlier candidate's cascade has already removed with `eraseFromParent` (line 66), so the removed instruction is read again | deleting `%2` of `[%0 = plain; %1 = plain %0; %2 = plain %1, %0; unreachable]`: the candidates are `%1` then `%0`, and the cascade from `%1` erases `%0` first; in SIL this arises, for example, when a cut tail holds `tuple (%a, %x)` with `%a = struct (%x)` | skip a candidate that is no longer in the function, as the model's `Batch.CleanUp` does; the cut, the fold and the sweep all use it | not executed | Batch.CandidateErasedEarly | Batch.ErasedCandidateSkipped |

=== FILE: batch.dfy ===
/** The two-phase batch deleter (`eraseAndCleanup`, both overloads). */
module Batch {
  import opened IR
  import opened Cascade

  /** An arena slot with its outgoing references dropped (`dropAllReferences`). */
  function Stripped(o: Option<Inst>): Option<Inst> {
    if o.Some? then Some(o.value.(operands := [])) else None
  }

  lemma StripCounts(a: Arena, s: InstId)
    ensures Live(a, s) ==> CountsDrop(a, a[s := Stripped(a[s])], a[s].value.operands)
  {
    if Live(a, s) {
      ReplaceCounts(a, s, a[s].value, a[s].value.operands, []);
    }
  }

  lemma EraseStrippedCounts(a: Arena, s: InstId)
    requires Live(a, s) ==> a[s].value.operands == []
    ensures s < |a| ==> CountsDrop(a, a[s := None], [])
  {
    if s < |a| {
      EraseEmptyCounts(a, s);
    }
  }

  /** Add to `cands`, once each, the definers read by `ops` that are not doomed. */
  function Collect(ops: seq<Value>, doomed: seq<InstId>, cands: seq<InstId>): (r: seq<InstId>)
    ensures |cands| <= |r| && r[..|cands|] == cands
    ensures forall x :: x in r <==> x in cands || (Def(x) in ops && x !in doomed)
    ensures Distinct(cands) ==> Distinct(r)
    decreases |ops|
  {
    if |ops| == 0 then cands
    else
      var v := ops[0];
      assert ops == [v] + ops[1..];
      var c1 := if v.Def? && v.inst !in doomed && v.inst !in cands then cands + [v.inst] else cands;
      var r := Collect(ops[1..], doomed, c1);
      assert r[..|c1|] == c1 && c1[..|cands|] == cands;
      r
  }

  /** Phase one: for each doomed instruction in `todo`, record its operand
      definers outside the doomed set as possibly dead, then drop its
      references. */
  function DropReferences(f: Function, doomed: seq<InstId>, todo: seq<InstId>, cands: seq<InstId>): (r: (Function, seq<InstId>))
    ensures r.0.blocks == f.blocks && |r.0.arena| == |f.arena|
    ensures forall k :: 0 <= k < |f.arena| ==> r.0.arena[k] == (if k in todo then Stripped(f.arena[k]) else f.arena[k])
    ensures |cands| <= |r.1| && r.1[..|cands|] == cands
    ensures Distinct(cands) ==> Distinct(r.1)
    ensures forall x :: x in r.1 ==> x in cands || x !in doomed
    ensures forall s, y :: s in todo && Live(f.arena, s) && Def(y) in f.arena[s].value.operands && y !in doomed ==> y in r.1
    ensures forall x :: x in r.1 ==> x in cands || exists s :: s in todo && Live(f.arena, s) && Def(x) in f.arena[s].value.operands
    decreases |todo|
  {
    if |todo| == 0 then (f, cands)
    else
      var s := todo[0];
      assert todo == [s] + todo[1..];
      var live := Live(f.arena, s);
      var ops := if live then f.arena[s].value.operands else [];
      var c1 := Collect(ops, doomed, cands);
      var f1 := if live then Function(f.arena[s := Stripped(f.arena[s])], f.blocks) else f;
      var r := DropReferences(f1, doomed, todo[1..], c1);
      DropStepShape(f.arena, f1.arena, doomed, todo, cands, c1, r.0.arena, r.1);
      DropStepReads(f.arena, f1.arena, doomed, todo, c1, r.1);
      CandidatesRead(f.arena, f1.arena, todo, cands, c1, r.1);
      r
  }

  /** Stripping the first doomed instruction, then the rest, strips them all;
      the candidates only grow, and none of them is doomed. */
  lemma DropStepShape(a: Arena, a1: Arena, doomed: seq<InstId>, todo: seq<InstId>, cands: seq<InstId>, c1: seq<InstId>,
                      g: Arena, r1: seq<InstId>)
    requires |todo| > 0
    requires a1 == if Live(a, todo[0]) then a[todo[0] := Stripped(a[todo[0]])] else a
    requires |cands| <= |c1| && c1[..|cands|] == cands && (Distinct(cands) ==> Distinct(c1))
    requires forall x :: x in c1 ==> x in cands || x !in doomed
    requires |g| == |a1| && forall k :: 0 <= k < |a1| ==> g[k] == (if k in todo[1..] then Stripped(a1[k]) else a1[k])
    requires |c1| <= |r1| && r1[..|c1|] == c1 && (Distinct(c1) ==> Distinct(r1))
    requires forall x :: x in r1 ==> x in c1 || x !in doomed
    ensures |g| == |a| && forall k :: 0 <= k < |a| ==> g[k] == (if k in todo then Stripped(a[k]) else a[k])
    ensures |cands| <= |r1| && r1[..|cands|] == cands && (Distinct(cands) ==> Distinct(r1))
    ensures forall x :: x in r1 ==> x in cands || x !in doomed
  {
    assert todo == [todo[0]] + todo[1..];
    assert r1[..|cands|] == r1[..|c1|][..|cands|];
    forall k | 0 <= k < |a|
      ensures g[k] == (if k in todo then Stripped(a[k]) else a[k])
    {
      if k == todo[0] && Live(a, k) {
        assert Stripped(a1[k]) == a1[k];
      }
    }
  }

  /** Every definer read by a doomed instruction of the list and not itself
      doomed ends up a candidate. */
  lemma DropStepReads(a: Arena, a1: Arena, doomed: seq<InstId>, todo: seq<InstId>, c1: seq<InstId>, r1: seq<InstId>)
    requires |todo| > 0
    requires a1 == if Live(a, todo[0]) then a[todo[0] := Stripped(a[todo[0]])] else a
    requires Live(a, todo[0]) ==> forall y :: Def(y) in a[todo[0]].value.operands && y !in doomed ==> y in c1
    requires |c1| <= |r1| && r1[..|c1|] == c1
    requires forall s, y :: s in todo[1..] && Live(a1, s) && Def(y) in a1[s].value.operands && y !in doomed ==> y in r1
    ensures forall s, y :: s in todo && Live(a, s) && Def(y) in a[s].value.operands && y !in doomed ==> y in r1
  {
    assert todo == [todo[0]] + todo[1..];
    forall s, y | s in todo && Live(a, s) && Def(y) in a[s].value.operands && y !in doomed
      ensures y in r1
    {
      if s == todo[0] {
        assert y in c1 && c1 == r1[..|c1|];
      } else {
        assert a1[s] == a[s];
      }
    }
  }

  /** A candidate found further down the list was read by a doomed
      instruction of the list before its references were dropped. */
  lemma CandidatesRead(a: Arena, a1: Arena, todo: seq<InstId>, cands: seq<InstId>, c1: seq<InstId>, r1: seq<InstId>)
    requires |todo| > 0
    requires a1 == if Live(a, todo[0]) then a[todo[0] := Stripped(a[todo[0]])] else a
    requires forall x :: x in c1 ==> x in cands || (Live(a, todo[0]) && Def(x) in a[todo[0]].value.operands)
    requires forall x :: x in r1 ==> x in c1 || exists s :: s in todo[1..] && Live(a1, s) && Def(x) in a1[s].value.operands
    ensures forall x :: x in r1 ==> x in cands || exists s :: s in todo && Live(a, s) && Def(x) in a[s].value.operands
  {
    forall x | x in r1 && x !in cands
      ensures exists s :: s in todo && Live(a, s) && Def(x) in a[s].value.operands
    {
      if x !in c1 {
        var s: InstId :| s in todo[1..] && Live(a1, s) && Def(x) in a1[s].value.operands;
        assert s in todo;
        assert s == todo[0] ==> !Live(a, s);
      } else {
        assert todo[0] in todo;
      }
    }
  }

  /** Dropping references only shrinks use-lists, and only those of doomed
      instructions and of candidates. */
  lemma {:induction false} DropReferencesCounts(f: Function, doomed: seq<InstId>, todo: seq<InstId>, cands: seq<InstId>)
    ensures var r := DropReferences(f, doomed, todo, cands);
            && UsesShrink(f.arena, r.0.arena)
            && forall y :: UseCount(r.0.arena, y) < UseCount(f.arena, y) ==> y in doomed || y in r.1
    decreases |todo|
  {
    if |todo| > 0 {
      var s := todo[0];
      var live := Live(f.arena, s);
      var ops := if live then f.arena[s].value.operands else [];
      var c1 := Collect(ops, doomed, cands);
      var f1 := if live then Function(f.arena[s := Stripped(f.arena[s])], f.blocks) else f;
      StripCounts(f.arena, s);
      DropReferencesCounts(f1, doomed, todo[1..], c1);
      var r := DropReferences(f, doomed, todo, cands);
      assert r == DropReferences(f1, doomed, todo[1..], c1);
      assert r.1[..|c1|] == c1;
      DropStepCounts(f.arena, f1.arena, ops, doomed, c1, r.0.arena, r.1);
    }
  }

  /** Stripping one doomed instruction, then the rest, shrinks only the
      use-lists of doomed instructions and of candidates. */
  lemma DropStepCounts(a: Arena, a1: Arena, ops: seq<Value>, doomed: seq<InstId>, c1: seq<InstId>, g: Arena, r1: seq<InstId>)
    requires CountsDrop(a, a1, ops)
    requires forall y :: Def(y) in ops && y !in doomed ==> y in c1
    requires |c1| <= |r1| && r1[..|c1|] == c1
    requires UsesShrink(a1, g) && forall y :: UseCount(g, y) < UseCount(a1, y) ==> y in doomed || y in r1
    ensures UsesShrink(a, g) && forall y :: UseCount(g, y) < UseCount(a, y) ==> y in doomed || y in r1
  {
    forall y ensures UseCount(g, y) <= UseCount(a, y)
      && (UseCount(g, y) < UseCount(a, y) ==> y in doomed || y in r1)
    {
      assert UseCount(a1, y) + multiset(ops)[Def(y)] == UseCount(a, y);
      if multiset(ops)[Def(y)] > 0 {
        assert Def(y) in ops;
        assert y in c1 ==> y in r1[..|c1|];
      }
    }
  }

  /** Phase two: try the cascading deleter on every candidate, in order,
      keeping each call's result. */
  function CleanUp(f: Function, cands: seq<InstId>): (r: (Function, seq<bool>))
    requires BlocksLive(f)
    ensures |r.1| == |cands|
    ensures OnlyErases(f.arena, r.0.arena, [])
    ensures r.0.blocks == Prune(f.blocks, r.0.arena) && BlocksLive(r.0)
    decreases |cands|
  {
    if |cands| == 0 then
      PruneLive(f);
      (f, [])
    else
      var d := RecursivelyDelete(f, cands[0]);
      var r := CleanUp(d.0, cands[1..]);
      OnlyErasesTrans(f.arena, d.0.arena, r.0.arena, [], []);
      PruneTwice(f.blocks, d.0.arena, r.0.arena);
      (r.0, [d.1] + r.1)
  }

  /** Cleanup only shrinks use-lists, leaves none reading an erased
      instruction, and leaves no candidate and nothing new trivially dead. */
  lemma {:induction false} CleanUpCounts(f: Function, cands: seq<InstId>)
    requires BlocksLive(f)
    ensures var g := CleanUp(f, cands).0.arena;
            && UsesShrink(f.arena, g) && ErasedUnused(f.arena, g)
            && NoNewDead(f.arena, g, cands)
    decreases |cands|
  {
    if |cands| == 0 {
      assert CleanUp(f, cands).0 == f;
    } else {
      var d := RecursivelyDelete(f, cands[0]);
      var r := CleanUp(d.0, cands[1..]);
      assert CleanUp(f, cands).0 == r.0;
      CleanUpCounts(d.0, cands[1..]);
      CountsTrans(f.arena, d.0.arena, r.0.arena);
      NoNewDeadTrans(f.arena, d.0.arena, r.0.arena, [cands[0]], cands[1..]);
      assert [cands[0]] + cands[1..] == cands;
    }
  }

  /** Cleanup erases a non-candidate only when something it erased read it. */
  lemma {:induction false} CleanUpForCause(f: Function, cands: seq<InstId>)
    requires BlocksLive(f)
    ensures ErasedForCause(f.arena, CleanUp(f, cands).0.arena, cands)
    decreases |cands|
  {
    if |cands| == 0 {
      assert CleanUp(f, cands).0 == f;
    } else {
      var d := RecursivelyDelete(f, cands[0]);
      var r := CleanUp(d.0, cands[1..]);
      assert CleanUp(f, cands).0 == r.0;
      CleanUpForCause(d.0, cands[1..]);
      CleanUpCounts(d.0, cands[1..]);
      ForCauseTrans(f.arena, d.0.arena, r.0.arena, [cands[0]], cands[1..], [], []);
      assert [cands[0]] + cands[1..] == cands;
    }
  }

  /** Phase three: erase every doomed instruction. */
  function EraseAll(f: Function, todo: seq<InstId>): (g: Function)
    requires BlocksLive(f)
    requires forall s :: s in todo && Live(f.arena, s) ==> f.arena[s].value.operands == []
    ensures |g.arena| == |f.arena|
    ensures forall k :: 0 <= k < |f.arena| ==> g.arena[k] == (if k in todo then None else f.arena[k])
    ensures g.blocks == Prune(f.blocks, g.arena) && BlocksLive(g)
    decreases |todo|
  {
    if |todo| == 0 then
      PruneLive(f);
      f
    else
      var s := todo[0];
      assert todo == [s] + todo[1..];
      var f1 := Erase(f, s);
      EraseIsPrune(f, s);
      forall t | t in todo[1..] && Live(f1.arena, t)
        ensures f1.arena[t].value.operands == []
      {
        assert t in todo;
        assert t != s;
        assert t < |f.arena|;
        assert f1.arena[t] == f.arena[t];
        assert Live(f.arena, t);
      }
      var g := EraseAll(f1, todo[1..]);
      PruneTwice(f.blocks, f1.arena, g.arena);
      g
  }

  /** Erasing instructions whose references were dropped leaves every use-list alone. */
  lemma {:induction false} EraseAllCounts(f: Function, todo: seq<InstId>)
    requires BlocksLive(f)
    requires forall s :: s in todo && Live(f.arena, s) ==> f.arena[s].value.operands == []
    ensures forall y :: UseCount(EraseAll(f, todo).arena, y) == UseCount(f.arena, y)
    decreases |todo|
  {
    if |todo| > 0 {
      var s := todo[0];
      var f1 := Erase(f, s);
      EraseIsPrune(f, s);
      EraseStrippedCounts(f.arena, s);
      forall t | t in todo[1..] && Live(f1.arena, t)
        ensures f1.arena[t].value.operands == []
      {
        assert t in todo;
        assert t != s;
        assert f1.arena[t] == f.arena[t];
      }
      EraseAllCounts(f1, todo[1..]);
      assert EraseAll(f, todo) == EraseAll(f1, todo[1..]);
    }
  }

  /** The three phases; the second component lists the cleanup results. */
  function Phases(f: Function, doomed: seq<InstId>): (r: (Function, seq<bool>))
    requires BlocksLive(f)
    ensures forall s :: s in doomed ==> !Live(r.0.arena, s)
    ensures OnlyErases(f.arena, r.0.arena, doomed)
    ensures NoNewDead(f.arena, r.0.arena, doomed)
    ensures UsesShrink(f.arena, r.0.arena)
    ensures r.0.blocks == Prune(f.blocks, r.0.arena) && BlocksLive(r.0)
  {
    var p1 := DropReferences(f, doomed, doomed, []);
    var p2 := CleanUp(p1.0, p1.1);
    StrippedStayStripped(f.arena, p1.0.arena, p2.0.arena, doomed);
    var g := EraseAll(p2.0, doomed);
    PhasesFacts(f, doomed, p1, p2, g);
    (g, p2.1)
  }

  lemma PhasesFacts(f: Function, doomed: seq<InstId>, p1: (Function, seq<InstId>), p2: (Function, seq<bool>), g: Function)
    requires BlocksLive(f)
    requires p1 == DropReferences(f, doomed, doomed, []) && BlocksLive(p1.0) && p2 == CleanUp(p1.0, p1.1)
    requires forall s :: s in doomed && Live(p2.0.arena, s) ==> p2.0.arena[s].value.operands == []
    requires g == EraseAll(p2.0, doomed)
    ensures forall s :: s in doomed ==> !Live(g.arena, s)
    ensures OnlyErases(f.arena, g.arena, doomed)
    ensures NoNewDead(f.arena, g.arena, doomed)
    ensures UsesShrink(f.arena, g.arena)
    ensures g.blocks == Prune(f.blocks, g.arena) && BlocksLive(g)
  {
    DropReferencesCounts(f, doomed, doomed, []);
    CleanUpCounts(p1.0, p1.1);
    EraseAllCounts(p2.0, doomed);
    PhasesCompose(f, doomed, p1.0, p1.1, p2.0, g);
  }

  /** Slots stripped in phase one still read nothing after phase two. */
  lemma StrippedStayStripped(a: Arena, b: Arena, c: Arena, doomed: seq<InstId>)
    requires |b| == |a| && forall k :: 0 <= k < |a| ==> b[k] == (if k in doomed then Stripped(a[k]) else a[k])
    requires OnlyErases(b, c, [])
    ensures forall s :: s in doomed && Live(c, s) ==> c[s].value.operands == []
  {
  }

  lemma PhasesCompose(f: Function, doomed: seq<InstId>, f1: Function, cands: seq<InstId>, f2: Function, g: Function)
    requires f1.blocks == f.blocks && |f1.arena| == |f.arena|
    requires forall k :: 0 <= k < |f.arena| ==> f1.arena[k] == (if k in doomed then Stripped(f.arena[k]) else f.arena[k])
    requires UsesShrink(f.arena, f1.arena)
    requires forall y :: UseCount(f1.arena, y) < UseCount(f.arena, y) ==> y in doomed || y in cands
    requires OnlyErases(f1.arena, f2.arena, []) && UsesShrink(f1.arena, f2.arena)
    requires NoNewDead(f1.arena, f2.arena, cands)
    requires f2.blocks == Prune(f1.blocks, f2.arena)
    requires |g.arena| == |f2.arena|
    requires forall k :: 0 <= k < |f2.arena| ==> g.arena[k] == (if k in doomed then None else f2.arena[k])
    requires forall y :: UseCount(g.arena, y) == UseCount(f2.arena, y)
    requires g.blocks == Prune(f2.blocks, g.arena)
    ensures forall s :: s in doomed ==> !Live(g.arena, s)
    ensures OnlyErases(f.arena, g.arena, doomed)
    ensures NoNewDead(f.arena, g.arena, doomed)
    ensures UsesShrink(f.arena, g.arena)
    ensures g.blocks == Prune(f.blocks, g.arena)
  {
    forall k | 0 <= k < |f.arena|
      ensures g.arena[k] == f.arena[k] || (g.arena[k].None? && (k in doomed || (f.arena[k].Some? && f.arena[k].value.Disposable())))
    {
      if k !in doomed {
        assert f1.arena[k] == f.arena[k];
        assert f2.arena[k] == f1.arena[k] || (f2.arena[k].None? && f1.arena[k].Some? && f1.arena[k].value.Disposable());
      }
    }
    forall y: nat | TriviallyDead(g.arena, y)
      ensures TriviallyDead(f.arena, y) && y !in doomed
    {
      assert y !in doomed;
      assert g.arena[y] == f2.arena[y];
      assert TriviallyDead(f2.arena, y);
      assert f1.arena[y] == f.arena[y];
    }
    forall y ensures UseCount(g.arena, y) <= UseCount(f.arena, y) {
      assert UseCount(f2.arena, y) <= UseCount(f1.arena, y);
    }
    assert forall x :: Live(g.arena, x) ==> Live(f2.arena, x);
    PruneTwice(f.blocks, f2.arena, g.arena);
  }

  /** The three phases erase, besides the doomed set, only instructions read
      by an erased one and left without uses. */
  lemma PhasesForCause(f: Function, doomed: seq<InstId>)
    requires BlocksLive(f)
    ensures ErasedForCause(f.arena, Phases(f, doomed).0.arena, doomed)
  {
    var p1 := DropReferences(f, doomed, doomed, []);
    var p2 := CleanUp(p1.0, p1.1);
    var g := EraseAll(p2.0, doomed);
    assert Phases(f, doomed).0 == g;
    CleanUpCounts(p1.0, p1.1);
    CleanUpForCause(p1.0, p1.1);
    EraseAllCounts(p2.0, doomed);
    CauseCompose(f.arena, doomed, p1.0.arena, p1.1, p2.0.arena, g.arena);
  }

  lemma CauseCompose(f: Arena, doomed: seq<InstId>, f1: Arena, cands: seq<InstId>, f2: Arena, g: Arena)
    requires |f1| == |f| && forall k :: 0 <= k < |f| ==> f1[k] == (if k in doomed then Stripped(f[k]) else f[k])
    requires forall x :: x in cands ==> exists s :: s in doomed && Live(f, s) && Def(x) in f[s].value.operands
    requires OnlyErases(f1, f2, []) && ErasedUnused(f1, f2) && SpreadFromSeeds(f1, f2, cands)
    requires |g| == |f2| && forall k :: 0 <= k < |f2| ==> g[k] == (if k in doomed then None else f2[k])
    requires forall y :: UseCount(g, y) == UseCount(f2, y)
    ensures ErasedForCause(f, g, doomed)
  {
    forall k | Live(f, k) && !Live(g, k) && k !in doomed
      ensures Live(f1, k) && !Live(f2, k)
    {
      Outside(f, doomed, f1, f2, g, k);
    }
    forall k | Live(f, k) && !Live(g, k) && k !in doomed
      ensures exists e: InstId :: Live(f, e) && !Live(g, e) && Def(k) in f[e].value.operands
    {
      if k in cands {
        DoomedReader(f, doomed, g, k);
      } else {
        CauseAt(f, doomed, f1, f2, g, k);
      }
    }
  }

  lemma Outside(f: Arena, doomed: seq<InstId>, f1: Arena, f2: Arena, g: Arena, k: InstId)
    requires |f1| == |f| && forall k :: 0 <= k < |f| ==> f1[k] == (if k in doomed then Stripped(f[k]) else f[k])
    requires |f2| == |f1| && |g| == |f2| && forall k :: 0 <= k < |f2| ==> g[k] == (if k in doomed then None else f2[k])
    requires k < |f| && k !in doomed
    ensures f1[k] == f[k] && g[k] == f2[k]
  {
  }

  lemma DoomedReader(f: Arena, doomed: seq<InstId>, g: Arena, k: InstId)
    requires exists s :: s in doomed && Live(f, s) && Def(k) in f[s].value.operands
    requires |g| == |f| && forall s :: s in doomed && s < |g| ==> g[s].None?
    ensures exists e: InstId :: Live(f, e) && !Live(g, e) && Def(k) in f[e].value.operands
  {
  }

  lemma CauseAt(f: Arena, doomed: seq<InstId>, f1: Arena, f2: Arena, g: Arena, k: InstId)
    requires |f1| == |f| && forall k :: 0 <= k < |f| ==> f1[k] == (if k in doomed then Stripped(f[k]) else f[k])
    requires |f2| == |f1| && |g| == |f2| && forall k :: 0 <= k < |f2| ==> g[k] == (if k in doomed then None else f2[k])
    requires exists e: InstId :: Live(f1, e) && !Live(f2, e) && Def(k) in f1[e].value.operands
    ensures exists e: InstId :: Live(f, e) && !Live(g, e) && Def(k) in f[e].value.operands
  {
    var e: InstId :| Live(f1, e) && !Live(f2, e) && Def(k) in f1[e].value.operands;
    assert e !in doomed;
    Outside(f, doomed, f1, f2, g, e);
  }

  /** No instruction read by a doomed one is left trivially dead: each was
      a candidate, and the cleanup deleted every candidate that was dead. */
  lemma PhasesReach(f: Function, doomed: seq<InstId>)
    requires BlocksLive(f)
    ensures var g := Phases(f, doomed).0.arena;
            forall s, y :: s in doomed && Live(f.arena, s) && Def(y) in f.arena[s].value.operands && y !in doomed ==>
              !TriviallyDead(g, y)
  {
    var p1 := DropReferences(f, doomed, doomed, []);
    var p2 := CleanUp(p1.0, p1.1);
    var g := EraseAll(p2.0, doomed);
    assert Phases(f, doomed).0 == g;
    CleanUpCounts(p1.0, p1.1);
    EraseAllCounts(p2.0, doomed);
    ReachCompose(f.arena, doomed, p1.1, p2.0.arena, g.arena);
  }

  lemma SurvivorNotDead(f2: Arena, g: Arena, y: InstId)
    requires !TriviallyDead(f2, y)
    requires |g| == |f2| && (y < |f2| ==> g[y] == f2[y])
    requires UseCount(g, y) == UseCount(f2, y)
    ensures !TriviallyDead(g, y)
  {
  }

  lemma ReachCompose(f: Arena, doomed: seq<InstId>, cands: seq<InstId>, f2: Arena, g: Arena)
    requires forall s, y :: s in doomed && Live(f, s) && Def(y) in f[s].value.operands && y !in doomed ==> y in cands
    requires forall y :: TriviallyDead(f2, y) ==> y !in cands
    requires |g| == |f2| && forall k :: 0 <= k < |f2| ==> g[k] == (if k in doomed then None else f2[k])
    requires forall y :: UseCount(g, y) == UseCount(f2, y)
    ensures forall s, y :: s in doomed && Live(f, s) && Def(y) in f[s].value.operands && y !in doomed ==>
              !TriviallyDead(g, y)
  {
    forall s, y | s in doomed && Live(f, s) && Def(y) in f[s].value.operands && y !in doomed
      ensures !TriviallyDead(g, y)
    {
      assert y in cands;
      SurvivorNotDead(f2, g, y);
    }
  }

  /** `AdditionalChanged &= ...` folded over the cleanup results, as written. */
  function AndAssignAll(acc: bool, rs: seq<bool>): bool
    decreases |rs|
  {
    if |rs| == 0 then acc else AndAssignAll(acc && rs[0], rs[1..])
  }

  /** The same fold with `|=`, as the doc comment intends. */
  function OrAssignAll(acc: bool, rs: seq<bool>): bool
    decreases |rs|
  {
    if |rs| == 0 then acc else OrAssignAll(acc || rs[0], rs[1..])
  }

  /** Starting from `false`, the `&=` fold can never become true. */
  lemma {:induction false} AndAssignNeverTrue(rs: seq<bool>)
    ensures !AndAssignAll(false, rs)
    decreases |rs|
  {
    if |rs| > 0 {
      AndAssignNeverTrue(rs[1..]);
    }
  }

  /** The `|=` fold reports whether any result was true. */
  lemma {:induction false} OrAssignAny(acc: bool, rs: seq<bool>)
    ensures OrAssignAll(acc, rs) <==> acc || exists j :: 0 <= j < |rs| && rs[j]
    decreases |rs|
  {
    if |rs| > 0 {
      OrAssignAny(acc || rs[0], rs[1..]);
      if exists j :: 0 <= j < |rs| && rs[j] {
        var j :| 0 <= j < |rs| && rs[j];
        if j > 0 {
          assert rs[1..][j - 1];
        }
      }
      if exists j :: 0 <= j < |rs| - 1 && rs[1..][j] {
        var j :| 0 <= j < |rs| - 1 && rs[1..][j];
        assert rs[j + 1];
      }
    }
  }

  /** `eraseAndCleanup(const DenseSet &)` as written: every doomed instruction
      is erased, other instructions only when disposable and left without
      uses by the cleanup, and the result is `false` whatever happened. */
  function EraseAndCleanup(f: Function, doomed: seq<InstId>): (r: (Function, bool))
    requires BlocksLive(f)
    ensures forall s :: s in doomed ==> !Live(r.0.arena, s)
    ensures OnlyErases(f.arena, r.0.arena, doomed)
    ensures NoNewDead(f.arena, r.0.arena, doomed)
    ensures forall s, y :: s in doomed && Live(f.arena, s) && Def(y) in f.arena[s].value.operands && y !in doomed ==>
              !TriviallyDead(r.0.arena, y)
    ensures ErasedForCause(f.arena, r.0.arena, doomed)
    ensures UsesShrink(f.arena, r.0.arena)
    ensures r.0.blocks == Prune(f.blocks, r.0.arena) && BlocksLive(r.0)
    ensures !r.1
  {
    var p := Phases(f, doomed);
    PhasesReach(f, doomed);
    PhasesForCause(f, doomed);
    AndAssignNeverTrue(p.1);
    (p.0, AndAssignAll(false, p.1))
  }

  /** A cleanup call that reports true erased its own candidate. */
  lemma {:induction false} CleanUpTrueErased(f: Function, cands: seq<InstId>)
    requires BlocksLive(f)
    ensures var r := CleanUp(f, cands);
            forall j :: 0 <= j < |cands| && r.1[j] ==> Live(f.arena, cands[j]) && !Live(r.0.arena, cands[j])
    decreases |cands|
  {
    if |cands| > 0 {
      var d := RecursivelyDelete(f, cands[0]);
      var r' := CleanUp(d.0, cands[1..]);
      var r := CleanUp(f, cands);
      assert r.0 == r'.0 && r.1 == [d.1] + r'.1;
      CleanUpTrueErased(d.0, cands[1..]);
      assert d.1 ==> Live(f.arena, cands[0]) && !Live(d.0.arena, cands[0]);
      TrueErasedStep(f.arena, d.0.arena, r.0.arena, cands, d.1, r'.1);
    }
  }

  lemma TrueErasedStep(a: Arena, b: Arena, c: Arena, cands: seq<InstId>, first: bool, rest: seq<bool>)
    requires |cands| > 0 && |rest| == |cands| - 1
    requires OnlyErases(b, c, [])
    requires first ==> Live(a, cands[0]) && !Live(b, cands[0])
    requires forall j :: 0 <= j < |rest| && rest[j] ==> Live(b, cands[1..][j]) && !Live(c, cands[1..][j])
    requires forall k :: Live(b, k) ==> Live(a, k)
    ensures forall j :: 0 <= j < |cands| && ([first] + rest)[j] ==> Live(a, cands[j]) && !Live(c, cands[j])
  {
    forall j | 0 <= j < |cands| && ([first] + rest)[j]
      ensures Live(a, cands[j]) && !Live(c, cands[j])
    {
      if j > 0 {
        assert rest[j - 1] && cands[1..][j - 1] == cands[j];
      }
    }
  }

  /** Every erasure during cleanup is reported by some call. */
  lemma {:induction false} CleanUpErasedReported(f: Function, cands: seq<InstId>)
    requires BlocksLive(f)
    ensures var r := CleanUp(f, cands);
            (exists k: nat :: Live(f.arena, k) && !Live(r.0.arena, k)) ==> exists j :: 0 <= j < |cands| && r.1[j]
    decreases |cands|
  {
    if |cands| > 0 {
      var d := RecursivelyDelete(f, cands[0]);
      var r' := CleanUp(d.0, cands[1..]);
      var r := CleanUp(f, cands);
      assert r.0 == r'.0 && r.1 == [d.1] + r'.1;
      CleanUpErasedReported(d.0, cands[1..]);
      if exists k :: Live(f.arena, k) && !Live(r.0.arena, k) {
        if d.1 {
          assert r.1[0];
        } else {
          assert d.0 == f;
          var j' :| 0 <= j' < |cands| - 1 && r'.1[j'];
          assert r.1[j' + 1];
        }
      }
    }
  }

  /** The `|=` fold over the cleanup results is true exactly when a
      candidate was erased, and then exactly when anything was. */
  lemma CleanUpReport(f: Function, cands: seq<InstId>)
    requires BlocksLive(f)
    ensures var r := CleanUp(f, cands);
            && (OrAssignAll(false, r.1) ==> exists j :: 0 <= j < |cands| && Live(f.arena, cands[j]) && !Live(r.0.arena, cands[j]))
            && ((exists k: nat :: Live(f.arena, k) && !Live(r.0.arena, k)) ==> OrAssignAll(false, r.1))
  {
    CleanUpTrueErased(f, cands);
    CleanUpErasedReported(f, cands);
    OrAssignAny(false, CleanUp(f, cands).1);
  }

  lemma ReportCompose(f: Arena, doomed: seq<InstId>, f1: Arena, cands: seq<InstId>, f2: Arena, any: bool, g: Arena)
    requires |f1| == |f| && |f2| == |f1| && |g| == |f2|
    requires forall k :: 0 <= k < |f| && k !in doomed ==> f1[k] == f[k]
    requires forall x :: x in cands ==> x !in doomed
    requires any ==> exists j :: 0 <= j < |cands| && Live(f1, cands[j]) && !Live(f2, cands[j])
    requires (exists k: nat :: Live(f1, k) && !Live(f2, k)) ==> any
    requires forall k :: 0 <= k < |f2| ==> g[k] == (if k in doomed then None else f2[k])
    ensures any <==> exists k: nat :: k !in doomed && Live(f, k) && !Live(g, k)
  {
    if any {
      var j :| 0 <= j < |cands| && Live(f1, cands[j]) && !Live(f2, cands[j]);
      var k := cands[j];
      assert k !in doomed && g[k] == f2[k] && f1[k] == f[k];
    }
    if exists k: nat :: k !in doomed && Live(f, k) && !Live(g, k) {
      var k: nat :| k !in doomed && Live(f, k) && !Live(g, k);
      assert f1[k] == f[k] && g[k] == f2[k];
      assert Live(f1, k) && !Live(f2, k);
    }
  }

  /** The `|=` fold over the cleanup results says whether anything outside
      the doomed set was erased. */
  lemma PhasesReport(f: Function, doomed: seq<InstId>)
    requires BlocksLive(f)
    ensures var p := Phases(f, doomed);
            OrAssignAll(false, p.1) <==> exists k: nat :: k !in doomed && Live(f.arena, k) && !Live(p.0.arena, k)
  {
    var p1 := DropReferences(f, doomed, doomed, []);
    var p2 := CleanUp(p1.0, p1.1);
    StrippedStayStripped(f.arena, p1.0.arena, p2.0.arena, doomed);
    var g := EraseAll(p2.0, doomed);
    assert Phases(f, doomed) == (g, p2.1);
    ReportAt(f, doomed, p1, p2, g);
  }

  lemma ReportAt(f: Function, doomed: seq<InstId>, p1: (Function, seq<InstId>), p2: (Function, seq<bool>), g: Function)
    requires BlocksLive(f)
    requires p1 == DropReferences(f, doomed, doomed, []) && BlocksLive(p1.0) && p2 == CleanUp(p1.0, p1.1)
    requires forall s :: s in doomed && Live(p2.0.arena, s) ==> p2.0.arena[s].value.operands == []
    requires g == EraseAll(p2.0, doomed)
    ensures OrAssignAll(false, p2.1) <==> exists k: nat :: k !in doomed && Live(f.arena, k) && !Live(g.arena, k)
  {
    CleanUpReport(p1.0, p1.1);
    ReportCompose(f.arena, doomed, p1.0.arena, p1.1, p2.0.arena, OrAssignAll(false, p2.1), g.arena);
  }

  /** `eraseAndCleanup` as its doc comment describes it: the same deletion,
      reporting whether any instruction beyond the doomed set was erased. */
  function EraseAndCleanupReporting(f: Function, doomed: seq<InstId>): (r: (Function, bool))
    requires BlocksLive(f)
    ensures forall s :: s in doomed ==> !Live(r.0.arena, s)
    ensures OnlyErases(f.arena, r.0.arena, doomed)
    ensures NoNewDead(f.arena, r.0.arena, doomed)
    ensures forall s, y :: s in doomed && Live(f.arena, s) && Def(y) in f.arena[s].value.operands && y !in doomed ==>
              !TriviallyDead(r.0.arena, y)
    ensures ErasedForCause(f.arena, r.0.arena, doomed)
    ensures UsesShrink(f.arena, r.0.arena)
    ensures r.0.blocks == Prune(f.blocks, r.0.arena) && BlocksLive(r.0)
    ensures r.1 <==> exists k: nat :: k !in doomed && Live(f.arena, k) && !Live(r.0.arena, k)
  {
    var p := Phases(f, doomed);
    PhasesReach(f, doomed);
    PhasesForCause(f, doomed);
    PhasesReport(f, doomed);
    (p.0, OrAssignAll(false, p.1))
  }

  /** The single-instruction overload, forwarding to the set form as written,
      so it deletes what that form deletes and likewise returns `false`. */
  function EraseAndCleanupOne(f: Function, id: InstId): (r: (Function, bool))
    requires BlocksLive(f)
    ensures !Live(r.0.arena, id)
    ensures forall i :: 0 <= i < |r.0.blocks| ==> id !in r.0.blocks[i].body
    ensures OnlyErases(f.arena, r.0.arena, [id])
    ensures NoNewDead(f.arena, r.0.arena, [id])
    ensures ErasedForCause(f.arena, r.0.arena, [id])
    ensures Live(f.arena, id) ==>
              forall y :: Def(y) in f.arena[id].value.operands && y != id ==> !TriviallyDead(r.0.arena, y)
    ensures UsesShrink(f.arena, r.0.arena)
    ensures r.0.blocks == Prune(f.blocks, r.0.arena) && BlocksLive(r.0)
    ensures !r.1
  {
    EraseAndCleanup(f, [id])
  }

  /** Both versions delete the same instructions; only the flag differs. */
  lemma SameDeletion(f: Function, doomed: seq<InstId>)
    requires BlocksLive(f)
    ensures EraseAndCleanup(f, doomed).0 == EraseAndCleanupReporting(f, doomed).0
  {
  }

  /** An operand every one of whose users is doomed goes with them, when
      it is disposable. */
  lemma SoleUserErased(f: Function, doomed: seq<InstId>, s: InstId, y: InstId)
    requires BlocksLive(f) && s in doomed && Live(f.arena, s) && Def(y) in f.arena[s].value.operands
    requires y !in doomed && Live(f.arena, y) && f.arena[y].value.Disposable()
    requires forall k :: 0 <= k < |f.arena| && SlotUses(f.arena[k], y) > 0 ==> k in doomed
    ensures !Live(EraseAndCleanupReporting(f, doomed).0.arena, y)
  {
    var r := EraseAndCleanupReporting(f, doomed);
    UsersGone(f.arena, r.0.arena, doomed, y);
  }

  /** Once every reader of `y` is doomed and erased, nothing reads `y`, so
      a deletion that leaves nothing trivially dead has erased it. */
  lemma UsersGone(f: Arena, a: Arena, doomed: seq<InstId>, y: InstId)
    requires OnlyErases(f, a, doomed) && forall s :: s in doomed ==> !Live(a, s)
    requires forall k :: 0 <= k < |f| && SlotUses(f[k], y) > 0 ==> k in doomed
    requires Live(f, y) && f[y].value.Disposable() && !TriviallyDead(a, y)
    ensures !Live(a, y)
  {
    forall k | 0 <= k < |a|
      ensures SlotUses(a[k], y) == 0
    {
      assert a[k] == f[k] || a[k].None?;
    }
    UseCountZeroSlots(a, y);
  }

  lemma LiteralSwept(f: Function)
    requires f == Function([Some(Inst(IntegerLiteral(0), [], false)), Some(Inst(Plain, [Def(0)], false)),
                            Some(Inst(Unreachable, [], false))], [Block(0, [0, 1, 2])])
    ensures BlocksLive(f)
    ensures !Live(EraseAndCleanupReporting(f, [1]).0.arena, 0)
  {
    assert BlocksLive(f);
    assert Def(0) in f.arena[1].value.operands;
    forall k | 0 <= k < |f.arena| && SlotUses(f.arena[k], 0) > 0
      ensures k in [1]
    {
      assert k != 0 && k != 2;
    }
    SoleUserErased(f, [1], 1, 0);
  }

  /** The as-written result misses a cleanup: a literal read only by the
      doomed instruction is erased with it, yet `eraseAndCleanup` answers
      `false` where the reporting version answers `true`. */
  lemma AndAssignMissesCleanup(f: Function)
    requires f == Function([Some(Inst(IntegerLiteral(0), [], false)), Some(Inst(Plain, [Def(0)], false)),
                            Some(Inst(Unreachable, [], false))], [Block(0, [0, 1, 2])])
    ensures BlocksLive(f)
    ensures !Live(EraseAndCleanup(f, [1]).0.arena, 0)
    ensures !EraseAndCleanup(f, [1]).1 && EraseAndCleanupReporting(f, [1]).1
  {
    LiteralSwept(f);
    SameDeletion(f, [1]);
    assert Live(f.arena, 0);
  }

  /** The arena of the example below once `%2` has dropped its references. */
  function StrippedExample(): (a: Arena)
    ensures |a| == 4
  {
    [Some(Inst(Plain, [], false)), Some(Inst(Plain, [Def(0)], false)),
     Some(Inst(Plain, [], false)), Some(Inst(Unreachable, [], false))]
  }

  lemma DropExample(f: Function, p: (Function, seq<InstId>))
    requires f == Function([Some(Inst(Plain, [], false)), Some(Inst(Plain, [Def(0)], false)),
                            Some(Inst(Plain, [Def(1), Def(0)], false)), Some(Inst(Unreachable, [], false))],
                           [Block(0, [0, 1, 2, 3])])
    requires p == DropReferences(f, [2], [2], [])
    ensures p.0 == Function(StrippedExample(), f.blocks) && p.1 == [1, 0]
  {
    StripExample(f.arena);
    DropOne(f, [2], 2, []);
    CollectTwo(1, 0, [2]);
  }

  lemma StripExample(a: Arena)
    requires a == [Some(Inst(Plain, [], false)), Some(Inst(Plain, [Def(0)], false)),
                   Some(Inst(Plain, [Def(1), Def(0)], false)), Some(Inst(Unreachable, [], false))]
    ensures Live(a, 2) && a[2].value.operands == [Def(1), Def(0)]
    ensures a[2 := Stripped(a[2])] == StrippedExample()
  {
  }

  /** Dropping the references of one live instruction. */
  lemma DropOne(f: Function, doomed: seq<InstId>, s: InstId, cands: seq<InstId>)
    requires Live(f.arena, s)
    ensures DropReferences(f, doomed, [s], cands)
            == (Function(f.arena[s := Stripped(f.arena[s])], f.blocks), Collect(f.arena[s].value.operands, doomed, cands))
  {
    assert [s][1..] == [];
  }

  /** Two distinct undoomed definers are collected in the order read. */
  lemma CollectTwo(x: InstId, y: InstId, doomed: seq<InstId>)
    requires x != y && x !in doomed && y !in doomed
    ensures Collect([Def(x), Def(y)], doomed, []) == [x, y]
  {
    assert Collect([Def(x), Def(y)], doomed, []) == Collect([Def(y)], doomed, [x]) by {
      assert [Def(x), Def(y)] == [Def(x)] + [Def(y)];
      CollectCons(Def(x), [Def(y)], doomed, []);
    }
    CollectSingle(Def(y), doomed, [x]);
    assert [x] + [y] == [x, y];
  }

  lemma CollectSingle(v: Value, doomed: seq<InstId>, cands: seq<InstId>)
    ensures Collect([v], doomed, cands) == if v.Def? && v.inst !in doomed && v.inst !in cands then cands + [v.inst] else cands
  {
    assert [v][1..] == [];
  }

  lemma CollectCons(v: Value, ops: seq<Value>, doomed: seq<InstId>, cands: seq<InstId>)
    ensures Collect([v] + ops, doomed, cands)
            == Collect(ops, doomed, if v.Def? && v.inst !in doomed && v.inst !in cands then cands + [v.inst] else cands)
  {
    assert ([v] + ops)[0] == v && ([v] + ops)[1..] == ops;
  }

  lemma ExampleLive(g: Function)
    requires g == Function(StrippedExample(), [Block(0, [0, 1, 2, 3])])
    ensures BlocksLive(g) && TriviallyDead(g.arena, 1) && Def(0) in g.arena[1].value.operands
  {
    UseCountZeroSlots(g.arena, 1);
  }

  lemma CascadeExample(g: Function, d: Function)
    requires g == Function(StrippedExample(), [Block(0, [0, 1, 2, 3])])
    requires BlocksLive(g) && TriviallyDead(g.arena, 1) && Def(0) in g.arena[1].value.operands
    requires d == RecursivelyDelete(g, 1).0
    ensures !Live(d.arena, 0)
  {
    CascadeReach(g, 1);
    ExampleUnread(g.arena, d.arena);
  }

  lemma ExampleUnread(a: Arena, d: Arena)
    requires a == StrippedExample() && OnlyErases(a, d, []) && !Live(d, 1)
    ensures UseCount(d, 0) == 0
  {
    forall k | 0 <= k < |d|
      ensures SlotUses(d[k], 0) == 0
    {
      assert d[k] == a[k] || d[k].None?;
    }
    UseCountZeroSlots(d, 0);
  }

  /** As written, the candidate loop can reach a candidate that an earlier
      candidate's cascade has already erased. Deleting `%2` of
      `[%0 = plain; %1 = plain %0; %2 = plain %1, %0; unreachable]` collects
      `%1` and then `%0`; the cascade from `%1` erases `%0` before its turn,
      so the source hands a removed instruction to the cascading deleter. */
  lemma CandidateErasedEarly(f: Function, p: (Function, seq<InstId>), d: Function)
    requires f == Function([Some(Inst(Plain, [], false)), Some(Inst(Plain, [Def(0)], false)),
                            Some(Inst(Plain, [Def(1), Def(0)], false)), Some(Inst(Unreachable, [], false))],
                           [Block(0, [0, 1, 2, 3])])
    requires p == DropReferences(f, [2], [2], [])
    ensures BlocksLive(p.0)
    ensures p.1 == [1, 0] && Live(p.0.arena, 0)
    ensures d == RecursivelyDelete(p.0, 1).0 ==> !Live(d.arena, 0)
  {
    DropExample(f, p);
    ExampleLive(p.0);
    if d == RecursivelyDelete(p.0, 1).0 {
      CascadeExample(p.0, d);
    }
  }

  /** The model skips such a candidate instead: the cascading deleter, handed
      an instruction that is no longer live, changes nothing and reports
      false, so the loop moves on to the next candidate. */
  lemma ErasedCandidateSkipped(f: Function, cands: seq<InstId>)
    requires BlocksLive(f) && |cands| > 0 && !Live(f.arena, cands[0])
    ensures CleanUp(f, cands).0 == CleanUp(f, cands[1..]).0
    ensures CleanUp(f, cands).1 == [false] + CleanUp(f, cands[1..]).1
  {
    assert RecursivelyDelete(f, cands[0]) == (f, false);
  }
}

=== FILE: cascade.dfy ===
/** The liveness predicate and the worklist-driven cascading deleter
(`isInstructionTriviallyDead`, `recursivelyDeleteTriviallyDeadInstructions`). */
module Cascade {
  import opened IR

  /** The liveness predicate, stated against the use-list rather than the count. */
  function IsInstructionTriviallyDead(a: Arena, id: InstId): (r: bool)
    ensures r <==> && Live(a, id)
                   && Users(a, id) == {}
                   && !a[id].value.IsTerminator()
                   && !a[id].value.sideEffects
  {
    UseCountZeroIff(a, id);
    TriviallyDead(a, id)
  }

  /** Pending entries are distinct and each is trivially dead. */
  predicate WorklistOk(a: Arena, w: seq<InstId>) {
    && (forall j :: 0 <= j < |w| ==> TriviallyDead(a, w[j]))
    && (forall j, k :: 0 <= j < k < |w| ==> w[j] != w[k])
  }

  /** Every slot of `g` is that of `f`, or was erased, and then it was
      `doomed` or disposable. */
  predicate OnlyErases(f: Arena, g: Arena, doomed: seq<InstId>) {
    && |g| == |f|
    && forall k :: 0 <= k < |f| ==>
         || g[k] == f[k]
         || (g[k].None? && (k in doomed || (f[k].Some? && f[k].value.Disposable())))
  }

  /** Whatever is trivially dead in `g` was already so in `f` and is no seed. */
  ghost predicate NoNewDead(f: Arena, g: Arena, seeds: seq<InstId>) {
    forall y :: TriviallyDead(g, y) ==> TriviallyDead(f, y) && y !in seeds
  }

  ghost predicate UsesShrink(f: Arena, g: Arena) {
    forall y :: UseCount(g, y) <= UseCount(f, y)
  }

  /** No live operand still reads an erased instruction. */
  ghost predicate ErasedUnused(f: Arena, g: Arena) {
    forall k :: Live(f, k) && !Live(g, k) ==> UseCount(g, k) == 0
  }

  /** Deletion spreads only along operands: whatever `g` erased besides the
      seeds was read, in `f`, by another instruction `g` erased. */
  ghost predicate SpreadFromSeeds(f: Arena, g: Arena, seeds: seq<InstId>) {
    forall k :: Live(f, k) && !Live(g, k) && k !in seeds ==>
      exists e: InstId :: Live(f, e) && !Live(g, e) && Def(k) in f[e].value.operands
  }

  /** Whatever `g` erased besides the seeds was reached from them along
      operands and has no reader left in `g`. */
  ghost predicate ErasedForCause(f: Arena, g: Arena, seeds: seq<InstId>) {
    && SpreadFromSeeds(f, g, seeds)
    && forall k :: Live(f, k) && !Live(g, k) && k !in seeds ==> UseCount(g, k) == 0
  }

  /** `b`'s use-lists are `a`'s with the reads in `ops` dropped. */
  ghost predicate CountsDrop(a: Arena, b: Arena, ops: seq<Value>) {
    forall y :: UseCount(b, y) + multiset(ops)[Def(y)] == UseCount(a, y)
  }

  /** Replacing an instruction by one with fewer operands drops exactly those reads. */
  lemma ReplaceCounts(a: Arena, i: InstId, inst: Inst, dropped: seq<Value>, kept: seq<Value>)
    requires i < |a| && a[i] == Some(inst) && inst.operands == dropped + kept
    ensures CountsDrop(a, a[i := Some(inst.(operands := kept))], dropped)
  {
    forall y ensures UseCount(a[i := Some(inst.(operands := kept))], y) + multiset(dropped)[Def(y)] == UseCount(a, y) {
      UseCountUpdate(a, i, Some(inst.(operands := kept)), y);
    }
  }

  lemma EraseEmptyCounts(a: Arena, i: InstId)
    requires i < |a| && (a[i].Some? ==> a[i].value.operands == [])
    ensures CountsDrop(a, a[i := None], [])
  {
    forall y ensures UseCount(a[i := None], y) == UseCount(a, y) {
      UseCountUpdate(a, i, None, y);
    }
  }

  /** The next worklist after dropping the first operand `v` of a retiring instruction. */
  function PushIfDead(a1: Arena, v: Value, w: seq<InstId>): seq<InstId> {
    if v.Def? && TriviallyDead(a1, v.inst) then w + [v.inst] else w
  }

  lemma PushKeepsWorklist(a: Arena, a1: Arena, i: InstId, v: Value, w: seq<InstId>)
    requires CountsDrop(a, a1, [v]) && |a1| == |a|
    requires forall k :: k != i ==> (Live(a1, k) <==> Live(a, k))
    requires forall k :: 0 <= k < |a| && k != i ==> a1[k] == a[k]
    requires Live(a, i) && Live(a1, i) && UseCount(a, i) == 0
    requires WorklistOk(a, w) && i !in w
    ensures WorklistOk(a1, PushIfDead(a1, v, w)) && i !in PushIfDead(a1, v, w)
    ensures UseCount(a1, i) == 0
  {
    assert UseCount(a1, i) + multiset([v])[Def(i)] == UseCount(a, i);
    forall j | 0 <= j < |w| ensures TriviallyDead(a1, w[j]) {
      assert TriviallyDead(a, w[j]);
      assert UseCount(a1, w[j]) + multiset([v])[Def(w[j])] == UseCount(a, w[j]);
    }
    if v.Def? && TriviallyDead(a1, v.inst) {
      var y := v.inst;
      assert UseCount(a1, y) + 1 == UseCount(a, y);
      assert y !in w;
    }
  }

  /** The last step of retiring: `i` has no operands left and is erased. */
  lemma EraseRetired(f: Function, i: InstId, w: seq<InstId>)
    requires Live(f.arena, i) && f.arena[i].value.operands == []
    requires WorklistOk(f.arena, w) && i !in w
    requires BlocksLive(f)
    ensures Erase(f, i).arena == f.arena[i := None]
    ensures Erase(f, i).blocks == Prune(f.blocks, Erase(f, i).arena) && BlocksLive(Erase(f, i))
    ensures WorklistOk(Erase(f, i).arena, w)
  {
    EraseIsPrune(f, i);
    EraseEmptyCounts(f.arena, i);
    assert forall j :: 0 <= j < |w| ==> UseCount(f.arena[i := None], w[j]) + multiset([])[Def(w[j])] == UseCount(f.arena, w[j]);
  }

  /** Dropping the first operand of `i` keeps what the next retire step needs. */
  lemma DropFirstOk(f: Function, i: InstId, w: seq<InstId>)
    requires Live(f.arena, i) && UseCount(f.arena, i) == 0 && |f.arena[i].value.operands| > 0
    requires WorklistOk(f.arena, w) && i !in w
    requires BlocksLive(f)
    ensures var inst := f.arena[i].value;
            var a1 := f.arena[i := Some(inst.(operands := inst.operands[1..]))];
            var w1 := PushIfDead(a1, inst.operands[0], w);
            && Live(a1, i) && UseCount(a1, i) == 0
            && WorklistOk(a1, w1) && i !in w1
            && BlocksLive(Function(a1, f.blocks))
            && |a1[i].value.operands| < |inst.operands|
            && |w| <= |w1| && w1[..|w|] == w
            && forall j :: |w| <= j < |w1| ==> Def(w1[j]) in inst.operands
  {
    var inst := f.arena[i].value;
    var v := inst.operands[0];
    var rest := inst.operands[1..];
    assert inst.operands == [v] + rest;
    var a1 := f.arena[i := Some(inst.(operands := rest))];
    ReplaceCounts(f.arena, i, inst, [v], rest);
    PushKeepsWorklist(f.arena, a1, i, v, w);
  }

  /** Drop the operands of `i` one at a time, pushing each definer whose
      use-list becomes empty and that is disposable, then erase `i`. */
  function Retire(f: Function, i: InstId, w: seq<InstId>): (r: (Function, seq<InstId>))
    requires Live(f.arena, i) && UseCount(f.arena, i) == 0
    requires WorklistOk(f.arena, w) && i !in w
    requires BlocksLive(f)
    ensures r.0.arena == f.arena[i := None]
    ensures r.0.blocks == Prune(f.blocks, r.0.arena) && BlocksLive(r.0)
    ensures |w| <= |r.1| && r.1[..|w|] == w
    ensures WorklistOk(r.0.arena, r.1)
    ensures forall j :: |w| <= j < |r.1| ==> Def(r.1[j]) in f.arena[i].value.operands
    decreases |f.arena[i].value.operands|
  {
    var inst := f.arena[i].value;
    if |inst.operands| == 0 then
      EraseRetired(f, i, w);
      (Erase(f, i), w)
    else
      var v := inst.operands[0];
      var rest := inst.operands[1..];
      var a1 := f.arena[i := Some(inst.(operands := rest))];
      DropFirstOk(f, i, w);
      var w1 := PushIfDead(a1, v, w);
      var r := Retire(Function(a1, f.blocks), i, w1);
      assert r.1[..|w1|] == w1;
      assert w1[..|w|] == w;
      assert a1[i := None] == f.arena[i := None];
      r
  }

  /** Retiring `i` drops exactly the reads in its operand list. */
  lemma {:induction false} RetireCounts(f: Function, i: InstId, w: seq<InstId>)
    requires Live(f.arena, i) && UseCount(f.arena, i) == 0
    requires WorklistOk(f.arena, w) && i !in w
    requires BlocksLive(f)
    ensures CountsDrop(f.arena, Retire(f, i, w).0.arena, f.arena[i].value.operands)
    decreases |f.arena[i].value.operands|
  {
    var inst := f.arena[i].value;
    if |inst.operands| == 0 {
      EraseEmptyCounts(f.arena, i);
    } else {
      var v := inst.operands[0];
      var rest := inst.operands[1..];
      var a1 := f.arena[i := Some(inst.(operands := rest))];
      ReplaceCounts(f.arena, i, inst, [v], rest);
      PushKeepsWorklist(f.arena, a1, i, v, w);
      var w1 := PushIfDead(a1, v, w);
      RetireCounts(Function(a1, f.blocks), i, w1);
      var g := Retire(f, i, w).0.arena;
      assert inst.operands == [v] + rest;
      forall y ensures UseCount(g, y) + multiset(inst.operands)[Def(y)] == UseCount(f.arena, y) {
        assert UseCount(g, y) + multiset(rest)[Def(y)] == UseCount(a1, y);
        assert UseCount(a1, y) + multiset([v])[Def(y)] == UseCount(f.arena, y);
      }
    }
  }

  /** Every operand definer of `i` that ends up trivially dead was pushed. */
  lemma {:induction false} RetireCollects(f: Function, i: InstId, w: seq<InstId>, y: InstId)
    requires Live(f.arena, i) && UseCount(f.arena, i) == 0
    requires WorklistOk(f.arena, w) && i !in w
    requires BlocksLive(f)
    requires Def(y) in f.arena[i].value.operands && TriviallyDead(Retire(f, i, w).0.arena, y)
    ensures y in Retire(f, i, w).1
    decreases |f.arena[i].value.operands|
  {
    var inst := f.arena[i].value;
    var v := inst.operands[0];
    var rest := inst.operands[1..];
    var a1 := f.arena[i := Some(inst.(operands := rest))];
    DropFirstOk(f, i, w);
    var w1 := PushIfDead(a1, v, w);
    var f1 := Function(a1, f.blocks);
    var r := Retire(f1, i, w1);
    assert r == Retire(f, i, w);
    if Def(y) in rest {
      RetireCollects(f1, i, w1, y);
    } else {
      RetireCounts(f1, i, w1);
      LastReadDead(a1, r.0.arena, rest, i, y);
      PushedStays(a1, v, w, r.1, y);
    }
  }

  /** A definer pushed as dead stays on the worklist that grows from here. */
  lemma PushedStays(a1: Arena, v: Value, w: seq<InstId>, r1: seq<InstId>, y: InstId)
    requires v == Def(y) && TriviallyDead(a1, y)
    requires |PushIfDead(a1, v, w)| <= |r1| && r1[..|PushIfDead(a1, v, w)|] == PushIfDead(a1, v, w)
    ensures y in r1
  {
    assert PushIfDead(a1, v, w) == w + [y];
    assert r1[|w|] == r1[..|w| + 1][|w|];
  }

  /** A definer not read by the remaining operands keeps its count from here on. */
  lemma LastReadDead(a1: Arena, g: Arena, rest: seq<Value>, i: InstId, y: InstId)
    requires i < |a1| && CountsDrop(a1, g, rest) && g == a1[i := None]
    requires Def(y) !in rest && TriviallyDead(g, y)
    ensures TriviallyDead(a1, y)
  {
    assert y != i && g[y] == a1[y];
    assert UseCount(g, y) + multiset(rest)[Def(y)] == UseCount(a1, y);
  }

  /** Pop and retire worklist entries until none is left. */
  function Drain(f: Function, w: seq<InstId>): (g: Function)
    requires WorklistOk(f.arena, w) && BlocksLive(f)
    ensures OnlyErases(f.arena, g.arena, [])
    ensures forall j :: 0 <= j < |w| ==> !Live(g.arena, w[j])
    ensures g.blocks == Prune(f.blocks, g.arena) && BlocksLive(g)
    decreases LiveCount(f.arena)
  {
    if |w| == 0 then
      PruneLive(f);
      f
    else
      var i := w[|w| - 1];
      var w0 := w[..|w| - 1];
      var r := Retire(f, i, w0);
      LiveCountErase(f.arena, i, None);
      var g := Drain(r.0, r.1);
      DrainStep(f, w, r.0, r.1, g);
      g
  }

  /** One pop of the worklist composes with the rest of the drain. */
  lemma DrainStep(f: Function, w: seq<InstId>, f1: Function, w1: seq<InstId>, g: Function)
    requires |w| > 0 && TriviallyDead(f.arena, w[|w| - 1])
    requires f1.arena == f.arena[w[|w| - 1] := None] && f1.blocks == Prune(f.blocks, f1.arena)
    requires |w| - 1 <= |w1| && w1[..|w| - 1] == w[..|w| - 1]
    requires OnlyErases(f1.arena, g.arena, [])
    requires forall j :: 0 <= j < |w1| ==> !Live(g.arena, w1[j])
    requires g.blocks == Prune(f1.blocks, g.arena)
    ensures OnlyErases(f.arena, g.arena, [])
    ensures forall j :: 0 <= j < |w| ==> !Live(g.arena, w[j])
    ensures g.blocks == Prune(f.blocks, g.arena)
  {
    var i := w[|w| - 1];
    assert !Live(f1.arena, i);
    forall j | 0 <= j < |w| - 1 ensures !Live(g.arena, w[j]) {
      assert w[j] == w1[j];
    }
    PruneTwice(f.blocks, f1.arena, g.arena);
  }

  /** Draining only shrinks use-lists, and leaves none reading an erased instruction. */
  lemma {:induction false} DrainCounts(f: Function, w: seq<InstId>)
    requires WorklistOk(f.arena, w) && BlocksLive(f)
    ensures UsesShrink(f.arena, Drain(f, w).arena) && ErasedUnused(f.arena, Drain(f, w).arena)
    decreases LiveCount(f.arena)
  {
    if |w| > 0 {
      var i := w[|w| - 1];
      var w0 := w[..|w| - 1];
      var r := Retire(f, i, w0);
      LiveCountErase(f.arena, i, None);
      RetireCounts(f, i, w0);
      DrainCounts(r.0, r.1);
      var g := Drain(f, w).arena;
      assert g == Drain(r.0, r.1).arena;
      forall y ensures UseCount(g, y) <= UseCount(f.arena, y) {
        assert UseCount(r.0.arena, y) + multiset(f.arena[i].value.operands)[Def(y)] == UseCount(f.arena, y);
      }
      assert UseCount(r.0.arena, i) + multiset(f.arena[i].value.operands)[Def(i)] == UseCount(f.arena, i);
    }
  }

  /** Draining leaves no instruction trivially dead that was not so before,
      and none of the worklist. */
  lemma {:induction false} DrainNoNewDead(f: Function, w: seq<InstId>)
    requires WorklistOk(f.arena, w) && BlocksLive(f)
    ensures NoNewDead(f.arena, Drain(f, w).arena, w)
    decreases LiveCount(f.arena)
  {
    if |w| > 0 {
      var i := w[|w| - 1];
      var w0 := w[..|w| - 1];
      var r := Retire(f, i, w0);
      LiveCountErase(f.arena, i, None);
      RetireCounts(f, i, w0);
      DrainNoNewDead(r.0, r.1);
      var g := Drain(f, w).arena;
      assert g == Drain(r.0, r.1).arena;
      assert forall j :: 0 <= j < |w0| ==> w0[j] == r.1[j];
      forall y | TriviallyDead(g, y)
        ensures TriviallyDead(f.arena, y) && y !in w
      {
        assert TriviallyDead(r.0.arena, y) && y !in r.1;
        if Def(y) in f.arena[i].value.operands {
          RetireCollects(f, i, w0, y);
        }
        assert UseCount(r.0.arena, y) + multiset(f.arena[i].value.operands)[Def(y)] == UseCount(f.arena, y);
      }
    }
  }

  /** Only the worklist entries and instructions read by something the loop
      erased are erased. */
  lemma {:induction false} DrainSpread(f: Function, w: seq<InstId>)
    requires WorklistOk(f.arena, w) && BlocksLive(f)
    ensures SpreadFromSeeds(f.arena, Drain(f, w).arena, w)
    decreases LiveCount(f.arena)
  {
    if |w| > 0 {
      var i := w[|w| - 1];
      var r := Retire(f, i, w[..|w| - 1]);
      LiveCountErase(f.arena, i, None);
      DrainSpread(r.0, r.1);
      SpreadStep(f.arena, w, r.0.arena, r.1, Drain(r.0, r.1).arena);
    }
  }

  /** One worklist step: what the rest of the loop spreads to from the new
      worklist, the whole loop spreads to from the old one. */
  lemma SpreadStep(a: Arena, w: seq<InstId>, b: Arena, w1: seq<InstId>, g: Arena)
    requires |w| > 0 && Live(a, w[|w| - 1])
    requires b == a[w[|w| - 1] := None]
    requires |w| - 1 <= |w1| && w1[..|w| - 1] == w[..|w| - 1]
    requires forall j :: |w| - 1 <= j < |w1| ==> Def(w1[j]) in a[w[|w| - 1]].value.operands
    requires |g| == |b| && !Live(g, w[|w| - 1]) && SpreadFromSeeds(b, g, w1)
    ensures SpreadFromSeeds(a, g, w)
  {
    var i := w[|w| - 1];
    var w0 := w[..|w| - 1];
    forall k | Live(a, k) && !Live(g, k) && k !in w
      ensures exists e: InstId :: Live(a, e) && !Live(g, e) && Def(k) in a[e].value.operands
    {
      assert k != i && Live(b, k);
      if k in w1 {
        var j :| 0 <= j < |w1| && w1[j] == k;
      } else {
        var e: InstId :| Live(b, e) && !Live(g, e) && Def(k) in b[e].value.operands;
        assert e != i && b[e] == a[e];
      }
    }
  }

  /** `recursivelyDeleteTriviallyDeadInstructions`: nothing happens unless
      `id` names a trivially dead instruction; otherwise it and every definer
      that becomes trivially dead in consequence is erased. */
  function RecursivelyDelete(f: Function, id: InstId): (r: (Function, bool))
    requires BlocksLive(f)
    ensures !TriviallyDead(f.arena, id) ==> r == (f, false)
    ensures TriviallyDead(f.arena, id) ==>
              && r.1
              && !Live(r.0.arena, id)
              && forall i :: 0 <= i < |r.0.blocks| ==> id !in r.0.blocks[i].body
    ensures OnlyErases(f.arena, r.0.arena, [])
    ensures UsesShrink(f.arena, r.0.arena) && ErasedUnused(f.arena, r.0.arena)
    ensures NoNewDead(f.arena, r.0.arena, [id])
    ensures ErasedForCause(f.arena, r.0.arena, [id])
    ensures r.0.blocks == Prune(f.blocks, r.0.arena) && BlocksLive(r.0)
  {
    if !TriviallyDead(f.arena, id) then
      PruneLive(f);
      (f, false)
    else
      DrainCounts(f, [id]);
      DrainNoNewDead(f, [id]);
      DrainSpread(f, [id]);
      (Drain(f, [id]), true)
  }

  /** No operand definer of an erased instruction is left trivially dead. */
  lemma NoDeadOperandLeft(f: Arena, g: Arena, doomed: seq<InstId>, e: InstId, d: InstId)
    requires NoNewDead(f, g, doomed)
    requires Live(f, e) && !Live(g, e) && Def(d) in f[e].value.operands
    ensures !TriviallyDead(g, d)
  {
    UsedIsCounted(f, e, d);
  }

  /** The cascade's reach: it erases only disposable instructions, leaves no
      operand definer of what it erased trivially dead, and reads of the
      erased ones are gone. */
  lemma CascadeReach(f: Function, id: InstId)
    requires BlocksLive(f)
    ensures var g := RecursivelyDelete(f, id).0;
            forall e: nat, d: nat :: Live(f.arena, e) && !Live(g.arena, e) && Def(d) in f.arena[e].value.operands ==>
              !TriviallyDead(g.arena, d)
  {
    var g := RecursivelyDelete(f, id).0;
    forall e: nat, d: nat | Live(f.arena, e) && !Live(g.arena, e) && Def(d) in f.arena[e].value.operands
      ensures !TriviallyDead(g.arena, d)
    {
      NoDeadOperandLeft(f.arena, g.arena, [id], e, d);
    }
  }

  // ---------------------------------------------------------------------------
  // Composition of deletion steps
  // ---------------------------------------------------------------------------

  lemma OnlyErasesTrans(a: Arena, b: Arena, c: Arena, d1: seq<InstId>, d2: seq<InstId>)
    requires OnlyErases(a, b, d1) && OnlyErases(b, c, d2)
    ensures OnlyErases(a, c, d1 + d2)
  {
    forall k | 0 <= k < |a|
      ensures c[k] == a[k] || (c[k].None? && (k in d1 + d2 || (a[k].Some? && a[k].value.Disposable())))
    {
      assert b[k] == a[k] || (b[k].None? && (k in d1 || (a[k].Some? && a[k].value.Disposable())));
    }
  }

  lemma OnlyErasesWiden(a: Arena, b: Arena, d1: seq<InstId>, d2: seq<InstId>)
    requires OnlyErases(a, b, d1) && forall k :: k in d1 ==> k in d2
    ensures OnlyErases(a, b, d2)
  {
  }

  lemma CountsTrans(a: Arena, b: Arena, c: Arena)
    requires UsesShrink(a, b) && UsesShrink(b, c)
    requires OnlyErases(a, b, []) && OnlyErases(b, c, [])
    requires ErasedUnused(a, b) && ErasedUnused(b, c)
    ensures UsesShrink(a, c) && ErasedUnused(a, c)
  {
    forall k | Live(a, k) && !Live(c, k) ensures UseCount(c, k) == 0 {
      if !Live(b, k) {
        assert UseCount(c, k) <= UseCount(b, k);
      }
    }
  }

  /** Two deletions, each erasing only for cause, compose. */
  lemma ForCauseTrans(a: Arena, b: Arena, c: Arena, s1: seq<InstId>, s2: seq<InstId>, d1: seq<InstId>, d2: seq<InstId>)
    requires ErasedForCause(a, b, s1) && ErasedForCause(b, c, s2)
    requires OnlyErases(a, b, d1) && OnlyErases(b, c, d2) && UsesShrink(b, c)
    ensures ErasedForCause(a, c, s1 + s2)
  {
    forall k | Live(a, k) && !Live(c, k) && k !in s1 + s2
      ensures UseCount(c, k) == 0
      ensures exists e: InstId :: Live(a, e) && !Live(c, e) && Def(k) in a[e].value.operands
    {
      if !Live(b, k) {
        assert UseCount(c, k) <= UseCount(b, k);
        var e: InstId :| Live(a, e) && !Live(b, e) && Def(k) in a[e].value.operands;
        assert !Live(c, e);
      } else {
        var e: InstId :| Live(b, e) && !Live(c, e) && Def(k) in b[e].value.operands;
        assert b[e] == a[e];
      }
    }
  }

  /** Appending the same operand-free slot to both arenas keeps a deletion
      for cause. */
  lemma AppendForCause(a: Arena, b: Arena, seeds: seq<InstId>, o: Option<Inst>)
    requires |b| == |a| && ErasedForCause(a, b, seeds)
    requires o.Some? ==> o.value.operands == []
    ensures ErasedForCause(a + [o], b + [o], seeds)
  {
    forall k: InstId | Live(a + [o], k) && !Live(b + [o], k) && k !in seeds
      ensures UseCount(b + [o], k) == 0
      ensures exists e: InstId :: Live(a + [o], e) && !Live(b + [o], e) && Def(k) in (a + [o])[e].value.operands
    {
      assert k < |a| && (a + [o])[k] == a[k] && (b + [o])[k] == b[k];
      UseCountAppend(b, o, k);
      var e: InstId :| Live(a, e) && !Live(b, e) && Def(k) in a[e].value.operands;
      assert (a + [o])[e] == a[e] && (b + [o])[e] == b[e];
    }
  }

  /** Two seeded deletions in a row are one seeded deletion. */
  lemma ChainTrans(a: Arena, b: Arena, c: Arena, s1: seq<InstId>, s2: seq<InstId>)
    requires OnlyErases(a, b, s1) && ErasedForCause(a, b, s1) && UsesShrink(a, b)
    requires OnlyErases(b, c, s2) && ErasedForCause(b, c, s2) && UsesShrink(b, c)
    ensures OnlyErases(a, c, s1 + s2) && ErasedForCause(a, c, s1 + s2) && UsesShrink(a, c)
  {
    OnlyErasesTrans(a, b, c, s1, s2);
    ForCauseTrans(a, b, c, s1, s2, s1, s2);
    assert forall y :: UseCount(c, y) <= UseCount(b, y) <= UseCount(a, y);
  }

  lemma ForCauseWiden(a: Arena, b: Arena, s1: seq<InstId>, s2: seq<InstId>)
    requires ErasedForCause(a, b, s1) && forall k :: k in s1 ==> k in s2
    ensures ErasedForCause(a, b, s2)
  {
  }

  /** Every reader of an instruction erased for cause was erased too. */
  lemma ReadersErased(f: Arena, g: Arena, seeds: seq<InstId>, d: seq<InstId>, k: InstId, u: InstId)
    requires ErasedForCause(f, g, seeds) && OnlyErases(f, g, d)
    requires Live(f, k) && !Live(g, k) && k !in seeds
    requires Live(f, u) && Def(k) in f[u].value.operands
    ensures !Live(g, u)
  {
    if Live(g, u) {
      assert g[u] == f[u];
      UsedIsCounted(g, u, k);
    }
  }

  lemma NoNewDeadTrans(a: Arena, b: Arena, c: Arena, s1: seq<InstId>, s2: seq<InstId>)
    requires NoNewDead(a, b, s1) && NoNewDead(b, c, s2)
    ensures NoNewDead(a, c, s1 + s2)
  {
  }

  // ---------------------------------------------------------------------------
  // Well-founded cause
  // ---------------------------------------------------------------------------

  /** A finite nonempty set has a member of greatest rank. */
  lemma {:induction false} HighestRank(S: set<InstId>, rank: InstId -> nat) returns (m: InstId)
    requires S != {}
    ensures m in S && forall x :: x in S ==> rank(x) <= rank(m)
    decreases |S|
  {
    var x :| x in S;
    if S == {x} {
      m := x;
    } else {
      var m1 := HighestRank(S - {x}, rank);
      m := if rank(x) <= rank(m1) then m1 else x;
    }
  }

  /** On an acyclic def-use graph the cause is well-founded: in any nonempty
      set of erased non-seeds, some member was read by an erased instruction
      outside the set, so no set of erasures justifies itself. */
  lemma ForCauseFounded(f: Arena, g: Arena, seeds: seq<InstId>, rank: InstId -> nat, S: set<InstId>)
    requires RankedBy(f, rank) && SpreadFromSeeds(f, g, seeds)
    requires S != {} && forall k :: k in S ==> Live(f, k) && !Live(g, k) && k !in seeds
    ensures exists k: InstId, e: InstId :: k in S && e !in S && Live(f, e) && !Live(g, e) && Def(k) in f[e].value.operands
  {
    var m := HighestRank(S, rank);
    var e: InstId :| Live(f, e) && !Live(g, e) && Def(m) in f[e].value.operands;
    assert rank(m) < rank(e);
  }

  /** A set of instructions that no seed belongs to and that only its own
      members read (a dead cycle, say) survives a deletion for cause. */
  lemma ClosedSetSpared(f: Arena, g: Arena, seeds: seq<InstId>, rank: InstId -> nat, S: set<InstId>)
    requires RankedBy(f, rank) && SpreadFromSeeds(f, g, seeds)
    requires forall k :: k in S ==> Live(f, k) && k !in seeds
    requires forall k: InstId, e: InstId :: k in S && Live(f, e) && Def(k) in f[e].value.operands ==> e in S
    ensures forall k :: k in S ==> Live(g, k)
  {
    var T := set k | k in S && !Live(g, k);
    if T != {} {
      ForCauseFounded(f, g, seeds, rank, T);
      assert false;
    }
    assert forall k :: k in S && !Live(g, k) ==> k in T;
  }

  /** The cascade never reaches a reader-closed set that does not hold `id`. */
  lemma RecursivelyDeleteSpares(f: Function, id: InstId, rank: InstId -> nat, S: set<InstId>)
    requires BlocksLive(f) && RankedBy(f.arena, rank)
    requires forall k :: k in S ==> Live(f.arena, k) && k != id
    requires forall k: InstId, e: InstId :: k in S && Live(f.arena, e) && Def(k) in f.arena[e].value.operands ==> e in S
    ensures forall k :: k in S ==> Live(RecursivelyDelete(f, id).0.arena, k)
  {
    ClosedSetSpared(f.arena, RecursivelyDelete(f, id).0.arena, [id], rank, S);
  }

  /** Erasing only lets the numbering of an acyclic graph stand. */
  lemma RankKept(f: Arena, g: Arena, doomed: seq<InstId>, rank: InstId -> nat)
    requires RankedBy(f, rank) && OnlyErases(f, g, doomed)
    ensures RankedBy(g, rank)
  {
  }
}

=== FILE: driver.dfy ===
/** The pass's top-level driver (`performSILDeadCodeElimination`): per
    function, each block in order has its terminator folded or, failing
    that, is cut after a no-return call; then the unreachable blocks go. */
module Driver {
  import opened IR
  import opened Cascade
  import opened Preserve
  import opened Reachability
  import opened ConstantFold
  import opened NoReturn
  import opened Sweep

  /** The pass's two statistics counters. */
  datatype Stats = Stats(instructionsRemoved: nat, blocksRemoved: nat)

  // ---------------------------------------------------------------------------
  // Counting live instructions
  // ---------------------------------------------------------------------------

  /** `g` keeps no instruction slot `f` had empty. */
  predicate Shrunk(f: Arena, g: Arena) {
    |g| == |f| && forall k :: 0 <= k < |f| && g[k].Some? ==> f[k].Some?
  }

  lemma {:induction false} ShrunkCount(f: Arena, g: Arena)
    requires Shrunk(f, g)
    ensures LiveCount(g) <= LiveCount(f)
  {
    if |f| > 0 {
      ShrunkCount(f[..|f| - 1], g[..|g| - 1]);
    }
  }

  /** Erasing distinct live instructions lowers the live count by at least
      their number. */
  lemma {:induction false} ErasedCount(f: Arena, g: Arena, ds: seq<InstId>)
    requires Shrunk(f, g) && Distinct(ds)
    requires forall x :: x in ds ==> Live(f, x) && !Live(g, x)
    ensures LiveCount(g) + |ds| <= LiveCount(f)
    decreases |ds|
  {
    if |ds| == 0 {
      ShrunkCount(f, g);
    } else {
      var x0 := ds[0];
      assert x0 in ds;
      var f1 := f[x0 := None];
      LiveCountErase(f, x0, None);
      assert Shrunk(f1, g);
      forall x | x in ds[1..]
        ensures Live(f1, x) && !Live(g, x)
      {
        var j :| 0 <= j < |ds| - 1 && ds[1..][j] == x;
        assert ds[0] != ds[j + 1];
        assert x in ds;
      }
      ErasedCount(f1, g, ds[1..]);
    }
  }

  lemma AppendCount(a: Arena, o: Option<Inst>)
    ensures LiveCount(a + [o]) == LiveCount(a) + (if o.Some? then 1 else 0)
  {
    assert (a + [o])[..|a|] == a;
  }

  /** A block rewrite that erases its distinct doomed instructions and adds
      one terminator lowers the live count by their number, less one. */
  lemma RewriteCount(f: Function, b: nat, k: nat, doomed: seq<InstId>, inst: Inst, g: Function)
    requires WellFormed(f) && b < |f.blocks| && k <= |f.blocks[b].body|
    requires RewrittenAt(f, b, k, doomed, inst, g) && Distinct(doomed)
    requires forall x :: x in doomed ==> !Live(g.arena, x)
    ensures LiveCount(g.arena) + |doomed| <= LiveCount(f.arena) + 1
  {
    var n := |f.arena|;
    var g0 := g.arena[..n];
    assert g.arena == g0 + [Some(inst)];
    AppendCount(g0, Some(inst));
    forall x | x in doomed
      ensures Live(f.arena, x) && !Live(g0, x)
    {
      var j :| k <= j < |f.blocks[b].body| && f.blocks[b].body[j] == x;
      assert g0[x] == g.arena[x];
    }
    ErasedCount(f.arena, g0, doomed);
  }

  // ---------------------------------------------------------------------------
  // Successor sets only narrow
  // ---------------------------------------------------------------------------

  /** `g` has `f`'s blocks in order under the same labels, and no block of
      `g` branches to a label its counterpart in `f` did not. */
  predicate Narrower(f: Function, g: Function) {
    && |g.blocks| == |f.blocks|
    && (forall i :: 0 <= i < |f.blocks| ==> g.blocks[i].name == f.blocks[i].name)
    && (forall i, l :: 0 <= i < |f.blocks| && l in BlockDests(g, i) ==> l in BlockDests(f, i))
  }

  lemma NarrowerTrans(f: Function, g: Function, h: Function)
    requires Narrower(f, g) && Narrower(g, h)
    ensures Narrower(f, h)
  {
  }

  /** A rewrite whose new terminator targets only old successors narrows. */
  lemma RewriteNarrows(f: Function, b: nat, k: nat, doomed: seq<InstId>, inst: Inst, g: Function)
    requires WellFormed(f) && b < |f.blocks| && k < |f.blocks[b].body|
    requires RewrittenAt(f, b, k, doomed, inst, g)
    requires forall l :: l in inst.Dests() ==> l in BlockDests(f, b)
    ensures Narrower(f, g)
  {
    forall i | 0 <= i < |f.blocks| && i != b
      ensures BlockDests(g, i) == BlockDests(f, i)
    {
      OtherBlockTerminated(f, b, k, doomed, inst, g, i);
    }
    assert BlockDests(g, b) == inst.Dests();
  }

  /** Narrowing never makes a block reachable that was not. */
  lemma NarrowerReach(f: Function, g: Function)
    requires WellFormed(f) && WellFormed(g) && |f.blocks| > 0 && Narrower(f, g)
    ensures Reachable(g) <= Reachable(f)
  {
    var R := Reachable(f);
    ReachableClosed(f);
    forall l, d | l in R && d in Successors(g, l)
      ensures d in R
    {
      var i := IndexOf(g.blocks, l).value;
      assert f.blocks[i].name == l;
      IndexOfDistinct(f.blocks, i);
      assert d in Successors(f, l);
    }
    ReachableLeast(g, R);
  }

  // ---------------------------------------------------------------------------
  // The block loop
  // ---------------------------------------------------------------------------

  /** One step of the block loop: fold block `b`'s terminator; only when
      that does nothing, cut the block after its first no-return call. The
      count is what `NumInstructionsRemoved` gains. */
  function SimplifyBlock(f: Function, b: nat): (r: (Function, nat))
    requires WellFormed(f) && b < |f.blocks|
    ensures WellFormed(r.0) && Narrower(f, r.0)
    ensures LiveCount(r.0.arena) + r.1 <= LiveCount(f.arena) + 1
    ensures Foldable(f, b) ==> FoldedAt(f, b, r.0) && r.1 == 0
    ensures var k := FirstNoReturnCall(f.arena, f.blocks[b].body);
            && (!Foldable(f, b) && k.None? ==> r == (f, 0))
            && (!Foldable(f, b) && k.Some? ==>
                  k.value + 1 < |f.blocks[b].body| && TruncatedAt(f, b, k.value, r.0)
                  && r.1 == |f.blocks[b].body| - (k.value + 1))
  {
    var c := ConstantFoldTerminator(f, b);
    if c.1 then
      FoldStep(f, b, c.0);
      (c.0, 0)
    else
      var s := SimplifyBlocksWithCallsToNoReturn(f, b);
      if s.1 then
        var k := FirstNoReturnCall(f.arena, f.blocks[b].body).value;
        TruncateStep(f, b, k, s.0);
        (s.0, s.2)
      else
        (f, 0)
  }

  lemma FoldStep(f: Function, b: nat, g: Function)
    requires WellFormed(f) && b < |f.blocks| && Foldable(f, b) && FoldedAt(f, b, g)
    ensures Narrower(f, g) && LiveCount(g.arena) <= LiveCount(f.arena)
  {
    var t := TerminatorOf(f, b);
    var k := |f.blocks[b].body| - 1;
    RewriteNarrows(f, b, k, [t], NewBranch(f, b), g);
    RewriteCount(f, b, k, [t], NewBranch(f, b), g);
  }

  lemma TruncateStep(f: Function, b: nat, k: nat, g: Function)
    requires WellFormed(f) && b < |f.blocks| && k + 1 < |f.blocks[b].body|
    requires CutShape(f, b, k, g)
    ensures Narrower(f, g)
    ensures LiveCount(g.arena) + (|f.blocks[b].body| - (k + 1)) <= LiveCount(f.arena) + 1
  {
    var body := f.blocks[b].body;
    var tail := body[k + 1..];
    RewriteNarrows(f, b, k + 1, tail, Inst(Unreachable, [], false), g);
    assert Distinct(body);
    RewriteCount(f, b, k + 1, tail, Inst(Unreachable, [], false), g);
  }

  /** The block loop of the driver, over blocks `b` onwards in order. */
  function SimplifyBlocks(f: Function, b: nat): (r: (Function, nat))
    requires WellFormed(f) && b <= |f.blocks|
    ensures WellFormed(r.0) && Narrower(f, r.0)
    ensures LiveCount(r.0.arena) + r.1 <= LiveCount(f.arena) + (|f.blocks| - b)
    decreases |f.blocks| - b
  {
    if b == |f.blocks| then (f, 0)
    else
      var s := SimplifyBlock(f, b);
      var t := SimplifyBlocks(s.0, b + 1);
      NarrowerTrans(f, s.0, t.0);
      (t.0, s.1 + t.1)
  }

  /** What the driver promises about a function's blocks: none survives
      that was unreachable before, every survivor is reachable afterwards,
      and the entry stays first. */
  ghost predicate Cleaned(f: Function, g: Function)
    requires WellFormed(f) && WellFormed(g)
  {
    if |f.blocks| == 0 then g.blocks == []
    else
      && |g.blocks| > 0 && g.blocks[0].name == f.blocks[0].name
      && forall k :: 0 <= k < |g.blocks| ==> g.blocks[k].name in Reachable(f) && g.blocks[k].name in Reachable(g)
  }

  /** The driver's work on one function: the block loop over every block
      in order, then the sweep, with the two counters. No block survives
      that was unreachable before the pass, every surviving block is
      reachable afterwards, the entry stays first, the block counter is
      exact and the instruction counter never exceeds the live instructions
      that went, allowing for one new terminator per block. */
  function OptimizeFunction(f: Function): (r: (Function, Stats))
    requires WellFormed(f)
    ensures WellFormed(r.0) && Cleaned(f, r.0) && Tallied(f, r.0, r.1)
  {
    var s := SimplifyBlocks(f, 0);
    var w := RemoveUnreachableBlocks(s.0);
    OptimizeFacts(f, s.0);
    (w.0, Stats(s.1, w.2))
  }

  lemma OptimizeFacts(f: Function, f1: Function)
    requires WellFormed(f) && WellFormed(f1) && Narrower(f, f1)
    ensures var g := RemoveUnreachableBlocks(f1).0;
            && WellFormed(g) && Cleaned(f, g)
            && RemoveUnreachableBlocks(f1).2 == |f.blocks| - |g.blocks|
            && LiveCount(g.arena) <= LiveCount(f1.arena)
  {
    if |f.blocks| > 0 {
      assert f1.blocks[0].name == f.blocks[0].name;
      SweepKeepsReached(f1);
      NarrowerReach(f, f1);
    }
    SweepCount(f1);
  }

  /** The sweep only erases instructions. */
  lemma SweepCount(f: Function)
    requires WellFormed(f)
    ensures LiveCount(RemoveUnreachableBlocks(f).0.arena) <= LiveCount(f.arena)
    ensures |RemoveUnreachableBlocks(f).0.blocks| <= |f.blocks|
  {
    var r := RemoveUnreachableBlocks(f);
    if r.1 {
      SweptShrinks(f, r.0);
      ShrunkCount(f.arena, r.0.arena);
    }
  }

  lemma SweptShrinks(f: Function, g: Function)
    requires WellFormed(f) && |f.blocks| > 0 && SweptShape(f, g)
    ensures Shrunk(f.arena, g.arena)
  {
    assert OnlyErases(f.arena, g.arena, DeadInsts(f.blocks, Reachable(f)));
  }

  /** Number of blocks in the first `n` functions. */
  function BlockCount(fs: seq<Function>, n: nat): nat
    requires n <= |fs|
  {
    if n == 0 then 0 else BlockCount(fs, n - 1) + |fs[n - 1].blocks|
  }

  /** Number of live instructions in the first `n` functions. */
  function InstCount(fs: seq<Function>, n: nat): nat
    requires n <= |fs|
  {
    if n == 0 then 0 else InstCount(fs, n - 1) + LiveCount(fs[n - 1].arena)
  }

  /** The counters for turning `f` into `g`: the block counter is exact,
      and the instruction counter never exceeds the live instructions that
      went, allowing for one new terminator per block. */
  predicate Tallied(f: Function, g: Function, s: Stats) {
    && s.blocksRemoved == |f.blocks| - |g.blocks|
    && LiveCount(g.arena) + s.instructionsRemoved <= LiveCount(f.arena) + |f.blocks|
  }

  /** The same, summed over the first `n` functions of a module. */
  predicate TalliedAll(ms: seq<Function>, fs: seq<Function>, n: nat, s: Stats)
    requires n <= |ms| && n <= |fs|
  {
    && s.blocksRemoved + BlockCount(fs, n) == BlockCount(ms, n)
    && InstCount(fs, n) + s.instructionsRemoved <= InstCount(ms, n) + BlockCount(ms, n)
  }

  /** The counters of several functions added up. */
  function Sum(ss: seq<Stats>): (r: Stats)
  {
    if |ss| == 0 then Stats(0, 0)
    else
      var t := Sum(ss[..|ss| - 1]);
      Stats(t.instructionsRemoved + ss[|ss| - 1].instructionsRemoved, t.blocksRemoved + ss[|ss| - 1].blocksRemoved)
  }

  /** The first `n` results and their counters are the block loop then the
      sweep applied to the module's functions. */
  ghost predicate Rewritten(ms: seq<Function>, fs: seq<Function>, ss: seq<Stats>, n: nat)
    requires n <= |ms| && n <= |fs| && n <= |ss| && forall i :: 0 <= i < |ms| ==> WellFormed(ms[i])
  {
    forall j :: 0 <= j < n ==> (fs[j], ss[j]) == OptimizeFunction(ms[j])
  }

  lemma RewrittenSnoc(ms: seq<Function>, fs: seq<Function>, ss: seq<Stats>, g: Function, s: Stats)
    requires |fs| < |ms| && |ss| == |fs| && forall i :: 0 <= i < |ms| ==> WellFormed(ms[i])
    requires Rewritten(ms, fs, ss, |fs|) && (g, s) == OptimizeFunction(ms[|fs|])
    ensures Rewritten(ms, fs + [g], ss + [s], |fs| + 1)
  {
    forall j | 0 <= j < |fs| + 1
      ensures ((fs + [g])[j], (ss + [s])[j]) == OptimizeFunction(ms[j])
    {
      if j < |fs| {
        assert (fs[j], ss[j]) == OptimizeFunction(ms[j]);
        assert (fs + [g])[j] == fs[j] && (ss + [s])[j] == ss[j];
      } else {
        assert (fs + [g])[j] == g && (ss + [s])[j] == s;
      }
    }
  }

  /** Rewritten functions are well formed, cleaned and tallied. */
  lemma RewrittenCleaned(ms: seq<Function>, fs: seq<Function>, ss: seq<Stats>, n: nat)
    requires n <= |ms| && n <= |fs| && n <= |ss| && forall i :: 0 <= i < |ms| ==> WellFormed(ms[i])
    requires Rewritten(ms, fs, ss, n)
    ensures forall j :: 0 <= j < n ==> WellFormed(fs[j]) && Cleaned(ms[j], fs[j]) && Tallied(ms[j], fs[j], ss[j])
  {
    forall j | 0 <= j < n
      ensures WellFormed(fs[j]) && Cleaned(ms[j], fs[j]) && Tallied(ms[j], fs[j], ss[j])
    {
      var o := OptimizeFunction(ms[j]);
      assert fs[j] == o.0 && ss[j] == o.1;
    }
  }

  /** Per-function counters that are each tallied add up to module totals
      that are tallied. */
  lemma {:induction false} SumTallied(ms: seq<Function>, fs: seq<Function>, ss: seq<Stats>, n: nat)
    requires n <= |ms| && n <= |fs| && n <= |ss|
    requires forall j :: 0 <= j < n ==> Tallied(ms[j], fs[j], ss[j])
    ensures TalliedAll(ms, fs, n, Sum(ss[..n]))
  {
    if n > 0 {
      SumTallied(ms, fs, ss, n - 1);
      assert ss[..n][..n - 1] == ss[..n - 1];
    }
  }

  lemma SumSnoc(ss: seq<Stats>, s: Stats, total: Stats)
    requires total == Sum(ss)
    ensures Sum(ss + [s]) == Stats(total.instructionsRemoved + s.instructionsRemoved, total.blocksRemoved + s.blocksRemoved)
  {
    assert (ss + [s])[..|ss|] == ss;
  }

  /** Once every function is rewritten and tallied, the module totals are. */
  lemma ModuleTallied(ms: seq<Function>, fs: seq<Function>, ss: seq<Stats>, stats: Stats)
    requires |fs| == |ss| == |ms| && stats == Sum(ss)
    requires forall j :: 0 <= j < |ms| ==> Tallied(ms[j], fs[j], ss[j])
    ensures TalliedAll(ms, fs, |ms|, stats)
  {
    SumTallied(ms, fs, ss, |ss|);
    assert ss[..|ss|] == ss;
  }

  lemma RewrittenWitness(ms: seq<Function>, fs: seq<Function>, ss: seq<Stats>, stats: Stats)
    requires |fs| == |ss| == |ms| && forall i :: 0 <= i < |ms| ==> WellFormed(ms[i])
    requires Rewritten(ms, fs, ss, |ss|) && stats == Sum(ss)
    ensures exists ss': seq<Stats> :: |ss'| == |ms| && Rewritten(ms, fs, ss', |ss'|) && stats == Sum(ss')
  {
  }

  /** `performSILDeadCodeElimination`: every function of the module in
      order, each as `OptimizeFunction` does it; the counters are summed
      over the functions. */
  method PerformDeadCodeElimination(m: Module) returns (r: Module, stats: Stats)
    requires forall i :: 0 <= i < |m.functions| ==> WellFormed(m.functions[i])
    ensures |r.functions| == |m.functions|
    ensures forall i :: 0 <= i < |m.functions| ==>
              WellFormed(r.functions[i]) && Cleaned(m.functions[i], r.functions[i])
    ensures exists ss: seq<Stats> :: |ss| == |m.functions| && Rewritten(m.functions, r.functions, ss, |ss|) && stats == Sum(ss)
    ensures TalliedAll(m.functions, r.functions, |m.functions|, stats)
  {
    var fs: seq<Function> := [];
    ghost var ss: seq<Stats> := [];
    stats := Stats(0, 0);
    var i := 0;
    while i < |m.functions|
      invariant i <= |m.functions| && |fs| == i
      invariant |ss| == i && Rewritten(m.functions, fs, ss, i) && stats == Sum(ss)
    {
      var o := OptimizeFunction(m.functions[i]);
      var g, s := o.0, o.1;
      RewrittenSnoc(m.functions, fs, ss, g, s);
      SumSnoc(ss, s, stats);
      ss := ss + [s];
      fs, stats := fs + [g], Stats(stats.instructionsRemoved + s.instructionsRemoved, stats.blocksRemoved + s.blocksRemoved);
      i := i + 1;
    }
    r := Module(fs);
    RewrittenCleaned(m.functions, fs, ss, |ss|);
    ModuleTallied(m.functions, fs, ss, stats);
    RewrittenWitness(m.functions, fs, ss, stats);
  }
}

=== FILE: fold.dfy ===
/** Folding a conditional branch on a constant condition
    (`constantFoldTerminator`). */
module ConstantFold {
  import opened IR
  import opened Cascade
  import opened Batch
  import opened Preserve

  /** The id of the literal a conditional branch tests, if it tests one. */
  predicate Foldable(f: Function, b: nat)
    requires WellFormed(f) && b < |f.blocks|
  {
    var cbi := f.arena[TerminatorOf(f, b)].value;
    && cbi.op.CondBr?
    && cbi.Condition().Def?
    && Live(f.arena, cbi.Condition().inst)
    && f.arena[cbi.Condition().inst].value.op.IntegerLiteral?
  }

  /** The unconditional branch replacing `cbi` once its condition is known
      to be `bit`. */
  function FoldedBranch(cbi: Inst, bit: Bit): (r: Inst)
    requires cbi.op.CondBr? && cbi.WellShaped()
    ensures r.IsTerminator() && r.WellShaped() && !r.sideEffects
    ensures forall c :: Transfer(r, c) == Transfer(cbi, bit)
    ensures forall l :: l in r.Dests() ==> l in cbi.Dests()
  {
    if bit == 0 then Inst(Br(cbi.op.falseDest), cbi.FalseArgs(), false)
    else assert bit == 1; Inst(Br(cbi.op.trueDest), cbi.TrueArgs(), false)
  }

  /** The new branch for a foldable block. */
  function NewBranch(f: Function, b: nat): (r: Inst)
    requires WellFormed(f) && b < |f.blocks| && Foldable(f, b)
    ensures r.IsTerminator() && r.WellShaped()
  {
    var cbi := f.arena[TerminatorOf(f, b)].value;
    FoldedBranch(cbi, f.arena[cbi.Condition().inst].value.op.bit)
  }

  /** `g` is `f` with block `b`'s conditional branch replaced by `NewBranch`
      at the arena's end, the conditional branch erased, its condition no
      longer trivially dead, and besides only disposable instructions erased
      that the erasure left without uses and that something erased read;
      nothing is newly dead. */
  ghost predicate FoldedAt(f: Function, b: nat, g: Function)
    requires WellFormed(f) && b < |f.blocks| && Foldable(f, b)
  {
    var t := TerminatorOf(f, b);
    && RewrittenAt(f, b, |f.blocks[b].body| - 1, [t], NewBranch(f, b), g)
    && !Live(g.arena, t)
    && !TriviallyDead(g.arena, f.arena[t].value.Condition().inst)
    && NoNewDead(f.arena, g.arena, [t])
    && ErasedForCause(f.arena + [Some(NewBranch(f, b))], g.arena, [t])
  }

  /** `constantFoldTerminator`: a block ending in a conditional branch on an
      integer literal gets an unconditional branch to the successor the
      literal selects, and the conditional branch is erased together with
      whatever that leaves trivially dead. Anything else is left alone. */
  function ConstantFoldTerminator(f: Function, b: nat): (r: (Function, bool))
    requires WellFormed(f) && b < |f.blocks|
    ensures !Foldable(f, b) ==> r == (f, false)
    ensures Foldable(f, b) ==> r.1 && FoldedAt(f, b, r.0)
    ensures Foldable(f, b) ==>
              forall v :: v in NewBranch(f, b).operands && v.Def? && v.inst != TerminatorOf(f, b) && Live(f.arena, v.inst) ==>
                Live(r.0.arena, v.inst)
    ensures Foldable(f, b) ==>
              var c := f.arena[TerminatorOf(f, b)].value.Condition().inst;
              !Live(r.0.arena, c) ==> forall u :: u in Users(f.arena, c) ==> !Live(r.0.arena, u)
    ensures WellFormed(r.0)
  {
    if !Foldable(f, b) then (f, false)
    else
      var t := TerminatorOf(f, b);
      var br := NewBranch(f, b);
      var f1 := AppendToBlock(f, b, br);
      AppendLive(f, b, br);
      var e := EraseAndCleanupOne(f1, t);
      FoldFacts(f, b, e.0);
      FoldKeepsArgs(f, b, e.0);
      FoldDropsLiteral(f, b, e.0);
      (e.0, true)
  }

  /** Folding is idempotent: the folded block ends in an unconditional
      branch, so a second fold of it does nothing and reports false. */
  lemma FoldIdempotent(f: Function, b: nat)
    requires WellFormed(f) && b < |f.blocks|
    ensures var g := ConstantFoldTerminator(f, b).0;
            b < |g.blocks| && WellFormed(g) && ConstantFoldTerminator(g, b) == (g, false)
  {
    if Foldable(f, b) {
      var g := ConstantFoldTerminator(f, b).0;
      FoldedNotFoldable(f, b, g);
    }
  }

  lemma FoldedNotFoldable(f: Function, b: nat, g: Function)
    requires WellFormed(f) && b < |f.blocks| && Foldable(f, b)
    requires RewrittenAt(f, b, |f.blocks[b].body| - 1, [TerminatorOf(f, b)], NewBranch(f, b), g) && WellFormed(g)
    ensures b < |g.blocks| && !Foldable(g, b)
  {
    assert TerminatorOf(g, b) == |f.arena|;
    assert g.arena[|f.arena|].value.op.Br?;
  }

  /** The new branch reads every value it passes on, so none of them is
      erased by the cleanup. */
  lemma FoldKeepsArgs(f: Function, b: nat, g: Function)
    requires WellFormed(f) && b < |f.blocks| && Foldable(f, b) && FoldedAt(f, b, g)
    ensures forall v :: v in NewBranch(f, b).operands && v.Def? && v.inst != TerminatorOf(f, b) && Live(f.arena, v.inst) ==>
              Live(g.arena, v.inst)
  {
    var n := |f.arena|;
    var f1 := f.arena + [Some(NewBranch(f, b))];
    forall v | v in NewBranch(f, b).operands && v.Def? && v.inst != TerminatorOf(f, b) && Live(f.arena, v.inst)
      ensures Live(g.arena, v.inst)
    {
      assert f1[v.inst] == f.arena[v.inst];
      if !Live(g.arena, v.inst) {
        assert Live(f1, v.inst) && v.inst !in [TerminatorOf(f, b)];
        UsedIsCounted(g.arena, n, v.inst);
      }
    }
  }

  /** The literal goes only when every instruction that read it went too:
      the conditional branch was its last live user. */
  lemma FoldDropsLiteral(f: Function, b: nat, g: Function)
    requires WellFormed(f) && b < |f.blocks| && Foldable(f, b) && FoldedAt(f, b, g)
    ensures var c := f.arena[TerminatorOf(f, b)].value.Condition().inst;
            !Live(g.arena, c) ==> forall u :: u in Users(f.arena, c) ==> !Live(g.arena, u)
  {
    var t := TerminatorOf(f, b);
    var c := f.arena[t].value.Condition().inst;
    var n := |f.arena|;
    var f1 := f.arena + [Some(NewBranch(f, b))];
    if !Live(g.arena, c) {
      assert c != t && f1[c] == f.arena[c];
      assert Live(f1, c) && c !in [t];
      forall u | u in Users(f.arena, c)
        ensures !Live(g.arena, u)
      {
        if Live(g.arena, u) {
          assert g.arena[..n][u] == f.arena[u];
          UsedIsCounted(g.arena, u, c);
        }
      }
    }
  }

  lemma FoldFacts(f: Function, b: nat, g: Function)
    requires WellFormed(f) && b < |f.blocks| && Foldable(f, b)
    requires BlocksLive(AppendToBlock(f, b, NewBranch(f, b)))
    requires g == EraseAndCleanupOne(AppendToBlock(f, b, NewBranch(f, b)), TerminatorOf(f, b)).0
    ensures FoldedAt(f, b, g) && WellFormed(g)
  {
    var body := f.blocks[b].body;
    var t := TerminatorOf(f, b);
    var cbi := f.arena[t].value;
    var br := NewBranch(f, b);
    var f1 := AppendToBlock(f, b, br);
    assert f1.arena[t] == f.arena[t];
    assert Def(cbi.Condition().inst) in cbi.operands;
    FoldShape(f, b, g);
    assert f1.arena == f.arena + [Some(br)];
    assert cbi.Dests() == BlockDests(f, b);
    RewriteKeepsWellFormed(f, b, |body| - 1, [t], br, g);
  }

  lemma FoldShape(f: Function, b: nat, g: Function)
    requires WellFormed(f) && b < |f.blocks| && Foldable(f, b)
    requires var f1 := AppendToBlock(f, b, NewBranch(f, b));
             var t := TerminatorOf(f, b);
             && !Live(g.arena, t)
             && OnlyErases(f1.arena, g.arena, [t])
             && NoNewDead(f1.arena, g.arena, [t])
             && g.blocks == Prune(f1.blocks, g.arena)
    ensures RewrittenAt(f, b, |f.blocks[b].body| - 1, [TerminatorOf(f, b)], NewBranch(f, b), g)
    ensures NoNewDead(f.arena, g.arena, [TerminatorOf(f, b)])
  {
    var body := f.blocks[b].body;
    var t := TerminatorOf(f, b);
    assert body[|body| - 1..] == [t];
    AppendThenErase(f, b, |body| - 1, [t], NewBranch(f, b), g);
    AppendNoNewDead(f, b, NewBranch(f, b), g.arena, [t]);
  }
}

=== FILE: ir.dfy ===
/** The abstract SIL-like IR the dead-code-elimination pass works on.

An instruction arena addressed by stable ids (an erased instruction leaves a
`None` slot behind), blocks as ordered id sequences, and terminators whose
opcode names their successor blocks. Use-lists are not stored: they are
derived from the operands of the live instructions, so def-use consistency
holds by construction.
*/
module IR {

  type InstId = nat
  type Label = nat

  /** A single-bit integer literal value. */
  type Bit = b: nat | b <= 1

  datatype Option<T> = None | Some(value: T)

  /** A value usable as an operand: an instruction's result or a block argument. */
  datatype Value = Def(inst: InstId) | Arg(block: Label, index: nat)

  /** `Switch` stands for every multi-way terminator (`switch_value`,
      `switch_enum`, `checked_cast_br`, ...): the pass only reads its
      successor list. `Return` leaves the function. */
  datatype Op =
    | Plain
    | IntegerLiteral(bit: Bit)
    | Apply(noReturn: bool)
    | Br(dest: Label)
    | CondBr(trueDest: Label, falseDest: Label, trueArgCount: nat)
    | Switch(dests: seq<Label>)
    | Return
    | Unreachable

  /** An instruction. For `Br` the operands are the branch arguments; for
      `CondBr` they are the condition, then the true arguments, then the
      false arguments. */
  datatype Inst = Inst(op: Op, operands: seq<Value>, sideEffects: bool)
  {
    predicate IsTerminator() {
      op.Br? || op.CondBr? || op.Switch? || op.Return? || op.Unreachable?
    }

    /** Neither a terminator nor side-effecting: removable once unused. */
    predicate Disposable() {
      !IsTerminator() && !sideEffects
    }

    predicate WellShaped() {
      op.CondBr? ==> 1 + op.trueArgCount <= |operands|
    }

    function Condition(): Value
      requires op.CondBr? && WellShaped()
    {
      operands[0]
    }

    function TrueArgs(): seq<Value>
      requires op.CondBr? && WellShaped()
    {
      operands[1..1 + op.trueArgCount]
    }

    function FalseArgs(): seq<Value>
      requires op.CondBr? && WellShaped()
    {
      operands[1 + op.trueArgCount..]
    }

    /** Successor labels named by a terminator. */
    function Dests(): seq<Label> {
      match op
      case Br(d) => [d]
      case CondBr(t, e, _) => [t, e]
      case Switch(ds) => ds
      case _ => []
    }
  }

  /** Where control goes, and with which block arguments, when terminator
      `t` runs with condition value `c` (nonzero is true); `None` for a
      terminator that leaves the function or does not return, and for a
      multi-way one, whose choice the pass never folds. */
  function Transfer(t: Inst, c: nat): Option<(Label, seq<Value>)>
    requires t.WellShaped()
  {
    match t.op
    case Br(d) => Some((d, t.operands))
    case CondBr(td, fd, _) => if c == 0 then Some((fd, t.FalseArgs())) else Some((td, t.TrueArgs()))
    case _ => None
  }

  type Arena = seq<Option<Inst>>

  datatype Block = Block(name: Label, body: seq<InstId>)

  datatype Function = Function(arena: Arena, blocks: seq<Block>)

  datatype Module = Module(functions: seq<Function>)

  predicate Live(a: Arena, id: InstId) {
    id < |a| && a[id].Some?
  }

  // ---------------------------------------------------------------------------
  // Derived use-lists
  // ---------------------------------------------------------------------------

  /** Operand slots of one arena slot that read the result of `id`. */
  function SlotUses(o: Option<Inst>, id: InstId): nat {
    if o.Some? then multiset(o.value.operands)[Def(id)] else 0
  }

  /** Length of `id`'s use-list: the live operand slots reading it. */
  function UseCount(a: Arena, id: InstId): nat {
    if |a| == 0 then 0 else UseCount(a[..|a| - 1], id) + SlotUses(a[|a| - 1], id)
  }

  /** The instructions on `id`'s use-list. */
  function Users(a: Arena, id: InstId): set<InstId> {
    set k: nat | k < |a| && a[k].Some? && Def(id) in a[k].value.operands
  }

  lemma {:induction false} UseCountZeroSlots(a: Arena, id: InstId)
    ensures UseCount(a, id) == 0 <==> forall k :: 0 <= k < |a| ==> SlotUses(a[k], id) == 0
  {
    if |a| > 0 {
      var p := a[..|a| - 1];
      UseCountZeroSlots(p, id);
      assert forall k :: 0 <= k < |p| ==> p[k] == a[k];
    }
  }

  /** The derived count and the use-list agree on emptiness. */
  lemma UseCountZeroIff(a: Arena, id: InstId)
    ensures UseCount(a, id) == 0 <==> Users(a, id) == {}
  {
    UseCountZeroSlots(a, id);
    if UseCount(a, id) != 0 {
      var k :| 0 <= k < |a| && SlotUses(a[k], id) != 0;
      assert k in Users(a, id);
    }
  }

  /** A live instruction reading `d` is counted on `d`'s use-list. */
  lemma UsedIsCounted(a: Arena, e: InstId, d: InstId)
    requires Live(a, e) && Def(d) in a[e].value.operands
    ensures UseCount(a, d) > 0
  {
    UseCountZeroSlots(a, d);
    assert SlotUses(a[e], d) > 0;
  }

  /** Replacing one arena slot moves the count by exactly the slot difference. */
  lemma {:induction false} UseCountUpdate(a: Arena, k: nat, o: Option<Inst>, id: InstId)
    requires k < |a|
    ensures UseCount(a[k := o], id) + SlotUses(a[k], id) == UseCount(a, id) + SlotUses(o, id)
  {
    var b := a[k := o];
    if k < |a| - 1 {
      assert b[..|b| - 1] == a[..|a| - 1][k := o];
      UseCountUpdate(a[..|a| - 1], k, o, id);
    } else {
      assert b[..|b| - 1] == a[..|a| - 1];
    }
  }

  lemma UseCountAppend(a: Arena, o: Option<Inst>, id: InstId)
    ensures UseCount(a + [o], id) == UseCount(a, id) + SlotUses(o, id)
  {
    assert (a + [o])[..|a|] == a;
  }

  /** Number of live instructions in the arena. */
  function LiveCount(a: Arena): nat {
    if |a| == 0 then 0 else LiveCount(a[..|a| - 1]) + (if a[|a| - 1].Some? then 1 else 0)
  }

  lemma {:induction false} LiveCountErase(a: Arena, k: nat, o: Option<Inst>)
    requires k < |a|
    ensures LiveCount(a[k := o]) + (if a[k].Some? then 1 else 0) == LiveCount(a) + (if o.Some? then 1 else 0)
  {
    var b := a[k := o];
    if k < |a| - 1 {
      assert b[..|b| - 1] == a[..|a| - 1][k := o];
      LiveCountErase(a[..|a| - 1], k, o);
    } else {
      assert b[..|b| - 1] == a[..|a| - 1];
    }
  }

  /** The def-use graph is acyclic: `rank` numbers the instructions so that
      every live instruction reads only instructions of lower rank. SSA
      dominance gives such a numbering for every SIL function, since block
      arguments, not instruction results, carry values around loops. */
  ghost predicate RankedBy(a: Arena, rank: InstId -> nat) {
    forall e: InstId, k: InstId :: Live(a, e) && Def(k) in a[e].value.operands ==> rank(k) < rank(e)
  }

  // ---------------------------------------------------------------------------
  // Trivial deadness
  // ---------------------------------------------------------------------------

  /** Live, not a terminator, no side effects and an empty use-list. An
      absent or erased id is never trivially dead. */
  predicate TriviallyDead(a: Arena, id: InstId) {
    Live(a, id) && a[id].value.Disposable() && UseCount(a, id) == 0
  }

  // ---------------------------------------------------------------------------
  // Blocks
  // ---------------------------------------------------------------------------

  /** The ids of `s` still live in `a`, in their original order. */
  function Keep(s: seq<InstId>, a: Arena): (r: seq<InstId>)
    ensures |r| <= |s|
    ensures forall x :: x in r <==> x in s && Live(a, x)
  {
    if |s| == 0 then []
    else Keep(s[..|s| - 1], a) + (if Live(a, s[|s| - 1]) then [s[|s| - 1]] else [])
  }

  /** Every block with its erased instructions removed. */
  function Prune(bs: seq<Block>, a: Arena): (r: seq<Block>)
    ensures |r| == |bs|
    ensures forall i :: 0 <= i < |bs| ==> r[i].name == bs[i].name && r[i].body == Keep(bs[i].body, a)
  {
    seq(|bs|, i requires 0 <= i < |bs| => Block(bs[i].name, Keep(bs[i].body, a)))
  }

  /** `s` with every occurrence of `x` removed. */
  function Without(s: seq<InstId>, x: InstId): (r: seq<InstId>)
    ensures forall y :: y in r <==> y in s && y != x
  {
    if |s| == 0 then []
    else Without(s[..|s| - 1], x) + (if s[|s| - 1] != x then [s[|s| - 1]] else [])
  }

  predicate Distinct(s: seq<InstId>) {
    forall j, k :: 0 <= j < k < |s| ==> s[j] != s[k]
  }

  predicate BlocksLive(f: Function) {
    forall i, j :: 0 <= i < |f.blocks| && 0 <= j < |f.blocks[i].body| ==> Live(f.arena, f.blocks[i].body[j])
  }

  /** Detach `id` from its block and drop it from the arena
      (`eraseFromParent`). */
  function Erase(f: Function, id: InstId): (g: Function)
    ensures |g.arena| == |f.arena| && !Live(g.arena, id)
    ensures forall k :: 0 <= k < |f.arena| && k != id ==> g.arena[k] == f.arena[k]
    ensures |g.blocks| == |f.blocks|
    ensures forall i :: 0 <= i < |f.blocks| ==> g.blocks[i].name == f.blocks[i].name && id !in g.blocks[i].body
  {
    var blocks := seq(|f.blocks|, i requires 0 <= i < |f.blocks| => Block(f.blocks[i].name, Without(f.blocks[i].body, id)));
    Function(if id < |f.arena| then f.arena[id := None] else f.arena, blocks)
  }

  /** Insert `inst` at the end of block `b`, as the builder does. */
  function AppendToBlock(f: Function, b: nat, inst: Inst): (g: Function)
    requires b < |f.blocks|
    ensures |g.arena| == |f.arena| + 1 && g.arena[..|f.arena|] == f.arena && g.arena[|f.arena|] == Some(inst)
    ensures |g.blocks| == |f.blocks|
    ensures g.blocks[b] == Block(f.blocks[b].name, f.blocks[b].body + [|f.arena|])
    ensures forall i :: 0 <= i < |f.blocks| && i != b ==> g.blocks[i] == f.blocks[i]
  {
    Function(f.arena + [Some(inst)], f.blocks[b := Block(f.blocks[b].name, f.blocks[b].body + [|f.arena|])])
  }

  lemma {:induction false} KeepDistinct(s: seq<InstId>, a: Arena)
    requires Distinct(s)
    ensures Distinct(Keep(s, a))
  {
    if |s| > 0 {
      KeepDistinct(s[..|s| - 1], a);
      assert s[|s| - 1] !in s[..|s| - 1];
    }
  }

  lemma {:induction false} KeepAll(s: seq<InstId>, a: Arena)
    requires forall x :: x in s ==> Live(a, x)
    ensures Keep(s, a) == s
  {
    if |s| > 0 {
      var p, x := s[..|s| - 1], s[|s| - 1];
      assert x in s;
      forall y | y in p
        ensures Live(a, y)
      {
        assert y in s;
      }
      KeepAll(p, a);
      calc {
        Keep(s, a);
        Keep(p, a) + [x];
        p + [x];
        s;
      }
    }
  }

  lemma {:induction false} KeepTwice(s: seq<InstId>, a1: Arena, a2: Arena)
    requires forall x :: Live(a2, x) ==> Live(a1, x)
    ensures Keep(Keep(s, a1), a2) == Keep(s, a2)
  {
    if |s| > 0 {
      var p := s[..|s| - 1];
      KeepTwice(p, a1, a2);
      var x := s[|s| - 1];
      if Live(a1, x) {
        var k1 := Keep(s, a1);
        assert k1 == Keep(p, a1) + [x];
        assert k1[..|k1| - 1] == Keep(p, a1) && k1[|k1| - 1] == x;
        assert Keep(k1, a2) == Keep(Keep(p, a1), a2) + (if Live(a2, x) then [x] else []);
      } else {
        assert Keep(s, a1) == Keep(p, a1);
        assert Keep(s, a2) == Keep(p, a2);
      }
    }
  }

  lemma {:induction false} KeepSame(s: seq<InstId>, a1: Arena, a2: Arena)
    requires forall x :: x in s ==> (Live(a1, x) <==> Live(a2, x))
    ensures Keep(s, a1) == Keep(s, a2)
  {
    if |s| > 0 {
      KeepSame(s[..|s| - 1], a1, a2);
    }
  }

  lemma {:induction false} WithoutIsKeep(s: seq<InstId>, a: Arena, x: InstId)
    requires forall y :: y in s ==> Live(a, y)
    ensures Without(s, x) == Keep(s, if x < |a| then a[x := None] else a)
  {
    if |s| > 0 {
      var a' := if x < |a| then a[x := None] else a;
      var y := s[|s| - 1];
      assert Live(a, y);
      assert Live(a', y) <==> y != x;
      WithoutIsKeep(s[..|s| - 1], a, x);
    }
  }

  lemma {:induction false} KeepAppend(s: seq<InstId>, t: seq<InstId>, a: Arena)
    ensures Keep(s + t, a) == Keep(s, a) + Keep(t, a)
    decreases |t|
  {
    if |t| == 0 {
      assert s + t == s;
    } else {
      var x := t[|t| - 1];
      var tail := if Live(a, x) then [x] else [];
      assert (s + t)[..|s + t| - 1] == s + t[..|t| - 1] && (s + t)[|s + t| - 1] == x;
      KeepAppend(s, t[..|t| - 1], a);
      assert Keep(s + t, a) == Keep(s + t[..|t| - 1], a) + tail;
      assert Keep(t, a) == Keep(t[..|t| - 1], a) + tail;
    }
  }

  lemma PruneLive(f: Function)
    requires BlocksLive(f)
    ensures Prune(f.blocks, f.arena) == f.blocks
  {
    forall i | 0 <= i < |f.blocks|
      ensures Keep(f.blocks[i].body, f.arena) == f.blocks[i].body
    {
      KeepAll(f.blocks[i].body, f.arena);
    }
  }

  lemma PruneTwice(bs: seq<Block>, a1: Arena, a2: Arena)
    requires forall x :: Live(a2, x) ==> Live(a1, x)
    ensures Prune(Prune(bs, a1), a2) == Prune(bs, a2)
  {
    forall i | 0 <= i < |bs|
      ensures Keep(Keep(bs[i].body, a1), a2) == Keep(bs[i].body, a2)
    {
      KeepTwice(bs[i].body, a1, a2);
    }
  }

  lemma PruneIsLive(bs: seq<Block>, a: Arena)
    ensures BlocksLive(Function(a, Prune(bs, a)))
  {
  }

  /** Erasing a block member is pruning the blocks against the new arena. */
  lemma EraseIsPrune(f: Function, id: InstId)
    requires BlocksLive(f)
    ensures Erase(f, id).blocks == Prune(f.blocks, Erase(f, id).arena)
    ensures BlocksLive(Erase(f, id))
  {
    var g := Erase(f, id);
    forall i | 0 <= i < |f.blocks|
      ensures g.blocks[i] == Prune(f.blocks, g.arena)[i]
    {
      assert forall y :: y in f.blocks[i].body ==> Live(f.arena, y);
      WithoutIsKeep(f.blocks[i].body, f.arena, id);
    }
  }

  // ---------------------------------------------------------------------------
  // Well-formedness
  // ---------------------------------------------------------------------------

  /** A block body of live instructions whose last one is its only terminator. */
  predicate WellTerminated(a: Arena, body: seq<InstId>) {
    && |body| > 0
    && (forall j :: 0 <= j < |body| ==> Live(a, body[j]))
    && a[body[|body| - 1]].value.IsTerminator()
    && (forall j :: 0 <= j < |body| - 1 ==> !a[body[j]].value.IsTerminator())
  }

  /** No instruction id is placed twice, within a block or across blocks. */
  predicate DistinctPlacement(bs: seq<Block>) {
    && (forall i :: 0 <= i < |bs| ==> Distinct(bs[i].body))
    && (forall i, j, x :: 0 <= i < |bs| && 0 <= j < |bs| && i != j && x in bs[i].body ==> x !in bs[j].body)
  }

  predicate DistinctLabels(bs: seq<Block>) {
    forall i, j :: 0 <= i < j < |bs| ==> bs[i].name != bs[j].name
  }

  function Labels(bs: seq<Block>): set<Label> {
    set i | 0 <= i < |bs| :: bs[i].name
  }

  /** The terminator of a well-terminated block. */
  function TerminatorOf(f: Function, i: nat): InstId
    requires i < |f.blocks| && |f.blocks[i].body| > 0
  {
    f.blocks[i].body[|f.blocks[i].body| - 1]
  }

  /** Successor labels of block `i`, read off its last instruction. */
  function BlockDests(f: Function, i: nat): seq<Label>
    requires i < |f.blocks|
  {
    var body := f.blocks[i].body;
    if |body| > 0 && Live(f.arena, body[|body| - 1]) then f.arena[body[|body| - 1]].value.Dests() else []
  }

  predicate SuccessorsPresent(f: Function) {
    forall i, l :: 0 <= i < |f.blocks| && l in BlockDests(f, i) ==> l in Labels(f.blocks)
  }

  predicate ShapesOk(a: Arena) {
    forall k :: 0 <= k < |a| && a[k].Some? ==> a[k].value.WellShaped()
  }

  /** The structural invariant every rewrite of the pass keeps. */
  predicate WellFormed(f: Function) {
    && BlocksLive(f)
    && DistinctPlacement(f.blocks)
    && (forall i :: 0 <= i < |f.blocks| ==> WellTerminated(f.arena, f.blocks[i].body))
    && DistinctLabels(f.blocks)
    && SuccessorsPresent(f)
    && ShapesOk(f.arena)
  }
}

=== FILE: noreturn.dfy ===
/** Cutting a block short after a call that does not return
    (`simplifyBlocksWithCallsToNoReturn`). */
module NoReturn {
  import opened IR
  import opened Cascade
  import opened Batch
  import opened Preserve

  /** A live call whose callee is known not to return. */
  predicate IsNoReturnCall(a: Arena, x: InstId) {
    Live(a, x) && a[x].value.op.Apply? && a[x].value.op.noReturn
  }

  /** Position of the first no-return call in `body`, scanning from the front. */
  function FirstNoReturnCall(a: Arena, body: seq<InstId>): (r: Option<nat>)
    ensures r.None? <==> forall j :: 0 <= j < |body| ==> !IsNoReturnCall(a, body[j])
    ensures r.Some? ==> r.value < |body| && IsNoReturnCall(a, body[r.value])
    ensures r.Some? ==> forall j :: 0 <= j < r.value ==> !IsNoReturnCall(a, body[j])
  {
    if |body| == 0 then None
    else if IsNoReturnCall(a, body[0]) then Some(0)
    else
      match FirstNoReturnCall(a, body[1..])
      case None => None
      case Some(k) => Some(k + 1)
  }

  /** `g` is `f` with block `b` cut right after its first no-return call at
      `k`: the prefix up to and including the call stays in order (less
      what the cleanup removed), the tail is erased, one `unreachable` at
      the arena's end closes the block, and nothing is newly dead. */
  ghost predicate TruncatedAt(f: Function, b: nat, k: nat, g: Function)
    requires b < |f.blocks| && k < |f.blocks[b].body|
  {
    && CutShape(f, b, k, g)
    && ErasedForCause(f.arena + [Some(Inst(Unreachable, [], false))], g.arena, f.blocks[b].body[k + 1..])
  }

  /** The shape of the cut, without the reason for each erasure. */
  ghost predicate CutShape(f: Function, b: nat, k: nat, g: Function)
    requires b < |f.blocks| && k < |f.blocks[b].body|
  {
    var tail := f.blocks[b].body[k + 1..];
    && RewrittenAt(f, b, k + 1, tail, Inst(Unreachable, [], false), g)
    && (forall x :: x in tail ==> !Live(g.arena, x))
    && NoNewDead(f.arena, g.arena, tail)
  }

  /** `simplifyBlocksWithCallsToNoReturn`: everything after the first
      no-return call of block `b` is deleted and replaced by `unreachable`;
      the count is the number of instructions after the call. */
  function SimplifyBlocksWithCallsToNoReturn(f: Function, b: nat): (r: (Function, bool, nat))
    requires WellFormed(f) && b < |f.blocks|
    ensures var k := FirstNoReturnCall(f.arena, f.blocks[b].body);
            && (k.None? ==> r == (f, false, 0))
            && (k.Some? ==> r.1 && k.value + 1 < |f.blocks[b].body|
                            && r.2 == |f.blocks[b].body| - (k.value + 1) && r.2 >= 1
                            && TruncatedAt(f, b, k.value, r.0))
    ensures WellFormed(r.0)
  {
    var body := f.blocks[b].body;
    var k := FirstNoReturnCall(f.arena, body);
    if k.None? then (f, false, 0)
    else
      TailFollowsCall(f, b, k.value);
      var g := Truncate(f, b, k.value);
      var r := (g, true, |body| - (k.value + 1));
      assert r.0 == g && r.1 && r.2 >= 1;
      r
  }

  /** Delete everything after position `k` of block `b`, then close the
      block with `unreachable`. */
  function Truncate(f: Function, b: nat, k: nat): (g: Function)
    requires WellFormed(f) && b < |f.blocks| && k + 1 < |f.blocks[b].body|
    ensures TruncatedAt(f, b, k, g) && WellFormed(g)
  {
    var e := EraseAndCleanup(f, f.blocks[b].body[k + 1..]);
    TruncateFacts(f, b, k, e.0);
    AppendToBlock(e.0, b, Inst(Unreachable, [], false))
  }

  /** The call is not the block's terminator, so something follows it. */
  lemma TailFollowsCall(f: Function, b: nat, k: nat)
    requires WellFormed(f) && b < |f.blocks| && k < |f.blocks[b].body|
    requires IsNoReturnCall(f.arena, f.blocks[b].body[k])
    ensures k + 1 < |f.blocks[b].body|
  {
    assert WellTerminated(f.arena, f.blocks[b].body);
  }

  /** The cut is not a fixed point: on a block already closed by
      `unreachable` right after a side-effecting no-return call, a second
      run finds the same call again, deletes the `unreachable` it added
      and counts exactly one more instruction. */
  lemma TruncationRefires(f: Function, b: nat)
    requires WellFormed(f) && b < |f.blocks|
    requires var k := FirstNoReturnCall(f.arena, f.blocks[b].body);
             k.Some? && f.arena[f.blocks[b].body[k.value]].value.sideEffects
    ensures var g := SimplifyBlocksWithCallsToNoReturn(f, b).0;
            var r := SimplifyBlocksWithCallsToNoReturn(g, b);
            r.1 && r.2 == 1
  {
    var k := FirstNoReturnCall(f.arena, f.blocks[b].body).value;
    var g := SimplifyBlocksWithCallsToNoReturn(f, b).0;
    CallSurvivesCut(f, b, k, g);
  }

  /** After the cut the surviving call is the first no-return call of the
      block and only the new `unreachable` follows it. */
  lemma CallSurvivesCut(f: Function, b: nat, k: nat, g: Function)
    requires WellFormed(f) && b < |f.blocks| && k + 1 < |f.blocks[b].body|
    requires IsNoReturnCall(f.arena, f.blocks[b].body[k])
    requires f.arena[f.blocks[b].body[k]].value.sideEffects
    requires forall j :: 0 <= j < k ==> !IsNoReturnCall(f.arena, f.blocks[b].body[j])
    requires CutShape(f, b, k, g)
    ensures |g.blocks[b].body| >= 2
    ensures FirstNoReturnCall(g.arena, g.blocks[b].body) == Some(|g.blocks[b].body| - 2)
  {
    var body := f.blocks[b].body;
    var p := Keep(body[..k], g.arena);
    var nb := g.blocks[b].body;
    CutKeepsCall(f, b, k, g);
    forall j | 0 <= j < |p|
      ensures !IsNoReturnCall(g.arena, nb[j])
    {
      assert nb[j] == p[j];
      SurvivorUnchanged(f, b, k, g, p[j]);
    }
    assert IsNoReturnCall(g.arena, nb[|p|]);
    var k2 := FirstNoReturnCall(g.arena, nb);
    assert k2.value == |p|;
  }

  /** The side-effecting call is not in the erased tail and cannot be
      swept by the cleanup, so the cut block ends in the call and the new
      `unreachable`. */
  lemma CutKeepsCall(f: Function, b: nat, k: nat, g: Function)
    requires WellFormed(f) && b < |f.blocks| && k + 1 < |f.blocks[b].body|
    requires IsNoReturnCall(f.arena, f.blocks[b].body[k])
    requires f.arena[f.blocks[b].body[k]].value.sideEffects
    requires CutShape(f, b, k, g)
    ensures g.arena[f.blocks[b].body[k]] == f.arena[f.blocks[b].body[k]]
    ensures g.blocks[b].body
            == Keep(f.blocks[b].body[..k], g.arena) + [f.blocks[b].body[k], |f.arena|]
  {
    var body := f.blocks[b].body;
    var c := body[k];
    assert Distinct(body);
    assert c !in body[k + 1..];
    KeptSurvives(f.arena, g.arena, body[k + 1..], c);
    KeepThrough(body, k, g.arena);
  }

  lemma KeepThrough(body: seq<InstId>, k: nat, a: Arena)
    requires k < |body| && Live(a, body[k])
    ensures Keep(body[..k + 1], a) == Keep(body[..k], a) + [body[k]]
  {
    assert body[..k + 1] == body[..k] + [body[k]];
    KeepSnoc(body[..k], a, body[k]);
  }

  /** An instruction with side effects outside the erased tail survives. */
  lemma KeptSurvives(a: Arena, g: Arena, tail: seq<InstId>, c: InstId)
    requires Live(a, c) && a[c].value.sideEffects && c !in tail
    requires |g| == |a| + 1 && OnlyErases(a, g[..|a|], tail)
    ensures g[c] == a[c]
  {
    assert g[..|a|][c] == g[c];
  }

  /** An instruction of the kept prefix is unchanged by the cut, so it is
      still not a no-return call. */
  lemma SurvivorUnchanged(f: Function, b: nat, k: nat, g: Function, x: InstId)
    requires WellFormed(f) && b < |f.blocks| && k + 1 < |f.blocks[b].body|
    requires forall j :: 0 <= j < k ==> !IsNoReturnCall(f.arena, f.blocks[b].body[j])
    requires CutShape(f, b, k, g)
    requires x in Keep(f.blocks[b].body[..k], g.arena)
    ensures !IsNoReturnCall(g.arena, x)
  {
    var body := f.blocks[b].body;
    var n := |f.arena|;
    assert x in body[..k] && Live(g.arena, x);
    var j0 :| 0 <= j0 < k && body[j0] == x;
    assert Live(f.arena, x);
    assert g.arena[..n][x] == g.arena[x];
  }

  lemma TruncateFacts(f: Function, b: nat, k: nat, e: Function)
    requires WellFormed(f) && b < |f.blocks| && k + 1 < |f.blocks[b].body|
    requires var tail := f.blocks[b].body[k + 1..];
             && (forall s :: s in tail ==> !Live(e.arena, s))
             && OnlyErases(f.arena, e.arena, tail)
             && NoNewDead(f.arena, e.arena, tail)
             && ErasedForCause(f.arena, e.arena, tail)
             && e.blocks == Prune(f.blocks, e.arena)
    ensures TruncatedAt(f, b, k, AppendToBlock(e, b, Inst(Unreachable, [], false)))
    ensures WellFormed(AppendToBlock(e, b, Inst(Unreachable, [], false)))
  {
    var u := Inst(Unreachable, [], false);
    var tail := f.blocks[b].body[k + 1..];
    var g := AppendToBlock(e, b, u);
    EraseThenAppend(f, b, k + 1, tail, e, u);
    AppendAfterNoNewDead(f.arena, e, b, u, tail);
    AppendForCause(f.arena, e.arena, tail, Some(u));
    assert g.arena == e.arena + [Some(u)];
    forall x | x in tail
      ensures !Live(g.arena, x)
    {
      assert x in f.blocks[b].body;
      assert g.arena[x] == e.arena[x];
    }
    RewriteKeepsWellFormed(f, b, k + 1, tail, u, g);
  }
}

=== FILE: preserve.dfy ===
/** Why the block-level rewrites of the pass keep a function well formed:
    whatever the batch deleter leaves in a block is still live and
    unchanged, and a terminator is never among the instructions it removes
    on its own account. */
module Preserve {
  import opened IR
  import opened Cascade

  /** `x` was live in `a`, and in `g` it is either untouched or was
      removable on its own account. */
  predicate Settled(a: Arena, g: Arena, x: InstId) {
    && Live(a, x)
    && (Live(g, x) ==> g[x] == a[x])
    && (!Live(g, x) ==> a[x].value.Disposable())
  }

  /** Non-terminators followed by one terminator stay well terminated after pruning. */
  lemma {:induction false} KeptPrefix(a: Arena, g: Arena, pre: seq<InstId>, u: InstId)
    requires forall x :: x in pre ==> Settled(a, g, x) && !a[x].value.IsTerminator()
    requires Live(g, u) && g[u].value.IsTerminator()
    ensures WellTerminated(g, Keep(pre, g) + [u])
  {
    var body := Keep(pre, g) + [u];
    forall j | 0 <= j < |body| - 1
      ensures Live(g, body[j]) && !g[body[j]].value.IsTerminator()
    {
      assert body[j] in Keep(pre, g);
    }
  }

  /** A well-terminated block none of whose members was doomed keeps its
      terminator and stays well terminated. */
  lemma KeptBlock(a: Arena, g: Arena, body: seq<InstId>)
    requires WellTerminated(a, body)
    requires forall x :: x in body ==> Settled(a, g, x)
    ensures |Keep(body, g)| > 0 && Keep(body, g)[|Keep(body, g)| - 1] == body[|body| - 1]
    ensures WellTerminated(g, Keep(body, g))
  {
    var n := |body| - 1;
    var pre := body[..n];
    var t := body[n];
    assert body == pre + [t];
    assert t in body;
    assert Live(g, t);
    KeepAppend(pre, [t], g);
    assert Keep([t], g) == Keep([], g) + [t];
    forall x | x in pre
      ensures Settled(a, g, x) && !a[x].value.IsTerminator()
    {
      var j :| 0 <= j < n && pre[j] == x;
      assert body[j] == x;
    }
    KeptPrefix(a, g, pre, t);
  }

  /** An id of `f`'s arena that was not doomed is settled in `g`. */
  lemma SettledOutside(f: Function, g: Function, doomed: seq<InstId>, x: InstId)
    requires |g.arena| >= |f.arena| && OnlyErases(f.arena, g.arena[..|f.arena|], doomed)
    requires Live(f.arena, x) && x !in doomed
    ensures Settled(f.arena, g.arena, x)
  {
    assert g.arena[..|f.arena|][x] == g.arena[x];
  }

  lemma DistinctSnoc(s: seq<InstId>, x: InstId)
    requires Distinct(s) && x !in s
    ensures Distinct(s + [x])
  {
    var t := s + [x];
    forall j, k | 0 <= j < k < |t|
      ensures t[j] != t[k]
    {
      if k == |s| {
        assert t[j] in s;
      }
    }
  }

  /** Labels and names survive when only bodies change. */
  lemma SameLabels(bs: seq<Block>, cs: seq<Block>)
    requires |bs| == |cs| && forall i :: 0 <= i < |bs| ==> bs[i].name == cs[i].name
    ensures Labels(bs) == Labels(cs)
    ensures DistinctLabels(bs) <==> DistinctLabels(cs)
  {
    forall l | l in Labels(bs)
      ensures l in Labels(cs)
    {
      var i :| 0 <= i < |bs| && bs[i].name == l;
      assert cs[i].name == l;
    }
    forall l | l in Labels(cs)
      ensures l in Labels(bs)
    {
      var i :| 0 <= i < |cs| && cs[i].name == l;
      assert bs[i].name == l;
    }
  }

  /** The shape a block rewrite leaves: block `b` cut after position `k`
      and closed by a new terminator `inst` at the arena's end; every other
      block pruned; only the cut-off tail (`doomed`) and disposable
      instructions erased. */
  predicate RewrittenAt(f: Function, b: nat, k: nat, doomed: seq<InstId>, inst: Inst, g: Function)
    requires b < |f.blocks| && k <= |f.blocks[b].body|
  {
    && (forall x :: x in doomed ==> x in f.blocks[b].body[k..])
    && |g.arena| == |f.arena| + 1 && g.arena[|f.arena|] == Some(inst)
    && OnlyErases(f.arena, g.arena[..|f.arena|], doomed)
    && |g.blocks| == |f.blocks|
    && (forall i :: 0 <= i < |f.blocks| && i != b ==> g.blocks[i] == Block(f.blocks[i].name, Keep(f.blocks[i].body, g.arena)))
    && g.blocks[b] == Block(f.blocks[b].name, Keep(f.blocks[b].body[..k], g.arena) + [|f.arena|])
  }

  lemma RewriteKeepsPlacement(f: Function, b: nat, k: nat, doomed: seq<InstId>, inst: Inst, g: Function)
    requires WellFormed(f) && b < |f.blocks| && k < |f.blocks[b].body|
    requires RewrittenAt(f, b, k, doomed, inst, g)
    ensures DistinctPlacement(g.blocks)
  {
    var n := |f.arena|;
    var pre := f.blocks[b].body[..k];
    forall i | 0 <= i < |g.blocks|
      ensures Distinct(g.blocks[i].body)
      ensures forall x :: x in g.blocks[i].body ==> x in f.blocks[i].body || (i == b && x == n)
    {
      if i == b {
        assert Distinct(pre);
        KeepDistinct(pre, g.arena);
        forall x | x in Keep(pre, g.arena)
          ensures x != n
        {
          assert x in f.blocks[b].body;
        }
        DistinctSnoc(Keep(pre, g.arena), n);
      } else {
        KeepDistinct(f.blocks[i].body, g.arena);
      }
    }
    forall i, j, x | 0 <= i < |g.blocks| && 0 <= j < |g.blocks| && i != j && x in g.blocks[i].body
      ensures x !in g.blocks[j].body
    {
      if x == n {
        assert forall y :: y in f.blocks[i].body ==> Live(f.arena, y);
      } else {
        assert x in f.blocks[i].body;
      }
    }
  }

  /** The cut block: the kept prefix, closed by the new terminator. */
  lemma CutBlockTerminated(f: Function, b: nat, k: nat, doomed: seq<InstId>, inst: Inst, g: Function)
    requires WellFormed(f) && b < |f.blocks| && k < |f.blocks[b].body|
    requires inst.IsTerminator()
    requires RewrittenAt(f, b, k, doomed, inst, g)
    ensures WellTerminated(g.arena, g.blocks[b].body)
  {
    var body := f.blocks[b].body;
    var pre := body[..k];
    forall x | x in pre
      ensures Settled(f.arena, g.arena, x) && !f.arena[x].value.IsTerminator()
    {
      var j :| 0 <= j < k && pre[j] == x;
      assert body[j] == x;
      assert x !in doomed;
      SettledOutside(f, g, doomed, x);
    }
    KeptPrefix(f.arena, g.arena, pre, |f.arena|);
  }

  /** Any other block: pruned, with its terminator and successors intact. */
  lemma OtherBlockTerminated(f: Function, b: nat, k: nat, doomed: seq<InstId>, inst: Inst, g: Function, i: nat)
    requires WellFormed(f) && b < |f.blocks| && k < |f.blocks[b].body|
    requires RewrittenAt(f, b, k, doomed, inst, g)
    requires i < |f.blocks| && i != b
    ensures WellTerminated(g.arena, g.blocks[i].body)
    ensures BlockDests(g, i) == BlockDests(f, i)
  {
    var body := f.blocks[i].body;
    forall x | x in body
      ensures Settled(f.arena, g.arena, x)
    {
      assert x !in f.blocks[b].body;
      SettledOutside(f, g, doomed, x);
    }
    KeptBlock(f.arena, g.arena, body);
    assert Settled(f.arena, g.arena, body[|body| - 1]);
  }

  /** A block rewrite of the pass's shape keeps the function well formed. */
  lemma RewriteKeepsWellFormed(f: Function, b: nat, k: nat, doomed: seq<InstId>, inst: Inst, g: Function)
    requires WellFormed(f) && b < |f.blocks| && k < |f.blocks[b].body|
    requires inst.IsTerminator() && inst.WellShaped()
    requires forall l :: l in inst.Dests() ==> l in Labels(f.blocks)
    requires RewrittenAt(f, b, k, doomed, inst, g)
    ensures WellFormed(g)
  {
    var n := |f.arena|;
    RewriteKeepsPlacement(f, b, k, doomed, inst, g);
    CutBlockTerminated(f, b, k, doomed, inst, g);
    forall i | 0 <= i < |g.blocks| && i != b
      ensures WellTerminated(g.arena, g.blocks[i].body) && BlockDests(g, i) == BlockDests(f, i)
    {
      OtherBlockTerminated(f, b, k, doomed, inst, g, i);
    }
    SameLabels(f.blocks, g.blocks);
    forall x | 0 <= x < |g.arena| && g.arena[x].Some?
      ensures g.arena[x].value.WellShaped()
    {
      if x < n {
        assert g.arena[..n][x] == g.arena[x];
      }
    }
    forall i, l | 0 <= i < |g.blocks| && l in BlockDests(g, i)
      ensures l in Labels(g.blocks)
    {
      if i == b {
        assert BlockDests(g, i) == inst.Dests();
      }
    }
  }

  lemma KeepNone(s: seq<InstId>, a: Arena)
    requires forall x :: x in s ==> !Live(a, x)
    ensures Keep(s, a) == []
  {
  }

  /** Keeping `body` whose tail `body[k..]` is erased keeps only from `body[..k]`. */
  lemma KeepCut(body: seq<InstId>, k: nat, a: Arena)
    requires k <= |body|
    requires forall x :: x in body[k..] ==> !Live(a, x)
    ensures Keep(body, a) == Keep(body[..k], a)
  {
    assert body == body[..k] + body[k..];
    KeepAppend(body[..k], body[k..], a);
    KeepNone(body[k..], a);
  }

  lemma KeepSnoc(s: seq<InstId>, a: Arena, n: InstId)
    requires Live(a, n)
    ensures Keep(s + [n], a) == Keep(s, a) + [n]
  {
    KeepAppend(s, [n], a);
    assert Keep([n], a) == Keep([], a) + [n];
  }

  /** Fold's order: the new terminator is appended first, then the batch
      deleter runs on the extended function. */
  lemma AppendThenErase(f: Function, b: nat, k: nat, doomed: seq<InstId>, inst: Inst, g: Function)
    requires BlocksLive(f) && b < |f.blocks| && k <= |f.blocks[b].body|
    requires inst.IsTerminator()
    requires forall x :: x in doomed ==> x in f.blocks[b].body[k..]
    requires forall x :: x in f.blocks[b].body[k..] ==> !Live(g.arena, x)
    requires OnlyErases(AppendToBlock(f, b, inst).arena, g.arena, doomed)
    requires g.blocks == Prune(AppendToBlock(f, b, inst).blocks, g.arena)
    ensures RewrittenAt(f, b, k, doomed, inst, g)
  {
    var f1 := AppendToBlock(f, b, inst);
    var n := |f.arena|;
    var body := f.blocks[b].body;
    assert n !in doomed;
    assert g.arena[n] == Some(inst);
    forall x | 0 <= x < n
      ensures g.arena[..n][x] == g.arena[x] && f1.arena[x] == f.arena[x]
    {
    }
    KeepCut(body, k, g.arena);
    KeepSnoc(body, g.arena, n);
  }

  /** Truncation's order: the batch deleter runs first, then the new
      terminator is appended. */
  lemma EraseThenAppend(f: Function, b: nat, k: nat, doomed: seq<InstId>, g0: Function, inst: Inst)
    requires BlocksLive(f) && b < |f.blocks| && k <= |f.blocks[b].body|
    requires forall x :: x in doomed ==> x in f.blocks[b].body[k..]
    requires forall x :: x in f.blocks[b].body[k..] ==> !Live(g0.arena, x)
    requires OnlyErases(f.arena, g0.arena, doomed)
    requires g0.blocks == Prune(f.blocks, g0.arena)
    ensures RewrittenAt(f, b, k, doomed, inst, AppendToBlock(g0, b, inst))
  {
    var g := AppendToBlock(g0, b, inst);
    var n := |f.arena|;
    forall i | 0 <= i < |f.blocks|
      ensures Keep(f.blocks[i].body, g0.arena) == Keep(f.blocks[i].body, g.arena)
    {
      forall x | x in f.blocks[i].body
        ensures Live(g0.arena, x) <==> Live(g.arena, x)
      {
        assert Live(f.arena, x);
        assert g.arena[x] == g0.arena[x];
      }
      KeepSame(f.blocks[i].body, g0.arena, g.arena);
    }
    var body := f.blocks[b].body;
    KeepCut(body, k, g0.arena);
    forall x | x in body[..k]
      ensures Live(g0.arena, x) <==> Live(g.arena, x)
    {
      assert x in body;
      assert g.arena[x] == g0.arena[x];
    }
    KeepSame(body[..k], g0.arena, g.arena);
  }

  /** Appending a terminator adds uses and nothing disposable, so it makes
      nothing trivially dead. */
  lemma AppendNoNewDead(f: Function, b: nat, inst: Inst, g: Arena, seeds: seq<InstId>)
    requires b < |f.blocks| && inst.IsTerminator()
    requires NoNewDead(AppendToBlock(f, b, inst).arena, g, seeds)
    ensures NoNewDead(f.arena, g, seeds)
  {
    var a1 := AppendToBlock(f, b, inst).arena;
    assert a1 == f.arena + [Some(inst)];
    forall y: nat | TriviallyDead(g, y)
      ensures TriviallyDead(f.arena, y)
    {
      assert TriviallyDead(a1, y);
      UseCountAppend(f.arena, Some(inst), y);
      assert y != |f.arena|;
      assert a1[y] == f.arena[y];
    }
  }

  /** Appending a new instruction to a block keeps every placed id live. */
  lemma AppendLive(f: Function, b: nat, inst: Inst)
    requires BlocksLive(f) && b < |f.blocks|
    ensures BlocksLive(AppendToBlock(f, b, inst))
  {
    var f1 := AppendToBlock(f, b, inst);
    forall i, j | 0 <= i < |f1.blocks| && 0 <= j < |f1.blocks[i].body|
      ensures Live(f1.arena, f1.blocks[i].body[j])
    {
      if i != b || j < |f.blocks[b].body| {
        var x := f.blocks[i].body[j];
        assert f1.blocks[i].body[j] == x;
        assert f1.arena[x] == f.arena[x];
      }
    }
  }

  /** Appending a terminator after a deletion makes nothing newly dead either. */
  lemma AppendAfterNoNewDead(a: Arena, g0: Function, b: nat, inst: Inst, seeds: seq<InstId>)
    requires b < |g0.blocks| && inst.IsTerminator()
    requires NoNewDead(a, g0.arena, seeds)
    ensures NoNewDead(a, AppendToBlock(g0, b, inst).arena, seeds)
  {
    var g := AppendToBlock(g0, b, inst).arena;
    assert g == g0.arena + [Some(inst)];
    forall y: nat | TriviallyDead(g, y)
      ensures TriviallyDead(g0.arena, y)
    {
      UseCountAppend(g0.arena, Some(inst), y);
      assert y != |g0.arena|;
      assert g[y] == g0.arena[y];
    }
  }
}

=== FILE: reach.dfy ===
/** Reachable blocks and the removal of the others (`removeUnreachableBlocks`). */
module Reachability {
  import opened IR
  import opened Cascade
  import opened Batch
  import opened Preserve

  /** Position of the first block named `l`. */
  function IndexOf(bs: seq<Block>, l: Label): (r: Option<nat>)
    ensures r.None? <==> l !in Labels(bs)
    ensures r.Some? ==> r.value < |bs| && bs[r.value].name == l
  {
    if |bs| == 0 then None
    else if bs[0].name == l then Some(0)
    else
      match IndexOf(bs[1..], l)
      case None => None
      case Some(i) => Some(i + 1)
  }

  /** Successor labels of the block named `l` (`succ_begin`..`succ_end`). */
  function Successors(f: Function, l: Label): seq<Label> {
    match IndexOf(f.blocks, l)
    case None => []
    case Some(i) => BlockDests(f, i)
  }

  /** `S` holds every successor of each of its blocks. */
  ghost predicate Closed(f: Function, S: set<Label>) {
    forall l, d :: l in S && d in Successors(f, l) ==> d in S
  }

  lemma SuccessorsInLabels(f: Function, l: Label)
    requires SuccessorsPresent(f)
    ensures forall d :: d in Successors(f, l) ==> d in Labels(f.blocks)
  {
  }

  /** Mark each successor not yet reached and push it on the worklist. */
  function Visit(succs: seq<Label>, work: seq<Label>, visited: set<Label>): (r: (seq<Label>, set<Label>))
    ensures visited <= r.1
    ensures forall d :: d in succs ==> d in r.1
    ensures forall x :: x in r.1 ==> x in visited || x in succs
    ensures |r.0| == |work| + |r.1 - visited| && r.0[..|work|] == work
    ensures forall x :: x in r.0 ==> x in work || x in r.1
    ensures forall x :: x in r.1 && x !in visited ==> x in r.0
    decreases |succs|
  {
    if |succs| == 0 then (work, visited)
    else
      var d := succs[0];
      assert succs == [d] + succs[1..];
      if d in visited then Visit(succs[1..], work, visited)
      else
        var r := Visit(succs[1..], work + [d], visited + {d});
        VisitStep(succs, work, visited, r);
        r
  }

  /** What `Visit` promises about its result `r`. */
  ghost predicate Visited(succs: seq<Label>, work: seq<Label>, visited: set<Label>, r: (seq<Label>, set<Label>)) {
    && visited <= r.1
    && (forall d :: d in succs ==> d in r.1)
    && (forall x :: x in r.1 ==> x in visited || x in succs)
    && |r.0| == |work| + |r.1 - visited| && r.0[..|work|] == work
    && (forall x :: x in r.0 ==> x in work || x in r.1)
    && (forall x :: x in r.1 && x !in visited ==> x in r.0)
  }

  /** Marking and pushing the first successor, then visiting the rest,
      visits all of them. */
  lemma VisitStep(succs: seq<Label>, work: seq<Label>, visited: set<Label>, r: (seq<Label>, set<Label>))
    requires |succs| > 0 && succs[0] !in visited
    requires Visited(succs[1..], work + [succs[0]], visited + {succs[0]}, r)
    ensures Visited(succs, work, visited, r)
  {
    var d := succs[0];
    assert succs == [d] + succs[1..];
    assert r.1 - visited == (r.1 - (visited + {d})) + {d};
    assert r.0[..|work|] == (r.0[..|work| + 1])[..|work|];
  }

  /** The worklist walk of `removeUnreachableBlocks`: pop the last entry,
      visit its successors, until the worklist is empty. */
  function Explore(f: Function, work: seq<Label>, visited: set<Label>): (r: set<Label>)
    requires SuccessorsPresent(f)
    requires visited <= Labels(f.blocks)
    requires forall x :: x in work ==> x in visited
    ensures visited <= r <= Labels(f.blocks)
    decreases |Labels(f.blocks) - visited|, |work|
  {
    if |work| == 0 then visited
    else
      var l := work[|work| - 1];
      SuccessorsInLabels(f, l);
      var v := Visit(Successors(f, l), work[..|work| - 1], visited);
      if v.1 == visited then
        Explore(f, v.0, v.1)
      else
        var x :| x in v.1 && x !in visited;
        assert Labels(f.blocks) - v.1 < Labels(f.blocks) - visited by {
          assert x in Labels(f.blocks) - visited;
        }
        Explore(f, v.0, v.1)
  }

  /** The labels reached from the entry block. */
  function Reachable(f: Function): (r: set<Label>)
    requires SuccessorsPresent(f) && |f.blocks| > 0
    ensures f.blocks[0].name in r && r <= Labels(f.blocks)
  {
    Explore(f, [f.blocks[0].name], {f.blocks[0].name})
  }

  /** Every visited label is on the worklist or has all its successors
      visited; when the worklist empties, the visited set is closed. */
  lemma {:induction false} ExploreCloses(f: Function, work: seq<Label>, visited: set<Label>)
    requires SuccessorsPresent(f)
    requires visited <= Labels(f.blocks)
    requires forall x :: x in work ==> x in visited
    requires forall l, d :: l in visited && l !in work && d in Successors(f, l) ==> d in visited
    ensures Closed(f, Explore(f, work, visited))
    decreases |Labels(f.blocks) - visited|, |work|
  {
    if |work| > 0 {
      var l := work[|work| - 1];
      SuccessorsInLabels(f, l);
      var v := Visit(Successors(f, l), work[..|work| - 1], visited);
      VisitCloses(f, l, work, visited, v);
      if v.1 != visited {
        var x :| x in v.1 && x !in visited;
        assert x in Labels(f.blocks) - visited;
      }
      ExploreCloses(f, v.0, v.1);
    }
  }

  /** After popping `l` and visiting its successors, the walk's invariant holds again. */
  lemma VisitCloses(f: Function, l: Label, work: seq<Label>, visited: set<Label>, v: (seq<Label>, set<Label>))
    requires |work| > 0 && l == work[|work| - 1]
    requires forall l', d :: l' in visited && l' !in work && d in Successors(f, l') ==> d in visited
    requires visited <= v.1 && forall d :: d in Successors(f, l) ==> d in v.1
    requires forall x :: x in v.1 && x !in visited ==> x in v.0
    requires |work| - 1 <= |v.0| && v.0[..|work| - 1] == work[..|work| - 1]
    ensures forall l', d :: l' in v.1 && l' !in v.0 && d in Successors(f, l') ==> d in v.1
  {
    forall l', d | l' in v.1 && l' !in v.0 && d in Successors(f, l')
      ensures d in v.1
    {
      if l' != l {
        assert l' in visited;
        assert l' !in work[..|work| - 1];
        assert work == work[..|work| - 1] + [l];
      }
    }
  }

  /** Whatever closed set holds the visited labels holds all explored ones. */
  lemma {:induction false} ExploreLeast(f: Function, work: seq<Label>, visited: set<Label>, S: set<Label>)
    requires SuccessorsPresent(f)
    requires visited <= Labels(f.blocks)
    requires forall x :: x in work ==> x in visited
    requires visited <= S && Closed(f, S)
    ensures Explore(f, work, visited) <= S
    decreases |Labels(f.blocks) - visited|, |work|
  {
    if |work| > 0 {
      var l := work[|work| - 1];
      SuccessorsInLabels(f, l);
      var v := Visit(Successors(f, l), work[..|work| - 1], visited);
      if v.1 != visited {
        var x :| x in v.1 && x !in visited;
        assert x in Labels(f.blocks) - visited;
      }
      ExploreLeast(f, v.0, v.1, S);
    }
  }

  /** The reached set is closed under successors. */
  lemma ReachableClosed(f: Function)
    requires SuccessorsPresent(f) && |f.blocks| > 0
    ensures Closed(f, Reachable(f))
  {
    ExploreCloses(f, [f.blocks[0].name], {f.blocks[0].name});
  }

  /** The reached set is the least closed set holding the entry. */
  lemma ReachableLeast(f: Function, S: set<Label>)
    requires SuccessorsPresent(f) && |f.blocks| > 0
    requires f.blocks[0].name in S && Closed(f, S)
    ensures Reachable(f) <= S
  {
    ExploreLeast(f, [f.blocks[0].name], {f.blocks[0].name}, S);
  }

  /** With distinct labels, a block's label finds that block. */
  lemma IndexOfDistinct(bs: seq<Block>, i: nat)
    requires DistinctLabels(bs) && i < |bs|
    ensures IndexOf(bs, bs[i].name) == Some(i)
  {
    assert bs[i].name in Labels(bs);
  }
}

=== FILE: sweep.dfy ===
/** Removal of the blocks the entry cannot reach (`removeUnreachableBlocks`). */
module Sweep {
  import opened IR
  import opened Cascade
  import opened Batch
  import opened Preserve
  import opened Reachability

  /** Positions of the blocks among the first `n` whose label is in `R`, ascending. */
  function Indices(bs: seq<Block>, R: set<Label>, n: nat): (ix: seq<nat>)
    requires n <= |bs|
    ensures forall k :: 0 <= k < |ix| ==> ix[k] < n && bs[ix[k]].name in R
    ensures forall k, m :: 0 <= k < m < |ix| ==> ix[k] < ix[m]
    ensures forall i :: 0 <= i < n && bs[i].name in R ==> i in ix
  {
    if n == 0 then [] else Indices(bs, R, n - 1) + (if bs[n - 1].name in R then [n - 1] else [])
  }

  /** The blocks labelled in `R`, in their original order. */
  function RemoveBlocks(bs: seq<Block>, R: set<Label>): (r: seq<Block>)
    ensures |r| <= |bs|
    ensures forall b :: b in r <==> b in bs && b.name in R
  {
    var ix := Indices(bs, R, |bs|);
    var r := seq(|ix|, k requires 0 <= k < |ix| => bs[ix[k]]);
    assert |r| <= |bs| by {
      IncreasingBound(ix, |bs|);
    }
    assert forall b :: b in bs && b.name in R ==> b in r by {
      forall b | b in bs && b.name in R
        ensures b in r
      {
        var i :| 0 <= i < |bs| && bs[i] == b;
        var k :| 0 <= k < |ix| && ix[k] == i;
        assert r[k] == b;
      }
    }
    r
  }

  /** A strictly increasing sequence below `n` has at most `n` entries. */
  lemma {:induction false} IncreasingBound(ix: seq<nat>, n: nat)
    requires forall k :: 0 <= k < |ix| ==> ix[k] < n
    requires forall k, m :: 0 <= k < m < |ix| ==> ix[k] < ix[m]
    ensures |ix| <= n
    decreases n
  {
    if |ix| > 0 {
      var p := ix[..|ix| - 1];
      forall k | 0 <= k < |p|
        ensures p[k] < ix[|ix| - 1]
      {
      }
      IncreasingBound(p, ix[|ix| - 1]);
    }
  }

  /** The terminators of the blocks labelled outside `R`, in block order. */
  function DeadTerminators(bs: seq<Block>, R: set<Label>): (r: seq<InstId>)
    requires forall i :: 0 <= i < |bs| ==> |bs[i].body| > 0
    ensures forall x :: x in r ==> exists i :: 0 <= i < |bs| && bs[i].name !in R && x == bs[i].body[|bs[i].body| - 1]
    ensures forall i :: 0 <= i < |bs| && bs[i].name !in R ==> bs[i].body[|bs[i].body| - 1] in r
  {
    if |bs| == 0 then []
    else
      var p := DeadTerminators(bs[..|bs| - 1], R);
      var b := bs[|bs| - 1];
      assert forall i :: 0 <= i < |bs| - 1 ==> bs[..|bs| - 1][i] == bs[i];
      p + (if b.name !in R then [b.body[|b.body| - 1]] else [])
  }

  /** Every instruction of the blocks labelled outside `R`, in block order. */
  function DeadInsts(bs: seq<Block>, R: set<Label>): (r: seq<InstId>)
    ensures forall x :: x in r ==> exists i :: 0 <= i < |bs| && bs[i].name !in R && x in bs[i].body
    ensures forall i, x :: 0 <= i < |bs| && bs[i].name !in R && x in bs[i].body ==> x in r
  {
    if |bs| == 0 then []
    else
      var p := DeadInsts(bs[..|bs| - 1], R);
      var b := bs[|bs| - 1];
      assert forall i :: 0 <= i < |bs| - 1 ==> bs[..|bs| - 1][i] == bs[i];
      p + (if b.name !in R then b.body else [])
  }

  /** Erase each instruction of `ts` in turn with the single-instruction
      deleter (the loop dropping the unreachable blocks' terminators). */
  function EraseEach(f: Function, ts: seq<InstId>): (g: Function)
    requires BlocksLive(f)
    ensures forall t :: t in ts ==> !Live(g.arena, t)
    ensures OnlyErases(f.arena, g.arena, ts)
    ensures ErasedForCause(f.arena, g.arena, ts) && UsesShrink(f.arena, g.arena)
    ensures g.blocks == Prune(f.blocks, g.arena) && BlocksLive(g)
    decreases |ts|
  {
    if |ts| == 0 then
      PruneLive(f);
      f
    else
      var e := EraseAndCleanupOne(f, ts[0]).0;
      var g := EraseEach(e, ts[1..]);
      EachStep(f.arena, e.arena, g.arena, ts);
      PruneTwice(f.blocks, e.arena, g.arena);
      g
  }

  /** Erasing the first entry, then the rest, erases the whole list. */
  lemma EachStep(a: Arena, b: Arena, c: Arena, ts: seq<InstId>)
    requires |ts| > 0 && !Live(b, ts[0])
    requires OnlyErases(a, b, [ts[0]]) && ErasedForCause(a, b, [ts[0]]) && UsesShrink(a, b)
    requires OnlyErases(b, c, ts[1..]) && ErasedForCause(b, c, ts[1..]) && UsesShrink(b, c)
    requires forall t :: t in ts[1..] ==> !Live(c, t)
    ensures OnlyErases(a, c, ts) && ErasedForCause(a, c, ts) && UsesShrink(a, c)
    ensures forall t :: t in ts ==> !Live(c, t)
  {
    ChainTrans(a, b, c, [ts[0]], ts[1..]);
    assert [ts[0]] + ts[1..] == ts;
  }

  lemma {:induction false} IndicesByName(bs: seq<Block>, cs: seq<Block>, R: set<Label>, n: nat)
    requires n <= |bs| == |cs| && forall i :: 0 <= i < |bs| ==> bs[i].name == cs[i].name
    ensures Indices(bs, R, n) == Indices(cs, R, n)
  {
    if n > 0 {
      IndicesByName(bs, cs, R, n - 1);
    }
  }

  /** Removing blocks and pruning bodies commute. */
  lemma RemoveBlocksPrune(bs: seq<Block>, R: set<Label>, a: Arena)
    ensures RemoveBlocks(Prune(bs, a), R) == Prune(RemoveBlocks(bs, R), a)
  {
    IndicesByName(Prune(bs, a), bs, R, |bs|);
  }

  /** `g` is what the sweep leaves of `f`: the blocks reached from the entry,
      in order, each less the instructions erased; every instruction of an
      unreachable block erased; anything else erased only if disposable. */
  ghost predicate SweptShape(f: Function, g: Function)
    requires SuccessorsPresent(f) && |f.blocks| > 0
  {
    var R := Reachable(f);
    && g.blocks == Prune(RemoveBlocks(f.blocks, R), g.arena)
    && (forall x :: x in DeadInsts(f.blocks, R) ==> !Live(g.arena, x))
    && OnlyErases(f.arena, g.arena, DeadInsts(f.blocks, R))
  }

  /** The sweep's result, with every erasure outside the unreachable blocks
      made for cause: read by an erased instruction and left without uses. */
  ghost predicate SweptTo(f: Function, g: Function)
    requires SuccessorsPresent(f) && |f.blocks| > 0
  {
    && SweptShape(f, g)
    && ErasedForCause(f.arena, g.arena, DeadInsts(f.blocks, Reachable(f)))
  }

  /** `removeUnreachableBlocks`: nothing to do for an empty function or when
      every block is reached from the entry; otherwise the unreachable
      blocks' instructions are deleted, then the blocks themselves. The
      count is the number of blocks removed. */
  function RemoveUnreachableBlocks(f: Function): (r: (Function, bool, nat))
    requires WellFormed(f)
    ensures |f.blocks| == 0 ==> r == (f, false, 0)
    ensures |f.blocks| > 0 ==> (r.1 <==> exists i :: 0 <= i < |f.blocks| && f.blocks[i].name !in Reachable(f))
    ensures !r.1 ==> r == (f, false, 0)
    ensures r.1 ==> |f.blocks| > 0 && SweptTo(f, r.0) && r.2 == |f.blocks| - |r.0.blocks| && r.2 > 0
    ensures WellFormed(r.0)
  {
    if |f.blocks| == 0 then (f, false, 0)
    else
      var R := Reachable(f);
      AllReachableIff(f);
      if |R| == |f.blocks| then (f, false, 0)
      else
        var g := SweepUnreachable(f);
        var r := (g, true, |f.blocks| - |g.blocks|);
        assert r.0 == g && r.1 && r.2 > 0;
        r
  }

  /** Delete the unreachable blocks' instructions, then the blocks. */
  function SweepUnreachable(f: Function): (g: Function)
    requires WellFormed(f) && |f.blocks| > 0
    requires exists i :: 0 <= i < |f.blocks| && f.blocks[i].name !in Reachable(f)
    ensures SweptTo(f, g) && WellFormed(g) && |g.blocks| < |f.blocks|
  {
    var R := Reachable(f);
    var e := DeleteUnreachable(f, R);
    var kept := RemoveBlocks(e.blocks, R);
    RemoveBlocksPrune(f.blocks, R, e.arena);
    var g := Function(e.arena, kept);
    SweepKeepsWellFormed(f, g);
    SweepRemoves(f, R);
    g
  }

  /** The two deletion loops: first each unreachable block's terminator
      with the single-instruction deleter, then every remaining instruction
      of those blocks in one batch. */
  function DeleteUnreachable(f: Function, R: set<Label>): (g: Function)
    requires BlocksLive(f) && forall i :: 0 <= i < |f.blocks| ==> |f.blocks[i].body| > 0
    ensures g.blocks == Prune(f.blocks, g.arena)
    ensures forall x :: x in DeadInsts(f.blocks, R) ==> !Live(g.arena, x)
    ensures OnlyErases(f.arena, g.arena, DeadInsts(f.blocks, R))
    ensures ErasedForCause(f.arena, g.arena, DeadInsts(f.blocks, R))
  {
    var g1 := EraseEach(f, DeadTerminators(f.blocks, R));
    var e := EraseAndCleanup(g1, DeadInsts(g1.blocks, R)).0;
    PruneTwice(f.blocks, g1.arena, e.arena);
    DeadIncluded(f, R, g1);
    OnlyErasesTrans(f.arena, g1.arena, e.arena, DeadTerminators(f.blocks, R), DeadInsts(g1.blocks, R));
    OnlyErasesWiden(f.arena, e.arena, DeadTerminators(f.blocks, R) + DeadInsts(g1.blocks, R), DeadInsts(f.blocks, R));
    DeadErased(f, R, g1, e);
    ForCauseTrans(f.arena, g1.arena, e.arena, DeadTerminators(f.blocks, R), DeadInsts(g1.blocks, R),
                  DeadTerminators(f.blocks, R), DeadInsts(g1.blocks, R));
    ForCauseWiden(f.arena, e.arena, DeadTerminators(f.blocks, R) + DeadInsts(g1.blocks, R), DeadInsts(f.blocks, R));
    e
  }

  /** Both deletion lists name only instructions of unreachable blocks. */
  lemma DeadIncluded(f: Function, R: set<Label>, g1: Function)
    requires forall i :: 0 <= i < |f.blocks| ==> |f.blocks[i].body| > 0
    requires g1.blocks == Prune(f.blocks, g1.arena)
    ensures forall x :: x in DeadTerminators(f.blocks, R) + DeadInsts(g1.blocks, R) ==> x in DeadInsts(f.blocks, R)
  {
    var ts := DeadTerminators(f.blocks, R);
    var ds := DeadInsts(g1.blocks, R);
    forall x | x in ts + ds
      ensures x in DeadInsts(f.blocks, R)
    {
      if x in ts {
        var i :| 0 <= i < |f.blocks| && f.blocks[i].name !in R && x == f.blocks[i].body[|f.blocks[i].body| - 1];
        assert x in f.blocks[i].body;
      } else {
        var i :| 0 <= i < |g1.blocks| && g1.blocks[i].name !in R && x in g1.blocks[i].body;
        assert x in f.blocks[i].body;
      }
    }
  }

  /** Whatever the first loop left of an unreachable block, the batch erased. */
  lemma DeadErased(f: Function, R: set<Label>, g1: Function, e: Function)
    requires g1.blocks == Prune(f.blocks, g1.arena)
    requires |e.arena| == |g1.arena|
    requires forall k :: 0 <= k < |g1.arena| && !Live(g1.arena, k) ==> !Live(e.arena, k)
    requires forall s :: s in DeadInsts(g1.blocks, R) ==> !Live(e.arena, s)
    ensures forall x :: x in DeadInsts(f.blocks, R) ==> !Live(e.arena, x)
  {
    forall x | x in DeadInsts(f.blocks, R)
      ensures !Live(e.arena, x)
    {
      var i :| 0 <= i < |f.blocks| && f.blocks[i].name !in R && x in f.blocks[i].body;
      if Live(g1.arena, x) {
        assert x in g1.blocks[i].body;
      }
    }
  }

  lemma {:induction false} LabelsCount(bs: seq<Block>)
    requires DistinctLabels(bs)
    ensures |Labels(bs)| == |bs|
  {
    if |bs| > 0 {
      var p := bs[..|bs| - 1];
      LabelsCount(p);
      assert Labels(bs) == Labels(p) + {bs[|bs| - 1].name};
      assert bs[|bs| - 1].name !in Labels(p);
    }
  }

  /** Comparing counts, as the source does, decides whether every block is reached. */
  lemma AllReachableIff(f: Function)
    requires WellFormed(f) && |f.blocks| > 0
    ensures |Reachable(f)| == |f.blocks| <==> forall i :: 0 <= i < |f.blocks| ==> f.blocks[i].name in Reachable(f)
  {
    var R := Reachable(f);
    LabelsCount(f.blocks);
    if |R| == |f.blocks| && R != Labels(f.blocks) {
      var x :| x in Labels(f.blocks) && x !in R;
      assert R <= Labels(f.blocks) - {x};
      assert |Labels(f.blocks) - {x}| == |Labels(f.blocks)| - 1;
      SubsetCard(R, Labels(f.blocks) - {x});
    }
    if forall i :: 0 <= i < |f.blocks| ==> f.blocks[i].name in R {
      assert R == Labels(f.blocks);
    }
  }

  lemma SubsetCard(A: set<Label>, B: set<Label>)
    requires A <= B
    ensures |A| <= |B|
  {
    assert B == A + (B - A);
  }

  /** Some block is dropped whenever some block is unreachable. */
  lemma SweepRemoves(f: Function, R: set<Label>)
    requires exists i :: 0 <= i < |f.blocks| && f.blocks[i].name !in R
    ensures |RemoveBlocks(f.blocks, R)| < |f.blocks|
  {
    var i :| 0 <= i < |f.blocks| && f.blocks[i].name !in R;
    var ix := Indices(f.blocks, R, |f.blocks|);
    forall k | 0 <= k < |ix|
      ensures ix[k] != i
    {
    }
    if |ix| == |f.blocks| {
      IndicesCover(ix, |f.blocks|, i);
    }
  }

  /** A strictly increasing sequence of `n` entries below `n` lists every position. */
  lemma {:induction false} IndicesCover(ix: seq<nat>, n: nat, i: nat)
    requires |ix| == n && i < n
    requires forall k :: 0 <= k < |ix| ==> ix[k] < n
    requires forall k, m :: 0 <= k < m < |ix| ==> ix[k] < ix[m]
    ensures i in ix
    decreases n
  {
    if ix[n - 1] != n - 1 {
      assert ix[n - 1] < n - 1;
      IncreasingBound(ix, n - 1);
    } else if i < n - 1 {
      var p := ix[..n - 1];
      forall k | 0 <= k < |p|
        ensures p[k] < n - 1
      {
      }
      IndicesCover(p, n - 1, i);
    }
  }

  /** The `k`-th block left by the sweep is the `ix[k]`-th block of `f`, pruned. */
  lemma SweptBlock(f: Function, g: Function, k: nat)
    requires SuccessorsPresent(f) && |f.blocks| > 0 && SweptShape(f, g) && k < |g.blocks|
    ensures var ix := Indices(f.blocks, Reachable(f), |f.blocks|);
            && |g.blocks| == |ix| && ix[k] < |f.blocks| && f.blocks[ix[k]].name in Reachable(f)
            && g.blocks[k] == Block(f.blocks[ix[k]].name, Keep(f.blocks[ix[k]].body, g.arena))
  {
  }

  /** A kept block loses only disposable instructions and keeps its terminator. */
  lemma SweptBlockOk(f: Function, g: Function, k: nat)
    requires WellFormed(f) && |f.blocks| > 0 && SweptShape(f, g) && k < |g.blocks|
    ensures var j := Indices(f.blocks, Reachable(f), |f.blocks|)[k];
            && j < |f.blocks|
            && WellTerminated(g.arena, g.blocks[k].body)
            && BlockDests(g, k) == BlockDests(f, j)
  {
    var R := Reachable(f);
    SweptBlock(f, g, k);
    var j := Indices(f.blocks, R, |f.blocks|)[k];
    KeptReachedBlock(f.arena, g.arena, f.blocks, R, j);
    var body := f.blocks[j].body;
    assert g.blocks[k].body == Keep(body, g.arena);
  }

  lemma KeptReachedBlock(a: Arena, g: Arena, bs: seq<Block>, R: set<Label>, j: nat)
    requires DistinctPlacement(bs) && j < |bs| && bs[j].name in R
    requires WellTerminated(a, bs[j].body)
    requires OnlyErases(a, g, DeadInsts(bs, R))
    ensures WellTerminated(g, Keep(bs[j].body, g))
    ensures var body := bs[j].body;
            && |Keep(body, g)| > 0 && Keep(body, g)[|Keep(body, g)| - 1] == body[|body| - 1]
            && g[body[|body| - 1]] == a[body[|body| - 1]]
  {
    var body := bs[j].body;
    forall x | x in body
      ensures Settled(a, g, x)
    {
      LiveBlockNotDead(bs, R, j, x);
    }
    KeptBlock(a, g, body);
    assert Settled(a, g, body[|body| - 1]);
  }

  /** An instruction of a reached block is in no unreachable block. */
  lemma LiveBlockNotDead(bs: seq<Block>, R: set<Label>, j: nat, x: InstId)
    requires DistinctPlacement(bs) && j < |bs| && bs[j].name in R && x in bs[j].body
    ensures x !in DeadInsts(bs, R)
  {
  }

  lemma SweptDistinct(f: Function, g: Function)
    requires WellFormed(f) && |f.blocks| > 0 && SweptShape(f, g)
    ensures forall k :: 0 <= k < |g.blocks| ==> Distinct(g.blocks[k].body)
  {
    var ix := Indices(f.blocks, Reachable(f), |f.blocks|);
    forall k | 0 <= k < |g.blocks|
      ensures Distinct(g.blocks[k].body)
    {
      SweptBlock(f, g, k);
      KeepDistinct(f.blocks[ix[k]].body, g.arena);
    }
  }

  lemma SweptDisjoint(f: Function, g: Function, k: nat, m: nat, x: InstId)
    requires WellFormed(f) && |f.blocks| > 0 && SweptShape(f, g)
    requires k < |g.blocks| && m < |g.blocks| && k != m && x in g.blocks[k].body
    ensures x !in g.blocks[m].body
  {
    var ix := Indices(f.blocks, Reachable(f), |f.blocks|);
    SweptBlock(f, g, k);
    SweptBlock(f, g, m);
    assert ix[k] != ix[m];
    assert x in f.blocks[ix[k]].body;
  }

  lemma SweptLabels(f: Function, g: Function)
    requires WellFormed(f) && |f.blocks| > 0 && SweptShape(f, g)
    ensures DistinctLabels(g.blocks)
  {
    var ix := Indices(f.blocks, Reachable(f), |f.blocks|);
    forall k, m | 0 <= k < m < |g.blocks|
      ensures g.blocks[k].name != g.blocks[m].name
    {
      SweptBlock(f, g, k);
      SweptBlock(f, g, m);
      assert ix[k] < ix[m];
    }
  }

  lemma SweptPlacement(f: Function, g: Function)
    requires WellFormed(f) && |f.blocks| > 0 && SweptShape(f, g)
    ensures DistinctPlacement(g.blocks) && DistinctLabels(g.blocks)
  {
    SweptDistinct(f, g);
    forall k, m, x | 0 <= k < |g.blocks| && 0 <= m < |g.blocks| && k != m && x in g.blocks[k].body
      ensures x !in g.blocks[m].body
    {
      SweptDisjoint(f, g, k, m, x);
    }
    SweptLabels(f, g);
  }

  /** Successors of a reached block are reached, and so still present. */
  lemma SweptSuccessors(f: Function, g: Function)
    requires WellFormed(f) && |f.blocks| > 0 && SweptShape(f, g)
    requires forall k :: 0 <= k < |g.blocks| ==> BlockDests(g, k) == BlockDests(f, Indices(f.blocks, Reachable(f), |f.blocks|)[k])
    ensures SuccessorsPresent(g)
  {
    var R := Reachable(f);
    var ix := Indices(f.blocks, R, |f.blocks|);
    ReachableClosed(f);
    forall k, d | 0 <= k < |g.blocks| && d in BlockDests(g, k)
      ensures d in Labels(g.blocks)
    {
      SweptBlock(f, g, k);
      IndexOfDistinct(f.blocks, ix[k]);
      assert d in Successors(f, f.blocks[ix[k]].name);
      assert d in R;
      var i :| 0 <= i < |f.blocks| && f.blocks[i].name == d;
      var m :| 0 <= m < |ix| && ix[m] == i;
      SweptBlock(f, g, m);
      assert g.blocks[m].name == d;
    }
  }

  /** The sweep keeps the function well formed. */
  lemma SweepKeepsWellFormed(f: Function, g: Function)
    requires WellFormed(f) && |f.blocks| > 0
    requires SweptShape(f, g)
    ensures WellFormed(g)
  {
    var ix := Indices(f.blocks, Reachable(f), |f.blocks|);
    forall k | 0 <= k < |g.blocks|
      ensures WellTerminated(g.arena, g.blocks[k].body) && BlockDests(g, k) == BlockDests(f, ix[k])
    {
      SweptBlockOk(f, g, k);
    }
    SweptPlacement(f, g);
    SweptSuccessors(f, g);
    forall x | 0 <= x < |g.arena| && g.arena[x].Some?
      ensures g.arena[x].value.WellShaped()
    {
    }
  }

  /** The entry block stays first. */
  lemma SweptEntry(f: Function, g: Function)
    requires WellFormed(f) && |f.blocks| > 0 && SweptShape(f, g)
    ensures |g.blocks| > 0 && g.blocks[0].name == f.blocks[0].name
  {
    var ix := Indices(f.blocks, Reachable(f), |f.blocks|);
    assert 0 in ix;
    var m :| 0 <= m < |ix| && ix[m] == 0;
    assert ix[0] <= ix[m];
    SweptBlock(f, g, 0);
  }

  /** A block kept by the sweep has the same successors as before. */
  lemma SweptSuccessorsSame(f: Function, g: Function, l: Label)
    requires WellFormed(f) && |f.blocks| > 0 && SweptShape(f, g)
    requires l in Reachable(f)
    ensures Successors(g, l) == Successors(f, l)
  {
    var R := Reachable(f);
    var ix := Indices(f.blocks, R, |f.blocks|);
    var i :| 0 <= i < |f.blocks| && f.blocks[i].name == l;
    var k :| 0 <= k < |ix| && ix[k] == i;
    SweptBlock(f, g, k);
    SweptBlockOk(f, g, k);
    SweptLabels(f, g);
    IndexOfDistinct(f.blocks, i);
    IndexOfDistinct(g.blocks, k);
  }

  /** After the sweep every remaining block is reached from the entry. */
  lemma SweptAllReachable(f: Function, g: Function)
    requires WellFormed(f) && |f.blocks| > 0 && SweptShape(f, g) && WellFormed(g)
    ensures |g.blocks| > 0
    ensures forall k :: 0 <= k < |g.blocks| ==> g.blocks[k].name in Reachable(g)
  {
    var R := Reachable(f);
    SweptEntry(f, g);
    var Rg := Reachable(g);
    ReachableClosed(g);
    forall l, d | l in Rg && d in Successors(f, l)
      ensures d in Rg
    {
      var k :| 0 <= k < |g.blocks| && g.blocks[k].name == l;
      SweptBlock(f, g, k);
      SweptSuccessorsSame(f, g, l);
    }
    ReachableLeast(f, Rg);
    forall k | 0 <= k < |g.blocks|
      ensures g.blocks[k].name in Rg
    {
      SweptBlock(f, g, k);
    }
  }

  /** The swept function's labels are exactly the reached ones. */
  lemma SweptLabelSet(f: Function, g: Function)
    requires WellFormed(f) && |f.blocks| > 0 && SweptShape(f, g)
    ensures Labels(g.blocks) == Reachable(f)
  {
    forall l | l in Labels(g.blocks)
      ensures l in Reachable(f)
    {
      SweptLabelReached(f, g, l);
    }
    forall l | l in Reachable(f)
      ensures l in Labels(g.blocks)
    {
      ReachedLabelSwept(f, g, l);
    }
  }

  lemma SweptLabelReached(f: Function, g: Function, l: Label)
    requires WellFormed(f) && |f.blocks| > 0 && SweptShape(f, g)
    requires l in Labels(g.blocks)
    ensures l in Reachable(f)
  {
    var k :| 0 <= k < |g.blocks| && g.blocks[k].name == l;
    SweptBlock(f, g, k);
  }

  lemma ReachedLabelSwept(f: Function, g: Function, l: Label)
    requires WellFormed(f) && |f.blocks| > 0 && SweptShape(f, g)
    requires l in Reachable(f)
    ensures l in Labels(g.blocks)
  {
    var ix := Indices(f.blocks, Reachable(f), |f.blocks|);
    var i :| 0 <= i < |f.blocks| && f.blocks[i].name == l;
    var k :| 0 <= k < |ix| && ix[k] == i;
    SweptBlock(f, g, k);
  }

  /** With every block reached, the labels are exactly the reached ones. */
  lemma AllReachedLabels(f: Function)
    requires WellFormed(f) && |f.blocks| > 0
    requires forall i :: 0 <= i < |f.blocks| ==> f.blocks[i].name in Reachable(f)
    ensures Labels(f.blocks) == Reachable(f)
  {
    forall l | l in Labels(f.blocks)
      ensures l in Reachable(f)
    {
      var i :| 0 <= i < |f.blocks| && f.blocks[i].name == l;
    }
  }

  /** After `removeUnreachableBlocks` the function keeps its entry, its
      labels are exactly the ones reached before, and every block is
      reached from the entry. */
  lemma SweepKeepsReached(f: Function)
    requires WellFormed(f) && |f.blocks| > 0
    ensures var g := RemoveUnreachableBlocks(f).0;
            && |g.blocks| > 0 && g.blocks[0].name == f.blocks[0].name
            && Labels(g.blocks) == Reachable(f)
            && forall k :: 0 <= k < |g.blocks| ==> g.blocks[k].name in Reachable(g)
  {
    var r := RemoveUnreachableBlocks(f);
    if r.1 {
      var g := r.0;
      assert SweptTo(f, g) && WellFormed(g);
      SweptEntry(f, g);
      SweptAllReachable(f, g);
      SweptLabelSet(f, g);
    } else {
      AllReachedLabels(f);
    }
  }

  /** A second sweep finds nothing left to remove. */
  lemma SweepIdempotent(f: Function)
    requires WellFormed(f)
    ensures var g := RemoveUnreachableBlocks(f).0;
            RemoveUnreachableBlocks(g) == (g, false, 0)
  {
    if |f.blocks| > 0 {
      SweepKeepsReached(f);
    }
  }
}
